=== FILE: README.md ===
# AyurSutra core, modelled in Dafny

AyurSutra is a demo Panchakarma practice-management app. It has an Express
backend and a React frontend. This project models the logic of both halves
as pure Dafny functions over immutable data, and proves what that logic
promises.

Backend:

- **Doctor registry.** The fixed table from treatment type to three doctors,
  as the booking route and the treatments route each declare it.
- **Appointment store.** Booking validates the six required fields. It then
  assigns a doctor: the one asked for if that doctor is in the treatment's
  pool, otherwise the pool's first doctor, otherwise none. The record is
  appended. Also modelled: the list query with its five optional filters,
  lookups by id, doctor and patient, status updates, and the fixed slot
  list.
- **Practitioner→patient index.** Each booking that gets a doctor records
  the patient under that doctor, once per patient id.
- **Other routes.** The treatments, practitioners and notifications routes.
- **Chatbot.** The rule-based responder and the endpoint's fall-backs
  around the language-model call.

Frontend (the state updates and derived values of hooks and components):

- **Hooks.** Appointments, notifications, patient management and patient
  progress.
- **Patient pages.** The booking wizard, the treatment-phase indicator,
  milestones, the notification panel, the treatment history and the
  profile.
- **Practitioner pages.** The day scheduler, the calendar grids, the
  treatment planner, the patient list and the patient records.

Model choices:

- Every route becomes a function. It returns a `Response` (`Ok`,
  `BadRequest`, `NotFound`) and, where it writes, the new store.
- Every React state update becomes a function from the old state to the new
  one.
- Fresh ids and "now" are parameters.
- Dates are day numbers (days since 1970-01-01). Clock times are
  `(hour, minute)` pairs.
- JavaScript's falsy empty string is modelled by `""` meaning "absent".
- `Array.prototype.sort` is modelled as a stable insertion sort
  (`Seqs.SortBy`) under a total preorder.

Shared helpers live in `Seqs` and `Text`:

- `Seqs`: filtering, finding, counting, summing, update-where, take and the
  stable sort.
- `Text`: ASCII case mapping, substring search, `split`/`join`, `trim`,
  decimal printing and code-unit string order.

## Model

| member | source | states |
|---|---|---|
| Registry.LookupSpec | ayursutra/backend/routes/appointments.js:110 | `treatmentDoctors[type] \|\| []`: an unknown key gives the empty pool; otherwise the pool of the first entry with that key |
| Registry.LookupListed | ayursutra/backend/routes/treatments.js:78 | in a table with distinct keys, a listed key yields exactly the pool stored under it |
| Registry.FindDoctor | ayursutra/backend/routes/appointments.js:112 | `list.find(d => d.id === doctorId)`: found iff some doctor carries the id, and the result is the first such doctor |
| Registry.FindDoctorExact | ayursutra/backend/routes/appointments.js:112 | with distinct ids, searching for a pool member's id returns that member |
| Registry.TreatmentTableShape | ayursutra/backend/routes/treatments.js:6-37 | the treatments table has the six keys Panchakarma, Abhyanga, Shirodhara, Udvartana, Nasya and Basti, distinct, each with three doctors of distinct ids |
| Registry.BookingTableShape | ayursutra/backend/routes/appointments.js:6-27 | the booking table has the four keys Panchakarma, Abhyanga, Shirodhara and Udvartana, distinct, each with three doctors of distinct ids |
| Registry.SharedPoolsAgree | ayursutra/backend/routes/appointments.js:6-27 | for the four types both tables list, the booking pool is the treatments pool without the profile fields, in the same order |
| Registry.UnknownTypeHasNoPool | ayursutra/backend/routes/appointments.js:110 | a type outside the booking table has an empty pool |
| Registry.BookingPoolDistinct | ayursutra/backend/routes/appointments.js:6-27 | every booking pool has pairwise distinct doctor ids |
| PatientIndex.Get | NavAyush_SIH-main/ayursutra/backend/data/practitionerPatients.js:17-19 | an unknown doctor id gives the empty list and a known one gives exactly the stored list; a valid index gives a list without repeated patient ids |
| PatientIndex.Add | NavAyush_SIH-main/ayursutra/backend/data/practitionerPatients.js:6-15 | a missing doctor or one with an empty id changes nothing; otherwise the doctor's key is added, other keys keep their lists, the patient is listed afterwards, a new patient is appended at the end, and an already listed id leaves the index unchanged |
| PatientIndex.ClearAll | NavAyush_SIH-main/ayursutra/backend/data/practitionerPatients.js:21-23 | after clearing, every doctor's list is empty |
| PatientIndex.AddPreservesValid | NavAyush_SIH-main/ayursutra/backend/data/practitionerPatients.js:10-14 | adding keeps every list free of repeated patient ids |
| PatientIndex.AddIdempotent | NavAyush_SIH-main/ayursutra/backend/data/practitionerPatients.js:10-14 | adding the same patient twice gives the index that adding once gives |
| PatientIndex.FirstNameWins | NavAyush_SIH-main/ayursutra/backend/data/practitionerPatients.js:11-14 | once an id is listed, adding it again under another name changes nothing, so the first name is kept |
| PatientIndex.NeverAddedIsEmpty | NavAyush_SIH-main/ayursutra/backend/data/practitionerPatients.js:17-19 | a doctor who never received a patient has an empty list, whatever the adds for other doctors |
| PatientIndex.AddAllUntouched | NavAyush_SIH-main/ayursutra/backend/data/practitionerPatients.js:6-15 | a run of adds for other doctors leaves a doctor's list unchanged |
| PatientIndex.ListedOnce | NavAyush_SIH-main/ayursutra/backend/data/practitionerPatients.js:10-14 | in a list without repeated ids, a listed patient occurs exactly once |
| Appointments.Assign | ayursutra/backend/routes/appointments.js:109-116 | a requested doctor in the treatment's pool is assigned; with no request, or one outside the pool, the pool's first doctor is assigned; an empty pool gives no doctor |
| Appointments.AssignRequested | ayursutra/backend/routes/appointments.js:111-113 | when the requested id belongs to pool entry `i`, that exact entry is assigned |
| Appointments.UnknownTypeUnassigned | ayursutra/backend/routes/appointments.js:110-116 | a type outside Panchakarma, Abhyanga, Shirodhara and Udvartana gets no doctor, whatever was requested |
| Appointments.Book | ayursutra/backend/routes/appointments.js:103-135 | a request missing any of the six required fields gives 400 and leaves list and index unchanged; otherwise the record copies the inputs, is "scheduled", carries the assigned doctor and is appended at the end; the index is unchanged without a doctor and is otherwise exactly the old index with the patient added under that doctor; other doctors' lists are untouched |
| Appointments.BookPreservesIndex | ayursutra/backend/routes/appointments.js:129-132 | booking keeps every index list free of repeated patient ids |
| Appointments.FilterAppointments | ayursutra/backend/routes/appointments.js:56-66 | the result is an order-preserving subsequence of the list; it holds exactly the appointments passing every given filter (patient, doctor, status, inclusive from/to dates) |
| Appointments.NoFilterKeepsAll | ayursutra/backend/routes/appointments.js:56-72 | a query with no field given returns the whole list |
| Appointments.SingleDayRange | ayursutra/backend/routes/appointments.js:62-63 | both date bounds are inclusive: `from = to = d` returns exactly the appointments on day `d` |
| Appointments.ByDoctor | ayursutra/backend/routes/appointments.js:75-78 | exactly the appointments whose doctor has that id, in order (a subsequence of the list) |
| Appointments.ByPatient | ayursutra/backend/routes/appointments.js:81-84 | exactly the appointments of that patient, in order (a subsequence of the list) |
| Appointments.ByDoctorIsQuery | ayursutra/backend/routes/appointments.js:60 | the doctor route equals the list query with only a (non-empty) doctor id given |
| Appointments.ByPatientIsQuery | ayursutra/backend/routes/appointments.js:59 | the patient route equals the list query with only a (non-empty) patient id given |
| Appointments.DoctorFilterSkipsUnassigned | ayursutra/backend/routes/appointments.js:60 | with a doctor filter, no appointment without a doctor is returned |
| Appointments.IndexOf | ayursutra/backend/routes/appointments.js:144 | `findIndex`: -1 iff no appointment has the id, else the first position with it |
| Appointments.GetById | ayursutra/backend/routes/appointments.js:93-100 | found iff `parseInt` gives a number some appointment carries; the result is the first appointment with that id; otherwise 404 |
| Appointments.BookThenGet | ayursutra/backend/routes/appointments.js:118-134 | a booked appointment whose fresh id was unused is what a lookup of that id returns |
| Appointments.UpdateStatus | ayursutra/backend/routes/appointments.js:138-148 | a status outside scheduled/completed/cancelled gives 400 and no change, checked before the id; an unknown id gives 404 and no change; otherwise the first appointment with the id takes the status |
| Appointments.UpdateStatusFrame | ayursutra/backend/routes/appointments.js:146 | an update changes statuses only: the length, the index and every other field of every appointment are unchanged |
| Appointments.StatusLastWriteWins | ayursutra/backend/routes/appointments.js:140-146 | there is no transition rule: any allowed status can follow any other, and two updates equal the second alone |
| Appointments.InvalidStatusKeepsEarlierUpdate | ayursutra/backend/routes/appointments.js:141-143 | a rejected status leaves an earlier accepted update in place |
| Appointments.AvailableSlots | ayursutra/backend/routes/appointments.js:87-91 | the reply echoes the practitioner and date and lists thirteen "hh:mm" slots |
| Appointments.SlotsIgnoreArguments | ayursutra/backend/routes/appointments.js:89 | the slots do not depend on the practitioner or the date |
| Appointments.SlotsAscending | ayursutra/backend/routes/appointments.js:89 | the slots are in strictly increasing order |
| Appointments.DefaultsToFirstDoctor | ayursutra/backend/routes/appointments.js:114-116 | a Panchakarma booking without a requested doctor gets D101 |
| Appointments.HonoursRequestedDoctor | ayursutra/backend/routes/appointments.js:111-113 | a Panchakarma booking asking for D103 gets D103 |
| Appointments.UnknownTypeStillBooks | ayursutra/backend/routes/appointments.js:109-134 | an unknown treatment type still books, with no doctor |
| Appointments.RepeatBookingListsPatientOnce | ayursutra/backend/routes/appointments.js:129-133 | booking the same patient with the same doctor twice leaves the patient in that doctor's list exactly once |
| TreatmentRoutes.Enrich | ayursutra/backend/routes/treatments.js:63-66 | the treatment is copied unchanged; an unknown type gets no doctors |
| TreatmentRoutes.ListTreatments | ayursutra/backend/routes/treatments.js:62-68 | one entry per treatment, in order, each unchanged and carrying its type's pool |
| TreatmentRoutes.AllMappings | ayursutra/backend/routes/treatments.js:71-73 | the full table has the six distinct types Panchakarma, Abhyanga, Shirodhara, Udvartana, Nasya and Basti, each with three doctors of distinct ids |
| TreatmentRoutes.MappingsAgreeWithTypeRoute | ayursutra/backend/routes/treatments.js:71-82 | each entry of the full table is exactly what the by-type route returns for its type |
| TreatmentRoutes.DoctorsByType | ayursutra/backend/routes/treatments.js:76-83 | 404 exactly when the type's pool is empty; otherwise the type echoed with its pool |
| TreatmentRoutes.UnknownKindHasNoDoctors | ayursutra/backend/routes/treatments.js:78 | a type outside the six keys has no doctors |
| TreatmentRoutes.DoctorsByTypeNotFoundIffUnknown | ayursutra/backend/routes/treatments.js:76-83 | the type route answers 404 exactly for the types the table does not list, and three doctors otherwise |
| TreatmentRoutes.GetTreatment | ayursutra/backend/routes/treatments.js:85-92 | found iff some treatment has the parsed id; the result is the first such treatment with its pool; otherwise 404 |
| TreatmentRoutes.GetAgreesWithList | ayursutra/backend/routes/treatments.js:62-92 | for a treatment whose id is unique, the id route returns the list route's entry |
| PractitionerRoutes.PractitionerIds | NavAyush_SIH-main/ayursutra/backend/routes/practitioners.js:5-24 | eighteen entries; entry `i` has id `D`, pool digit `i/3+1`, `0`, slot digit `i%3+1` |
| PractitionerRoutes.PractitionersDistinct | NavAyush_SIH-main/ayursutra/backend/routes/practitioners.js:5-24 | the eighteen ids are pairwise distinct |
| PractitionerRoutes.PractitionersArePools | NavAyush_SIH-main/ayursutra/backend/routes/practitioners.js:4-24 | the list is the six treatment pools' doctors, pool after pool, in order |
| PractitionerRoutes.ListPractitioners | NavAyush_SIH-main/ayursutra/backend/routes/practitioners.js:29-31 | the whole list: eighteen doctors with distinct ids |
| PractitionerRoutes.FindPractitioner | NavAyush_SIH-main/ayursutra/backend/routes/practitioners.js:34-38 | found iff some entry has exactly that id, and the result is such an entry; otherwise 404 |
| PractitionerRoutes.FindPractitionerExact | NavAyush_SIH-main/ayursutra/backend/routes/practitioners.js:34-38 | looking up an entry's id returns that entry |
| PractitionerRoutes.PatientsOf | NavAyush_SIH-main/ayursutra/backend/routes/practitioners.js:41-44 | the reply echoes the id and is never a 404; its patients are exactly the index's list for that id, and none for an unknown id; a valid index gives no repeated patients |
| NotificationRoutes.IndexOf | ayursutra/backend/routes/notifications.js:31 | -1 iff the id is not a number or no notification has it, else the first position with it |
| NotificationRoutes.GetById | ayursutra/backend/routes/notifications.js:30-37 | found iff some notification has the parsed id, and the result is the first one with it; otherwise 404 |
| NotificationRoutes.MarkRead | ayursutra/backend/routes/notifications.js:39-47 | 404 with no change iff no notification has the id; otherwise the first one with it is set read and returned |
| NotificationRoutes.MarkReadFrame | ayursutra/backend/routes/notifications.js:42 | marking read changes only the `read` flag, of one entry at most |
| NotificationRoutes.MarkReadIdempotent | ayursutra/backend/routes/notifications.js:39-47 | marking read twice gives the list that marking once gives |
| NotificationRoutes.MarkReadThenGet | ayursutra/backend/routes/notifications.js:30-47 | after a successful mark, a lookup of the id finds it, read |
| Chatbot.AnyKeyword | ayursutra/backend/routes/chatbot.js:11 | true iff one of the keywords occurs in the message |
| Chatbot.FirstRule | ayursutra/backend/routes/chatbot.js:11-26 | when no rule fires, the clarification; otherwise the reply of some rule |
| Chatbot.Respond | ayursutra/backend/routes/chatbot.js:6-27 | the greeting iff the message is blank; otherwise the first rule firing on the lower-cased message |
| Chatbot.RuleBasedReply | ayursutra/backend/routes/chatbot.js:6-27 | the greeting iff the message is blank; a non-blank message matching no keyword gets the clarification |
| Chatbot.FirstRuleAt | ayursutra/backend/routes/chatbot.js:11-25 | when rule `i` fires and no earlier rule does, rule `i` answers |
| Chatbot.FirstHitWins | ayursutra/backend/routes/chatbot.js:11-25 | the earliest firing rule decides the reply, in the order booking, reschedule, cancel, support, treatments |
| Chatbot.ReplyIgnoresCase | ayursutra/backend/routes/chatbot.js:7 | a message and its lower-cased form get the same reply |
| Chatbot.CancelAppointmentGetsBookingReply | ayursutra/backend/routes/chatbot.js:11-19 | "Cancel appointment" gets the booking reply, because the booking rule comes first |
| Chatbot.ReplyFor | ayursutra/backend/routes/chatbot.js:6-7 | the rule-based reply is undefined (the call throws) exactly for a non-string message |
| Chatbot.Fallback | ayursutra/backend/routes/chatbot.js:66-73 | a string message gets its rule-based reply; an absent or non-string one ends with the greeting |
| Chatbot.Endpoint | ayursutra/backend/routes/chatbot.js:30-75 | without a key, the rule-based reply; a failed model call gives the greeting; a non-blank answer is passed on trimmed; a blank or missing answer falls back to the rule-based reply |
| Chatbot.EndpointAnswerTrimmed | ayursutra/backend/routes/chatbot.js:65-69 | a model answer passed on is trimmed and never blank |
| Chatbot.BlankAnswerFallsBack | ayursutra/backend/routes/chatbot.js:65-68 | a blank model answer gives the same reply as having no key at all |
| ClientAppointments.MapTreatmentType | NavAyush_SIH-main/ayursutra/frontend/src/hooks/useAppointments.js:136-146 | panchakarma, nasya and basti go to Panchakarma, abhyanga to Abhyanga, shirodhara to Shirodhara, swedana to Udvartana; any other value passes through unchanged |
| ClientAppointments.MappedTypesAreBookable | NavAyush_SIH-main/ayursutra/frontend/src/hooks/useAppointments.js:136-146 | every UI treatment id maps to a type the booking registry lists, with a pool of three doctors |
| ClientAppointments.MapTreatmentTypeIdempotent | NavAyush_SIH-main/ayursutra/frontend/src/hooks/useAppointments.js:145 | mapping a mapped type again changes nothing |
| ClientAppointments.Payload | NavAyush_SIH-main/ayursutra/frontend/src/hooks/useAppointments.js:100-108 | the patient id is the user's id or "P_TEMP"; the name is the user's name, else the full name, else "Patient"; so both are never empty; date, time, visit type and doctor id are copied and the treatment type is mapped |
| ClientAppointments.Normalize | NavAyush_SIH-main/ayursutra/frontend/src/hooks/useAppointments.js:114-123 | id, date, time and status come from the server record; the practitioner is present iff the server assigned a doctor, as its id and name; duration, treatment and notes come from the form |
| ClientAppointments.AddBooked | NavAyush_SIH-main/ayursutra/frontend/src/hooks/useAppointments.js:125 | the list grows by one, the new record at the end and the old records unchanged before it |
| ClientAppointments.BookingFromForm | NavAyush_SIH-main/ayursutra/frontend/src/hooks/useAppointments.js:96-127 | a form with date, time and treatment always books: the client record has the form's date, time and treatment and status "scheduled", and it carries a practitioner iff the server assigned one |
| ClientAppointments.UiBookingGetsPractitioner | NavAyush_SIH-main/ayursutra/frontend/src/hooks/useAppointments.js:100-121 | a booking for one of the six UI treatments always comes back with a practitioner |
| ClientAppointments.Cancel | NavAyush_SIH-main/ayursutra/frontend/src/hooks/useAppointments.js:188-194 | every record with that id becomes "cancelled"; every other record is unchanged |
| ClientAppointments.CancelIdempotent | NavAyush_SIH-main/ayursutra/frontend/src/hooks/useAppointments.js:188-194 | cancelling twice is cancelling once |
| ClientAppointments.Reschedule | NavAyush_SIH-main/ayursutra/frontend/src/hooks/useAppointments.js:159-170 | records with that id become "pending" and take the new date and time when given (falsy values keep the old ones); other records are unchanged |
| ClientAppointments.RescheduleWithoutValues | NavAyush_SIH-main/ayursutra/frontend/src/hooks/useAppointments.js:164-166 | a reschedule without new values only sets the status to "pending" |
| ClientAppointments.ByDateTotalPreorder | NavAyush_SIH-main/ayursutra/frontend/src/hooks/useAppointments.js:208 | the date comparator is a total preorder, so the stable sort is well defined |
| ClientAppointments.Upcoming | NavAyush_SIH-main/ayursutra/frontend/src/hooks/useAppointments.js:204-210 | at most `limit` records, not cancelled and dated no earlier than now, in ascending date order; exactly `min(count of upcoming, limit)` of them, drawn without repetition from the upcoming ones (a sub-multiset), and no upcoming record left out is earlier than one returned |
| ClientAppointments.UpcomingUnderLimit | NavAyush_SIH-main/ayursutra/frontend/src/hooks/useAppointments.js:204-210 | when no more than `limit` records are upcoming, the result is a permutation of all of them |
| ClientAppointments.InDateRange | NavAyush_SIH-main/ayursutra/frontend/src/hooks/useAppointments.js:212-217 | an order-preserving subsequence of the list holding exactly the records whose midnight lies within the range, both ends inclusive |
| ClientAppointments.OneDayRange | NavAyush_SIH-main/ayursutra/frontend/src/hooks/useAppointments.js:212-217 | the range from a day's midnight to that same midnight selects exactly that day's records |
| ClientAppointments.Todays | NavAyush_SIH-main/ayursutra/frontend/src/hooks/useAppointments.js:219-224 | an order-preserving subsequence of the list holding exactly today's records that are not cancelled |
| ClientAppointments.CancelledLeavesToday | NavAyush_SIH-main/ayursutra/frontend/src/hooks/useAppointments.js:188-194 | after cancelling an id, no record with that id is in today's list |
| ClientNotifications.Fetch | ayursutra/frontend/src/hooks/useNotifications.js:80-84 | the loaded list is kept as given and the counter is set to the number of unread entries, so it starts consistent |
| ClientNotifications.MockFetchCountsThree | ayursutra/frontend/src/hooks/useNotifications.js:8-68 | loading the six development notifications counts three unread |
| ClientNotifications.MarkAsRead | ayursutra/frontend/src/hooks/useNotifications.js:99-107 | the entries with that id become read, all others are unchanged; the counter drops by one, floored at 0, whether or not the entry was unread |
| ClientNotifications.MarkUnreadKeepsConsistent | ayursutra/frontend/src/hooks/useNotifications.js:99-107 | marking an unread notification whose id is unique keeps the counter equal to the number of unread entries |
| ClientNotifications.MarkReadTwiceUndercounts | ayursutra/frontend/src/hooks/useNotifications.js:107 | marking an already-read notification still lowers the counter, which then falls below the true unread count |
| ClientNotifications.CountSamePattern | ayursutra/frontend/src/hooks/useNotifications.js:82 | two lists of equal length with the same read flags have the same unread count |
| ClientNotifications.CountAfterMark | ayursutra/frontend/src/hooks/useNotifications.js:99-107 | setting the read flag of exactly one unread entry lowers the unread count by one |
| ClientNotifications.MarkAllAsRead | ayursutra/frontend/src/hooks/useNotifications.js:121-125 | every entry becomes read, nothing else changes, and the counter is 0 |
| ClientNotifications.MarkAllConsistent | ayursutra/frontend/src/hooks/useNotifications.js:121-125 | after marking all, no entry is unread and the counter agrees, whatever it was before |
| ClientNotifications.Delete | ayursutra/frontend/src/hooks/useNotifications.js:139-144 | every entry with that id is removed and every other entry kept, in order; the counter drops by one (floored at 0) exactly when the first entry with that id was unread |
| ClientNotifications.DeleteKeepsConsistent | ayursutra/frontend/src/hooks/useNotifications.js:139-144 | with unique ids, deleting keeps the counter consistent |
| ClientNotifications.CountAfterDelete | ayursutra/frontend/src/hooks/useNotifications.js:139-144 | with unique ids, removing an id lowers the unread count by one exactly when that entry was unread |
| ClientNotifications.Send | ayursutra/frontend/src/hooks/useNotifications.js:159-167 | the new entry goes first, unread and stamped now, with the caller's type, title, message and action link, and the caller's id if given (else the fresh id); the counter rises by one |
| ClientNotifications.SendKeepsConsistent | ayursutra/frontend/src/hooks/useNotifications.js:159-167 | sending keeps the counter consistent |
| ClientNotifications.ByType | ayursutra/frontend/src/hooks/useNotifications.js:176-178 | an order-preserving subsequence holding exactly the entries of that type |
| ClientNotifications.Unread | ayursutra/frontend/src/hooks/useNotifications.js:180-182 | an order-preserving subsequence holding exactly the unread entries |
| ClientNotifications.CounterIsUnreadLength | ayursutra/frontend/src/hooks/useNotifications.js:180-182 | while consistent, the counter is the length of the unread list |
| ClientNotifications.Recent | ayursutra/frontend/src/hooks/useNotifications.js:184-188 | `min(limit, length)` entries drawn without repetition from the list (a sub-multiset), newest first, and no entry left out is newer than one returned |
| ClientNotifications.RecentStartsWithNewest | ayursutra/frontend/src/hooks/useNotifications.js:184-188 | when anything is returned, the first entry is at least as new as every entry of the list |
| PatientManagement.DefaultId | ayursutra/frontend/src/hooks/usePatientManagement.js:69 | the default id is "P" followed by at least three characters |
| PatientManagement.DefaultIdNumbersPosition | ayursutra/frontend/src/hooks/usePatientManagement.js:69 | after the "P" the default id is all digits and reads back as the number of records plus one; below 999 records it is exactly four characters |
| PatientManagement.Add | ayursutra/frontend/src/hooks/usePatientManagement.js:67-75 | the new record goes last, the old records unchanged; its id is the supplied one if any, else the default id; its status is "Active" and its other fields are the supplied ones |
| PatientManagement.Merge | ayursutra/frontend/src/hooks/usePatientManagement.js:81 | `{...patient, ...updates}`: each of the eight fields is the update's value when given and the patient's own otherwise |
| PatientManagement.MergeLaws | ayursutra/frontend/src/hooks/usePatientManagement.js:81 | an empty update is the identity, and merging the same update twice is merging once |
| PatientManagement.Update | ayursutra/frontend/src/hooks/usePatientManagement.js:77-85 | same length; the records with that id are merged with the update and the others are unchanged |
| PatientManagement.Delete | ayursutra/frontend/src/hooks/usePatientManagement.js:87-89 | an order-preserving subsequence holding exactly the records whose id differs |
| PatientManagement.DeleteAbsentIsIdentity | ayursutra/frontend/src/hooks/usePatientManagement.js:87-89 | deleting an id no record has changes nothing |
| PatientManagement.AddThenDelete | ayursutra/frontend/src/hooks/usePatientManagement.js:67-89 | deleting a just-added record's id (unused before) gives back the original list |
| PatientManagement.DefaultIdCanRepeat | ayursutra/frontend/src/hooks/usePatientManagement.js:69 | the default id counts records, not ids ever used: after deleting P001 from the three sample patients, an add gets P003, which the last record already has |
| PatientManagement.Search | ayursutra/frontend/src/hooks/usePatientManagement.js:91-100 | an empty query returns everything; otherwise an order-preserving subsequence holding exactly the records whose name, e-mail or id contains the query ignoring case, or whose phone contains it as typed |
| PatientManagement.SearchIgnoresCaseOfQuery | ayursutra/frontend/src/hooks/usePatientManagement.js:94-99 | where the phone test is blind to the query's case, searching for the lower-cased query gives the same result |
| PatientProgress.EarlierOrSameTotalPreorder | NavAyush_SIH-main/ayursutra/frontend/src/hooks/usePatientProgress.js:92 | the date comparator is a total preorder, so the stable sort is well defined |
| PatientProgress.AddEntry | NavAyush_SIH-main/ayursutra/frontend/src/hooks/usePatientProgress.js:90-93 | the timeline gains exactly the new entry (as a multiset) and comes out in ascending date order |
| PatientProgress.LatestEntryGoesLast | NavAyush_SIH-main/ayursutra/frontend/src/hooks/usePatientProgress.js:92 | an entry later than every other ends up last |
| PatientProgress.SliceFrom | NavAyush_SIH-main/ayursutra/frontend/src/hooks/usePatientProgress.js:106 | `slice(start)` returns a suffix of the array, never longer than it |
| PatientProgress.ProgressTrend | NavAyush_SIH-main/ayursutra/frontend/src/hooks/usePatientProgress.js:103-120 | no timeline gives null; fewer than two entries in `slice(-days)` gives null; otherwise the change is the window's last value minus its first, and the direction is up, down or stable as the change is positive, negative or zero |
| PatientProgress.TrendWindow | NavAyush_SIH-main/ayursutra/frontend/src/hooks/usePatientProgress.js:106-112 | for `days >= 2` the trend compares the last entry with the one `days - 1` places before it, or with the first entry when the timeline is shorter |
| PatientProgress.ZeroDaysUsesWholeTimeline | NavAyush_SIH-main/ayursutra/frontend/src/hooks/usePatientProgress.js:106 | with `days = 0`, `slice(-0)` is the whole timeline, so the change runs from the first entry to the last |
| PatientProgress.Clamp | NavAyush_SIH-main/ayursutra/frontend/src/hooks/usePatientProgress.js:148 | `Math.max(0, Math.min(100, x))` lies in 0..100 and leaves values already there unchanged |
| PatientProgress.CurrentPhaseProgress | NavAyush_SIH-main/ayursutra/frontend/src/hooks/usePatientProgress.js:129-151 | null for a phase outside purvakarma, pradhankarma and paschatkarma; otherwise the position within the phase's range, clamped to 0..100: 100 at or past the range's end, 0 at or before its start; complete iff overall progress reached the end |
| PatientProgress.PhaseProgressMonotone | NavAyush_SIH-main/ayursutra/frontend/src/hooks/usePatientProgress.js:144-148 | phase progress never goes down as overall progress goes up |
| PatientProgress.MockPhaseProgress | NavAyush_SIH-main/ayursutra/frontend/src/hooks/usePatientProgress.js:14-17 | the sample state, 65% overall in pradhankarma (25..80), is 40/55 of the phase and not complete |
| PatientProgress.Weekly | NavAyush_SIH-main/ayursutra/frontend/src/hooks/usePatientProgress.js:153-175 | null without a timeline or with an empty one; otherwise over the last seven entries (or all, if fewer): the count, the first and last dates, and the last progress minus the first |
| PatientProgress.WeeklyGainIsTrend | NavAyush_SIH-main/ayursutra/frontend/src/hooks/usePatientProgress.js:153-175 | the weekly progress gain equals the seven-day progress trend's change |
| PatientProgress.NextMilestone | NavAyush_SIH-main/ayursutra/frontend/src/hooks/usePatientProgress.js:185-188 | null without milestones, or when all are completed; otherwise the first milestone not completed |
| PatientProgress.SymptomImprovement | NavAyush_SIH-main/ayursutra/frontend/src/hooks/usePatientProgress.js:122-127 | a value exactly when a symptom of that name exists, and it is the improvement of the first such symptom |
| PatientProgress.MockNextMilestone | NavAyush_SIH-main/ayursutra/frontend/src/hooks/usePatientProgress.js:50-58 | in the sample data the next milestone is the fifth, "Symptom Relief" |
| BookingWizard.Initial | NavAyush_SIH-main/ayursutra/frontend/src/pages/patient/BookAppointment.jsx:11-20 | the page opens on step 1 with the empty form, every practitioner shown and no slots |
| BookingWizard.FilterFor | NavAyush_SIH-main/ayursutra/frontend/src/pages/patient/BookAppointment.jsx:106-131 | with no treatment chosen every practitioner is shown; otherwise exactly the practitioners offering that treatment, in their original order |
| BookingWizard.SpecialistCount | NavAyush_SIH-main/ayursutra/frontend/src/pages/patient/BookAppointment.jsx:207-215 | the count on a treatment card is at most the number of practitioners and is zero exactly when nobody offers the treatment |
| BookingWizard.SpecialistCountIsFilteredLength | NavAyush_SIH-main/ayursutra/frontend/src/pages/patient/BookAppointment.jsx:112-115 | the card's count equals the number of practitioners shown once that treatment is chosen |
| BookingWizard.PositionOf | NavAyush_SIH-main/ayursutra/frontend/src/pages/patient/BookAppointment.jsx:119-121 | the lookup by id finds a practitioner with that id, or reports that none has it |
| BookingWizard.RefreshSlots | NavAyush_SIH-main/ayursutra/frontend/src/pages/patient/BookAppointment.jsx:134-138 | the fixed slots are loaded once both treatment and date are set; otherwise the slots are left as they were; nothing else changes |
| BookingWizard.SelectTreatment | NavAyush_SIH-main/ayursutra/frontend/src/pages/patient/BookAppointment.jsx:106-131 | choosing a treatment sets it, narrows the practitioners shown, copies the duration of a known treatment, and clears a chosen practitioner who does not offer it; date, time and step are unchanged |
| BookingWizard.ChosenPractitionerOffersTreatment | NavAyush_SIH-main/ayursutra/frontend/src/pages/patient/BookAppointment.jsx:117-126 | after choosing a treatment, a practitioner still selected offers that treatment |
| BookingWizard.SelectPractitioner | NavAyush_SIH-main/ayursutra/frontend/src/pages/patient/BookAppointment.jsx:150-162 | choosing a card records that practitioner's id; on step 2 the step becomes valid exactly when the shown list is non-empty |
| BookingWizard.SelectDate | NavAyush_SIH-main/ayursutra/frontend/src/pages/patient/BookAppointment.jsx:134-141 | picking a date records it and, once a treatment is chosen, loads the fixed slots |
| BookingWizard.SelectTime | NavAyush_SIH-main/ayursutra/frontend/src/pages/patient/BookAppointment.jsx:140-141 | picking a slot records it; on step 3 the step becomes valid exactly when a date is also set and the slot is non-empty |
| BookingWizard.ClearDate | NavAyush_SIH-main/ayursutra/frontend/src/pages/patient/BookAppointment.jsx:514-518 | emptying the date input unsets the date, keeps the slots already loaded and makes step 3 invalid |
| BookingWizard.SlotsOnceTreatmentAndDate | NavAyush_SIH-main/ayursutra/frontend/src/pages/patient/BookAppointment.jsx:93-96 | in either order, choosing a treatment and a date leaves the thirteen fixed slots available |
| BookingWizard.StepValid | NavAyush_SIH-main/ayursutra/frontend/src/pages/patient/BookAppointment.jsx:185-198 | step 1 needs a treatment, step 2 a practitioner and a non-empty list, step 3 a date and a time, step 4 nothing; any other step is invalid |
| BookingWizard.Next | NavAyush_SIH-main/ayursutra/frontend/src/pages/patient/BookAppointment.jsx:164-168 | the step goes up by one below 4 and stays at 4; nothing else changes |
| BookingWizard.Previous | NavAyush_SIH-main/ayursutra/frontend/src/pages/patient/BookAppointment.jsx:170-174 | the step goes down by one above 1 and stays at 1; nothing else changes |
| BookingWizard.Apply | NavAyush_SIH-main/ayursutra/frontend/src/pages/patient/BookAppointment.jsx:423-646 | each control acts only on its own step: treatment cards on step 1, practitioner cards on step 2, picking or emptying the date and picking a slot on step 3, the notes and the urgent checkbox on step 4; emptying the date keeps the loaded slots; the disabled confirm button ignores an invalid step, and a valid step below 4 advances by one with the form unchanged; editing and navigating keep the step in 1..4; a successful submit on step 4 moves to the success screen; a failed submit changes nothing; "Book Another" on the success screen restarts with the empty form and every practitioner |
| BookingWizard.RunKeepsPassed | NavAyush_SIH-main/ayursutra/frontend/src/pages/patient/BookAppointment.jsx:164-198 | along any sequence of events, once past step 1 a treatment is chosen and once past step 3 a date and a slot are |
| BookingWizard.StepStaysInRange | NavAyush_SIH-main/ayursutra/frontend/src/pages/patient/BookAppointment.jsx:164-183 | over any sequence of events without a successful submit the step stays within 1..4 |
| BookingWizard.ToBookingForm | NavAyush_SIH-main/ayursutra/frontend/src/pages/patient/BookAppointment.jsx:12-20 | the form handed to the hook carries the same treatment, date, time, duration and notes, and an empty practitioner id exactly when none was chosen |
| BookingWizard.ValidFormIsBooked | NavAyush_SIH-main/ayursutra/frontend/src/pages/patient/BookAppointment.jsx:176-198 | a form that passes steps 1 and 3 is always accepted by the booking route, whoever the user is |
| BookingWizard.ConfirmStepIsBookable | NavAyush_SIH-main/ayursutra/frontend/src/pages/patient/BookAppointment.jsx:623-646 | however the confirmation step is reached from the opening page, its form is accepted by the booking route |
| BookingWizard.NotesReachBooking | NavAyush_SIH-main/ayursutra/frontend/src/pages/patient/BookAppointment.jsx:594-601 | notes typed on the confirmation step leave it on step 4 and are the notes handed to the booking |
| BookingWizard.ClearedDateBlocksNext | NavAyush_SIH-main/ayursutra/frontend/src/pages/patient/BookAppointment.jsx:514-518 | after the date is emptied on step 3 the confirm button does nothing, so the page stays on step 3 |
| BookingWizard.MockSpecialistCounts | NavAyush_SIH-main/ayursutra/frontend/src/pages/patient/BookAppointment.jsx:40-92 | in the page's sample data Abhyanga has three specialists and Basti two |
| PhaseIndicator.CurrentIndex | NavAyush_SIH-main/ayursutra/frontend/src/components/patient/TreatmentPhaseIndicator.jsx:32-34 | the index of the current phase among purvakarma, pradhankarma and paschatkarma, or -1 exactly when it is none of them |
| PhaseIndicator.PhaseProp | NavAyush_SIH-main/ayursutra/frontend/src/components/patient/TreatmentPhaseIndicator.jsx:4 | an omitted `currentPhase` prop is "purvakarma"; a given one is kept |
| PhaseIndicator.OmittedPropStartsFirstPhase | NavAyush_SIH-main/ayursutra/frontend/src/components/patient/TreatmentPhaseIndicator.jsx:4-48 | with the prop omitted the first phase is current, the others upcoming, and no arrow is green |
| PhaseIndicator.StatusOf | NavAyush_SIH-main/ayursutra/frontend/src/components/patient/TreatmentPhaseIndicator.jsx:36-48 | a phase is completed, current or upcoming as its index is below, at or above the current phase's index |
| PhaseIndicator.Statuses | NavAyush_SIH-main/ayursutra/frontend/src/components/patient/TreatmentPhaseIndicator.jsx:44-48 | the three phases get the status of their own index |
| PhaseIndicator.StatusShape | NavAyush_SIH-main/ayursutra/frontend/src/components/patient/TreatmentPhaseIndicator.jsx:36-48 | statuses run completed, then at most one current, then upcoming; some phase is current exactly when the current phase is a known one |
| PhaseIndicator.UnmatchedPhaseAllUpcoming | NavAyush_SIH-main/ayursutra/frontend/src/components/patient/TreatmentPhaseIndicator.jsx:32-48 | an unknown phase name marks all three phases upcoming |
| PhaseIndicator.Arrows | NavAyush_SIH-main/ayursutra/frontend/src/components/patient/TreatmentPhaseIndicator.jsx:178-183 | there are two arrows, between consecutive phases; an arrow is green exactly when its index is below the current phase's index |
| PhaseIndicator.GreenArrowAfterCompleted | NavAyush_SIH-main/ayursutra/frontend/src/components/patient/TreatmentPhaseIndicator.jsx:178-183 | a green arrow always follows a completed phase |
| PhaseIndicator.PhasesHaveRanges | NavAyush_SIH-main/ayursutra/frontend/src/components/patient/TreatmentPhaseIndicator.jsx:5-30 | the phases the indicator knows are exactly those the progress hook has a progress range for |
| Milestones.TotalPointsCountsCompleted | ayursutra/frontend/src/components/patient/TreatmentMilestones.jsx:178-179 | the achievement points are the sum, over all milestones, of the points of the completed ones |
| Milestones.CompletingAddsPoints | ayursutra/frontend/src/components/patient/TreatmentMilestones.jsx:178-179 | completing a milestone that was not completed raises the total by exactly that milestone's points, whatever their sign |
| Milestones.CompletedPrefix | ayursutra/frontend/src/components/patient/TreatmentMilestones.jsx:178-179 | when the completed milestones are exactly a prefix, the total is the sum of that prefix's points |
| Milestones.Header | ayursutra/frontend/src/components/patient/TreatmentMilestones.jsx:192-194 | the header shows the number of completed milestones over the number of milestones |
| Milestones.NextMilestone | ayursutra/frontend/src/components/patient/TreatmentMilestones.jsx:283-302 | the first upcoming milestone; none exactly when no milestone is upcoming |
| Milestones.Toggle | ayursutra/frontend/src/components/patient/TreatmentMilestones.jsx:211-216 | clicking the expanded milestone collapses it; clicking any other expands that one |
| Milestones.ToggleLaws | ayursutra/frontend/src/components/patient/TreatmentMilestones.jsx:211-216 | clicking the same milestone twice restores the collapsed or same-expanded state, and only the clicked milestone can be expanded |
| Milestones.Connectors | ayursutra/frontend/src/components/patient/TreatmentMilestones.jsx:267-274 | one connector between consecutive milestones, green exactly when the milestone above it is completed |
| Milestones.MockPoints | ayursutra/frontend/src/components/patient/TreatmentMilestones.jsx:7-106 | the sample milestones earn 750 points |
| Milestones.MockHeader | ayursutra/frontend/src/components/patient/TreatmentMilestones.jsx:7-106 | the sample shows 4 of 7 milestones completed |
| Milestones.MockNext | ayursutra/frontend/src/components/patient/TreatmentMilestones.jsx:7-106 | the sample's next milestone is the sixth, "Pradhankarma Completion" |
| NotificationPanel.FormatTimeAgo | ayursutra/frontend/src/components/patient/NotificationPanel.jsx:44-59 | whole minutes (floor) below 1 read "Just now", below 60 as minutes, whole hours below 24 as hours, whole days below 7 as days, otherwise the date |
| NotificationPanel.TimeAgoBands | ayursutra/frontend/src/components/patient/NotificationPanel.jsx:44-59 | in milliseconds the bands are: under a minute, under an hour, under a day, under a week, and a week or more |
| NotificationPanel.Visible | ayursutra/frontend/src/components/patient/NotificationPanel.jsx:61-65 | a missing list shows nothing; "all" shows every notification; "unread" only the unread ones and "appointments" only appointment notices, in order |
| NotificationPanel.UnreadTabIsUnreadList | ayursutra/frontend/src/components/patient/NotificationPanel.jsx:61-65 | the unread tab shows the same list as the hook's unread notifications |
| NotificationPanel.Click | ayursutra/frontend/src/components/patient/NotificationPanel.jsx:67-77 | clicking an unread notification marks it read; clicking a read one changes nothing |
| NotificationPanel.ClickKeepsConsistent | ayursutra/frontend/src/components/patient/NotificationPanel.jsx:67-77 | clicking any notice of a list with distinct ids keeps the unread counter equal to the number of unread notifications |
| NotificationPanel.Badge | ayursutra/frontend/src/components/patient/NotificationPanel.jsx:87-91 | no badge for a count of zero or less; "99+" above 99; the count itself otherwise |
| NotificationPanel.BadgeIsShort | ayursutra/frontend/src/components/patient/NotificationPanel.jsx:87-91 | a badge is one to three characters long |
| NotificationPanel.ShowMarkAll | ayursutra/frontend/src/components/patient/NotificationPanel.jsx:152-159 | "Mark all as read" shows exactly when the badge does |
| NotificationPanel.EmptyMessage | ayursutra/frontend/src/components/patient/NotificationPanel.jsx:178-184 | the unread tab says "No unread notifications"; every other tab says "No notifications" |
| AppointmentScheduler.ClockTextParses | ayursutra/frontend/src/components/practitioner/AppointmentScheduler.jsx:160-169 | splitting a padded `HH:MM` text at the colon and reading each part as a number gives back the hour and the minute |
| AppointmentScheduler.TwelveHour | ayursutra/frontend/src/components/practitioner/AppointmentScheduler.jsx:155-156 | the displayed hour is 1..12 and agrees with the hour modulo 12; PM exactly from hour 12 on |
| AppointmentScheduler.TwelveHourRoundTrip | ayursutra/frontend/src/components/practitioner/AppointmentScheduler.jsx:152-158 | within a day the 12-hour hour and the AM/PM flag read back as the original hour |
| AppointmentScheduler.TwelveHourInjective | ayursutra/frontend/src/components/practitioner/AppointmentScheduler.jsx:152-158 | two different hours of the day never display the same way |
| AppointmentScheduler.FormatTimeLayout | ayursutra/frontend/src/components/practitioner/AppointmentScheduler.jsx:152-158 | the text is the 12-hour hour, a colon, the minute text as given, and " AM" or " PM" |
| AppointmentScheduler.FormatTimeReadsBack | ayursutra/frontend/src/components/practitioner/AppointmentScheduler.jsx:152-158 | a formatted time splits at its one colon into a numeric hour that, with its AM/PM, reads back as the 24-hour hour, followed by the minute text |
| AppointmentScheduler.NoonAndMidnight | ayursutra/frontend/src/components/practitioner/AppointmentScheduler.jsx:156 | hour 0 shows as 12 AM, hour 12 as 12 PM, and 14:00 as 2:00 PM |
| AppointmentScheduler.EndClock | ayursutra/frontend/src/components/practitioner/AppointmentScheduler.jsx:168-169 | the end of an appointment is its start plus its duration, with the minutes below 60 and the hour not wrapped at 24 |
| AppointmentScheduler.FiveCharLess | ayursutra/frontend/src/components/practitioner/AppointmentScheduler.jsx:171 | comparing two five-character texts with the same middle character is lexicographic on the other four |
| AppointmentScheduler.ClockTextLex | ayursutra/frontend/src/components/practitioner/AppointmentScheduler.jsx:171 | padded clock texts compare as (hour, minute) pairs |
| AppointmentScheduler.ClockTextInjective | ayursutra/frontend/src/components/practitioner/AppointmentScheduler.jsx:162 | two padded clock texts are equal exactly when the clocks are |
| AppointmentScheduler.DigitsOrder | ayursutra/frontend/src/components/practitioner/AppointmentScheduler.jsx:162 | two-digit numbers compare as their digit pairs |
| AppointmentScheduler.ClockTextOrder | ayursutra/frontend/src/components/practitioner/AppointmentScheduler.jsx:165-172 | comparing padded clock texts as strings is comparing minutes since midnight |
| AppointmentScheduler.IsCurrentMeansWithin | ayursutra/frontend/src/components/practitioner/AppointmentScheduler.jsx:165-172 | an appointment is highlighted exactly while the time of day lies between its start and its end, both included |
| AppointmentScheduler.NoWrapPastMidnight | ayursutra/frontend/src/components/practitioner/AppointmentScheduler.jsx:169-171 | an appointment from 23:30 lasting an hour ends at "24:30", so it is not current at midnight |
| AppointmentScheduler.QuickActions | ayursutra/frontend/src/components/practitioner/AppointmentScheduler.jsx:308-336 | actions show only for upcoming or in-progress appointments: three buttons ending in Reschedule, with Start Session exactly for upcoming ones and Complete Session exactly for in-progress ones |
| AppointmentScheduler.TodaySummary | ayursutra/frontend/src/components/practitioner/AppointmentScheduler.jsx:349-366 | the three figures are the numbers of today's appointments that are completed, in progress and upcoming |
| AppointmentScheduler.SummaryAddsUp | ayursutra/frontend/src/components/practitioner/AppointmentScheduler.jsx:345-368 | when every status is one of those three, the figures add up to the number of appointments |
| AppointmentScheduler.CountsAddUp | ayursutra/frontend/src/components/practitioner/AppointmentScheduler.jsx:349-366 | the three status counts add up to the list's length when every status is known |
| CalendarGrid.Grid | NavAyush_SIH-main/ayursutra/frontend/src/components/practitioner/CalendarView.jsx:83-116 | the first `weekday` cells are the previous month's days counting up to the given last day; then days 1..n of the month; then the next month from 1 up to 42 cells in all |
| CalendarGrid.GridHas42 | NavAyush_SIH-main/ayursutra/frontend/src/components/practitioner/CalendarView.jsx:83-116 | both grids have 42 cells and day d of the month sits in cell `weekday + d - 1` |
| CalendarGrid.NormNeighbours | NavAyush_SIH-main/ayursutra/frontend/src/components/practitioner/CalendarView.jsx:92 | for a month in 0..11, the month indices one below and one above roll over to the neighbouring months and years |
| CalendarGrid.MonthGridIsConsecutive | NavAyush_SIH-main/ayursutra/frontend/src/components/practitioner/CalendarView.jsx:83-116 | with the previous month's true last day, the 42 cells are 42 valid consecutive calendar dates |
| CalendarGrid.AsWrittenAgreesIff | NavAyush_SIH-main/ayursutra/frontend/src/components/practitioner/CalendarView.jsx:86 | the grid as written is right exactly when the month starts on a Sunday or the two months before it have the same length |
| CalendarGrid.AsWrittenMarch2024 | NavAyush_SIH-main/ayursutra/frontend/src/components/practitioner/CalendarView.jsx:86 | March 2024 (starting on a Friday) shows 31 as the last leading day, a date that does not exist in February 2024; the correct cell is 29 |
| CalendarGrid.OnDate | NavAyush_SIH-main/ayursutra/frontend/src/components/practitioner/CalendarView.jsx:118-121 | the appointments on a date are those of the list with that date, each kept as often as it occurs, in list order (a subsequence of the list, as long as the count of that date) |
| CalendarGrid.CellEntries | NavAyush_SIH-main/ayursutra/frontend/src/components/practitioner/CalendarView.jsx:276-290 | a day cell lists its first three appointments (or all, if fewer) and a "+k more" label exactly when there are more, with k the rest |
| CalendarGrid.TimeLeTotalPreorder | NavAyush_SIH-main/ayursutra/frontend/src/components/practitioner/CalendarView.jsx:331-332 | comparing times is a total preorder, so the sort is well defined |
| CalendarGrid.SelectedDayList | NavAyush_SIH-main/ayursutra/frontend/src/components/practitioner/CalendarView.jsx:329-333 | the selected day's list holds the same appointments as that day's, ordered by time |
| CalendarGrid.QuickStats | NavAyush_SIH-main/ayursutra/frontend/src/components/practitioner/CalendarView.jsx:388-412 | total, confirmed and pending counts are the numbers of appointments, and of those with each status, and the minutes are the sum of their durations; confirmed plus pending never exceeds the total; an empty list gives all zeros |
| CalendarGrid.ConfirmedPlusPending | NavAyush_SIH-main/ayursutra/frontend/src/components/practitioner/CalendarView.jsx:394-405 | no appointment counts as both confirmed and pending |
| CalendarGrid.QuickStatsAdd | NavAyush_SIH-main/ayursutra/frontend/src/components/practitioner/CalendarView.jsx:388-412 | the quick stats of two lists together are the sums of their quick stats |
| CalendarGrid.Indicator | ayursutra/frontend/src/components/patient/AppointmentCalendar.jsx:87-109 | no indicator for a day without appointments; otherwise a coloured dot for each of the first three appointments, plus a grey dot when there are more |
| CalendarGrid.GreyMeansMore | ayursutra/frontend/src/components/patient/AppointmentCalendar.jsx:104-106 | a grey dot only ever appears fourth, meaning there are more than three appointments |
| CalendarGrid.Preview | ayursutra/frontend/src/components/patient/AppointmentCalendar.jsx:211-218 | a preview shows exactly on days of the month that have appointments, and it shows the first one's time |
| TreatmentPlanner.Visible | ayursutra/frontend/src/components/practitioner/TreatmentPlanner.jsx:109-114 | exactly the plans whose patient name or treatment type contains the search (ignoring case) and whose status passes the filter, in order |
| TreatmentPlanner.NoFilterShowsAll | ayursutra/frontend/src/components/practitioner/TreatmentPlanner.jsx:109-114 | an empty search with "all" lists every plan |
| TreatmentPlanner.FilterComposes | ayursutra/frontend/src/components/practitioner/TreatmentPlanner.jsx:109-114 | filtering by status after the search alone gives the same list as both tests together |
| TreatmentPlanner.AddPlan | ayursutra/frontend/src/components/practitioner/TreatmentPlanner.jsx:116-135 | the plans gain one new last plan carrying the form's fields, id = old count + 1, progress 0 and no sessions; the earlier plans are unchanged; the form is reset |
| TreatmentPlanner.AddKeepsIds | ayursutra/frontend/src/components/practitioner/TreatmentPlanner.jsx:119 | when ids are the 1-based positions, the new plan keeps that shape and its id is fresh |
| TreatmentPlanner.ResetFormPlansPlanned | ayursutra/frontend/src/components/practitioner/TreatmentPlanner.jsx:124-133 | a plan added straight from the reset form has status "planned" |
| TreatmentPlanner.AddSession | ayursutra/frontend/src/components/practitioner/TreatmentPlanner.jsx:137-143 | each plan with the given id gets the session, with the fresh id, appended; every other plan is unchanged; the number of plans is kept |
| TreatmentPlanner.AddSessionSum | ayursutra/frontend/src/components/practitioner/TreatmentPlanner.jsx:137-143 | the total number of sessions grows by the number of plans having that id |
| TreatmentPlanner.IdOccursOnce | ayursutra/frontend/src/components/practitioner/TreatmentPlanner.jsx:119 | with ids counting up from a base, each id names at most one plan |
| TreatmentPlanner.AddSessionCount | ayursutra/frontend/src/components/practitioner/TreatmentPlanner.jsx:137-143 | with ids the positions, adding a session to an existing plan adds exactly one session in all and keeps the ids |
| TreatmentPlanner.SetStatus | ayursutra/frontend/src/components/practitioner/TreatmentPlanner.jsx:150-152 | the sessions with the given id take the new status; the others are unchanged |
| TreatmentPlanner.UpdateSessionStatus | ayursutra/frontend/src/components/practitioner/TreatmentPlanner.jsx:145-156 | only sessions with the given id in plans with the given id change, and only in their status; plan and session counts are kept |
| TreatmentPlanner.UpdateSessionStatusIdempotent | ayursutra/frontend/src/components/practitioner/TreatmentPlanner.jsx:145-156 | setting a session's status twice gives the same plans as setting it once |
| TreatmentPlanner.ProgressColour | ayursutra/frontend/src/components/practitioner/TreatmentPlanner.jsx:168-172 | green from 80, yellow from 50 below 80, blue below 50 |
| TreatmentPlanner.ProgressColourMonotone | ayursutra/frontend/src/components/practitioner/TreatmentPlanner.jsx:168-172 | more progress never gives a lower colour band |
| TreatmentPlanner.SessionPreview | ayursutra/frontend/src/components/practitioner/TreatmentPlanner.jsx:264-289 | a plan card lists its first three sessions (or all, if fewer) and "+k more" exactly when there are more, with k the rest |
| PatientList.VisitOrderTotalPreorder | ayursutra/frontend/src/components/practitioner/PatientList.jsx:107-112 | the last-visit comparator is a total preorder, so the stable sort is well defined |
| PatientList.Listed | ayursutra/frontend/src/components/practitioner/PatientList.jsx:86-112 | the listed patients are a permutation of those passing the search and status filter, with every visited patient before every never-visited one and later visits first |
| PatientList.FilteredIsPasses | ayursutra/frontend/src/components/practitioner/PatientList.jsx:89-104 | the search followed by the status filter keeps exactly the patients passing both, in order |
| PatientList.ListedIff | ayursutra/frontend/src/components/practitioner/PatientList.jsx:86-112 | a patient is listed exactly when they are in the list and pass the search and the filter |
| PatientList.Shown | ayursutra/frontend/src/components/practitioner/PatientList.jsx:114 | the compact view shows the first five listed patients (fewer only when fewer are listed); the full view shows them all |
| PatientList.ProgressColour | ayursutra/frontend/src/components/practitioner/PatientList.jsx:142-147 | green from 80, blue from 50, yellow from 25, grey below 25 |
| PatientList.NeverVisitedListedLast | ayursutra/frontend/src/components/practitioner/PatientList.jsx:106-112 | with no search or filter, the one patient who has never visited is listed last |
| PatientRecords.Filtered | ayursutra/frontend/src/components/practitioner/PatientRecords.jsx:158-164 | exactly the records whose name or e-mail contains the search ignoring case, or whose phone contains it as typed, and whose constitution contains the chosen dosha (or "all"), in order |
| PatientRecords.EmptySearchListsAll | ayursutra/frontend/src/components/practitioner/PatientRecords.jsx:158-164 | an empty search with "all" lists every record |
| PatientRecords.DoshaIsSubstring | ayursutra/frontend/src/components/practitioner/PatientRecords.jsx:162 | the dosha filter is a substring test: "Vata" keeps "Kapha-Vata" and "Vata-Pitta" but not "Pitta-Kapha", and a record always passes its own constitution |
| PatientRecords.StatusColour | ayursutra/frontend/src/components/practitioner/PatientRecords.jsx:166-173 | green, blue and yellow exactly for "active", "completed" and "planned" in any case |
| PatientRecords.SeverityColour | ayursutra/frontend/src/components/practitioner/PatientRecords.jsx:175-182 | red, yellow and green exactly for "severe", "moderate" and "mild" in any case |
| PatientRecords.ColoursIgnoreCase | ayursutra/frontend/src/components/practitioner/PatientRecords.jsx:167-176 | a value and its lower-cased form get the same colours |
| TreatmentHistory.NewerTotalPreorder | ayursutra/frontend/src/pages/patient/TreatmentHistory.jsx:124 | newest-first by day is a total preorder, so the stable sort is well defined |
| TreatmentHistory.Narrowed | ayursutra/frontend/src/pages/patient/TreatmentHistory.jsx:107-121 | once nothing throws, exactly the completed items that have a practitioner and pass the search and the type filter, in their order |
| TreatmentHistory.Newest | ayursutra/frontend/src/pages/patient/TreatmentHistory.jsx:124 | sorting is a permutation of the items and puts them newest first |
| TreatmentHistory.History | ayursutra/frontend/src/pages/patient/TreatmentHistory.jsx:100-127 | the page fails exactly when a completed item lacking a practitioner is searched by name or shown; otherwise the list is a permutation of the completed items of the hook's list and the fixture that pass the search and the type filter, newest first |
| TreatmentHistory.NoThrowMeansNamed | ayursutra/frontend/src/pages/patient/TreatmentHistory.jsx:110-121 | when nothing throws, every item the type filter lets through has a practitioner |
| TreatmentHistory.FixtureAllListed | ayursutra/frontend/src/pages/patient/TreatmentHistory.jsx:100-127 | with no search and "all", every completed, named fixture item is listed |
| TreatmentHistory.TreatmentName | ayursutra/frontend/src/pages/patient/TreatmentHistory.jsx:160-170 | an id outside the six known treatments is shown unchanged |
| TreatmentHistory.TreatmentNameIdempotent | ayursutra/frontend/src/pages/patient/TreatmentHistory.jsx:160-170 | a display name maps to itself, so naming twice is naming once |
| TreatmentHistory.Stars | ayursutra/frontend/src/pages/patient/TreatmentHistory.jsx:172-179 | five stars, star i filled exactly when i is below the rating |
| TreatmentHistory.FilledStars | ayursutra/frontend/src/pages/patient/TreatmentHistory.jsx:172-179 | the number of filled stars is the rating cut to 0..5 |
| TreatmentHistory.RatingText | ayursutra/frontend/src/pages/patient/TreatmentHistory.jsx:184 | "N/A" exactly for a missing or zero rating; otherwise the decimal digits of the rating |
| TreatmentHistory.CsvRows | ayursutra/frontend/src/pages/patient/TreatmentHistory.jsx:183-185 | one CSV row per listed item, in order |
| TreatmentHistory.ExportLines | ayursutra/frontend/src/pages/patient/TreatmentHistory.jsx:181-187 | read back line by line, the export is the header "Date,Treatment,Practitioner,Rating" and then one row per item (one empty line for an empty list), provided no field holds a newline |
| TreatmentHistory.HeaderHasNoNewline | ayursutra/frontend/src/pages/patient/TreatmentHistory.jsx:187 | the CSV header is a single line |
| Profile.Or | ayursutra/frontend/src/pages/patient/Profile.jsx:37-48 | `v \|\| d` gives the default exactly when the value is missing, falsy or already the default |
| Profile.Coalesce | ayursutra/frontend/src/pages/patient/Profile.jsx:50-56 | `v ?? d` gives the default exactly when the value is missing or null, or already the default; `false` is kept |
| Profile.Preferences | ayursutra/frontend/src/pages/patient/Profile.jsx:47-58 | the preferences object always has language, notifications and privacy |
| Profile.FromUserFields | ayursutra/frontend/src/pages/patient/Profile.jsx:34-61 | the loaded profile has the ten text fields and preferences; a text field is its default ("Vata-Pitta" for the constitution, otherwise empty) exactly when the user's value is missing, falsy or equal to it; truthy user values are kept |
| Profile.Load | ayursutra/frontend/src/pages/patient/Profile.jsx:34-61 | without a user the form is left as it was; with one it takes the loaded shape |
| Profile.Cancel | ayursutra/frontend/src/pages/patient/Profile.jsx:93-122 | cancelling always leaves edit mode; without a user the form is left as it was |
| Profile.CancelIsReload | ayursutra/frontend/src/pages/patient/Profile.jsx:93-122 | with a user, cancelling restores exactly what loading the user gives, whatever was edited |
| Profile.EmptyUserDefaults | ayursutra/frontend/src/pages/patient/Profile.jsx:9-61 | a user with no fields loads as the initial form except that the constitution is "Vata-Pitta": language english, all notifications on, both privacy flags off |
| Profile.ExplicitFalseKept | ayursutra/frontend/src/pages/patient/Profile.jsx:50-52 | a notification explicitly switched off stays off while a missing one defaults to on |
| Profile.FromUserIdempotent | ayursutra/frontend/src/pages/patient/Profile.jsx:34-61 | loading a loaded profile gives it back unchanged |
| Profile.PreferencesIdempotent | ayursutra/frontend/src/pages/patient/Profile.jsx:47-58 | normalising preferences twice is normalising once |
| Profile.Path | ayursutra/frontend/src/pages/patient/Profile.jsx:64-65 | a field without a dot is one key; otherwise the first two or three dot-separated pieces, a third only when it is non-empty |
| Profile.DotSplits | ayursutra/frontend/src/pages/patient/Profile.jsx:64-65 | a field with a dot splits into at least two pieces |
| Profile.Spread | ayursutra/frontend/src/pages/patient/Profile.jsx:69 | spreading an object value gives its fields |
| Profile.SetPath | ayursutra/frontend/src/pages/patient/Profile.jsx:63-79 | the edit fails exactly for a three-level path whose parent is missing or null; otherwise the top-level keys gain the parent and every other top-level field is unchanged |
| Profile.SetThenGet | ayursutra/frontend/src/pages/patient/Profile.jsx:63-79 | after an edit, reading the same path gives the value written |
| Profile.SiblingsPreserved | ayursutra/frontend/src/pages/patient/Profile.jsx:66-75 | an edit keeps every other field of the parent object and, at three levels, every other field of the child object |
| Profile.PathOfPieces | ayursutra/frontend/src/pages/patient/Profile.jsx:65 | three dot-free pieces joined by dots split back into the same three keys |
| Profile.NotificationPath | ayursutra/frontend/src/pages/patient/Profile.jsx:65 | each notification toggle's field name splits into preferences, notifications and the flag |
| Profile.LoadedShape | ayursutra/frontend/src/pages/patient/Profile.jsx:47-58 | a loaded profile's notifications are an object |
| Profile.EditNested | ayursutra/frontend/src/pages/patient/Profile.jsx:66-75 | a three-level edit of an object child sets that key and keeps its siblings |
| Profile.AtThree | ayursutra/frontend/src/pages/patient/Profile.jsx:71-72 | reading a three-level path is reading the grandchild key of the child object |
| Profile.EditNotificationFlag | ayursutra/frontend/src/pages/patient/Profile.jsx:63-79 | toggling a notification flag of a loaded profile succeeds, sets that flag, keeps the other flags and leaves every other top-level field unchanged |
| Profile.Save | ayursutra/frontend/src/pages/patient/Profile.jsx:81-91 | saving shows the loading state, always clears it afterwards, and leaves edit mode exactly when the update succeeds |
| Profile.SaveOutcome | ayursutra/frontend/src/pages/patient/Profile.jsx:81-91 | a failed save restores the page as it was; a successful one ends with neither editing nor loading |
| Profile.Age | ayursutra/frontend/src/pages/patient/Profile.jsx:133-143 | no age for an empty date of birth; otherwise the number of birthdays passed, i.e. the n with the n-th anniversary on or before today and the next one after |
| Profile.AgeUnique | ayursutra/frontend/src/pages/patient/Profile.jsx:137-141 | at most one age fits a birth date and a day |
| Profile.Initials | ayursutra/frontend/src/pages/patient/Profile.jsx:192 | the avatar initials contain no lower-case letter and are at most one character per space-separated word (and so at most one more than the name's length) |
| Profile.SplitLength | ayursutra/frontend/src/pages/patient/Profile.jsx:192 | splitting at spaces gives at most one more piece than the name's length |
| Profile.InitialsOfWords | ayursutra/frontend/src/pages/patient/Profile.jsx:192 | for words without spaces joined by single spaces, the initials are the upper-cased first letters, in order |
| Profile.FirstsOfNonEmpty | ayursutra/frontend/src/pages/patient/Profile.jsx:192 | for non-empty words, taking first letters gives one letter per word, in order |

## Left out

- Express and HTTP plumbing: each route is a function returning `Ok`, `BadRequest` or `NotFound` (and a new store) instead of writing to `req`/`res`.
- The language-model call of the chatbot endpoint (`ayursutra/backend/routes/chatbot.js:40-63`), including how it filters `history`: its outcome (no key, an answer, an error) is an input.
- The frontend's network layer and the commented-out API calls in the hooks: every hook operation is modelled through its mock, state-only implementation.
- `fetchAppointments`, `fetchProgressData` and the other mock loaders: they only copy a fixture into state after a `setTimeout`; the `loading` and `error` flags are not modelled either.
- The random notification simulation in `useNotifications.js` (a 10% chance every 30 seconds), because it depends on `Math.random` and timers.
- `Date.now()` ids and `new Date()` as "now": both are parameters.
- Locale and time-zone formatting (`toLocaleDateString`, `toLocaleTimeString`, `toISOString`, every `formatDate`): dates are day numbers, and the weekday of the first of a month is an input to the calendar grid.
- `isToday` on calendar cells, which compares with the real clock.
- Invalid dates (`NaN` from `new Date('garbage')`), because every date in the model is a valid day number.
- Floating-point results: `percentChange` of the progress trend, the weekly report's averages, and progress-bar widths.
- Unicode case mapping: `toLowerCase`/`toUpperCase` are modelled on ASCII letters only.
- `localeCompare`, approximated by code-unit order; the two agree on the `HH:MM` times it compares.
- Prototype keys: looking up a treatment type such as `"constructor"` in a JavaScript object literal finds an inherited member; the model's tables are plain maps.
- Icons, CSS classes and colour maps beyond the ones with a contract (`getStatusColor` of the planner and of the patient list, `getNotificationIcon`, `getTreatmentIcon`): they select presentation only.
- `getConstitutionBalance` and `getMilestones` of the progress hook: they return a field of the state unchanged.
- `ClientNotifications.Recent`: `getRecentNotifications` sorts the state array in place before slicing; the model returns the sorted prefix and leaves the stored order unchanged. Its `limit` is a `nat` as for `ClientAppointments.Upcoming`; the default of 5 is `DefaultRecentLimit`.
- `BookingWizard.ToBookingForm`: the urgent flag is kept in the form but not passed on, because the booking hook sends and stores no such field (`NavAyush_SIH-main/ayursutra/frontend/src/hooks/useAppointments.js:100-123`).
- `ClientAppointments.Upcoming`: `limit` is a `nat`, so a negative limit (for which `slice(0, limit)` drops the last entries) is not modelled; no caller passes one. The default of 5 is `DefaultUpcomingLimit`.
- `ClientNotifications.Send`: caller fields other than id, title, message, type and action link, which `...notificationData` would also copy into the notice, are not modelled; the notice record has exactly those fields.
- `Profile.Spread`: spreading a string or other non-object value, which JavaScript turns into index keys; the model treats any non-object as `{}`.
- Numbers inside profile values: the model's values are null, booleans, strings and objects.
- `Profile.Age`: the time zone in which `new Date(dateOfBirth)` is read is not modelled; the parsed birth date is an input next to the text.
- The status labels built with `status.replace('-', ' ')` and other display text.
- `ChatWidget.jsx`, `auth.js`, `patients.js`, `users.js` and the dashboard, analytics and landing pages: none of them is part of this model.

## Findings

| source | as written | input that shows it | evidently intended | confidence | as-written member | corrected member |
|---|---|---|---|---|---|---|
| NavAyush_SIH-main/ayursutra/frontend/src/components/practitioner/CalendarView.jsx:86 | the leading cells end at `new Date(currentYear, currentMonth - 1, 0)`, the last day of the month two before the shown one | March 2024 (first day a Friday, so 5 leading cells): the grid shows 27, 28, 29, 30, 31, but February 2024 ends on the 29th | `new Date(currentYear, currentMonth, 0)`, the last day of the previous month, giving 25..29 | not executed | CalendarGrid.AsWrittenMarch2024 | CalendarGrid.MonthGridIsConsecutive |
| ayursutra/frontend/src/components/patient/AppointmentCalendar.jsx:25 | the same construction as the practitioner calendar | the same March 2024 grid | the same correction | not executed | CalendarGrid.AsWrittenAgreesIff | CalendarGrid.MonthGridIsConsecutive |

=== FILE: appointments.dfy ===
/** The backend appointment store: booking with required-field validation
    and automatic doctor assignment, filtered listing, lookups by id, doctor
    and patient, the status update, and the static slot catalogue.

    The store is a value (`Store`) threaded through the operations; the
    server's fresh id (`Date.now()`) is a parameter. Dates are day ordinals
    (days since 1970-01-01), the calendar-date order that `new Date(...)`
    comparisons of `YYYY-MM-DD` strings give. */
module Appointments {
  import opened Wrappers
  import opened Registry
  import opened Seqs
  import opened Text
  import PI = PatientIndex

  /** A stored appointment; `visitType` is the record's free-text `type`. */
  datatype Appointment = Appointment(
    id: int,
    patientId: string,
    patientName: string,
    date: int,
    time: string,
    visitType: string,
    treatmentType: string,
    doctor: Option<Doctor>,
    status: string)

  /** The two process-wide collections: the appointment list and the
      practitioner-to-patients index. */
  datatype Store = Store(appointments: seq<Appointment>, index: PI.Index)

  /** The two seeded appointments, both on 2024-01-20 (day 19742). */
  const Seed: seq<Appointment> := [
    Appointment(1, "P001", "Rajesh Kumar", 19742, "10:00 AM", "Panchakarma Consultation", "Panchakarma",
                Some(Doctor("D101", "Dr. Ananya Iyer", "Panchakarma Specialist")), "scheduled"),
    Appointment(2, "P002", "Priya Sharma", 19742, "2:00 PM", "Follow-up", "Abhyanga",
                Some(Doctor("D201", "Dr. Kavya Nair", "Therapeutic Massage")), "completed")
  ]

  const Initial: Store := Store(Seed, PI.Empty)

  // ---------------------------------------------------------------------
  // Doctor assignment

  predicate InPool(pool: seq<Doctor>, doctorId: string)
  {
    exists i :: 0 <= i < |pool| && pool[i].id == doctorId
  }

  /** The requested doctor when the treatment's pool holds it, else the
      pool's first doctor, else no doctor. */
  function Assign(treatmentType: string, doctorId: string): (d: Option<Doctor>)
    ensures var pool := BookingPool(treatmentType);
            doctorId != "" && InPool(pool, doctorId) ==> d.Some? && d.value.id == doctorId && d.value in pool
    ensures var pool := BookingPool(treatmentType);
            (doctorId == "" || !InPool(pool, doctorId)) && |pool| > 0 ==> d == Some(pool[0])
    ensures BookingPool(treatmentType) == [] ==> d.None?
    ensures d.Some? ==> d.value.id != ""
  {
    var pool := BookingPool(treatmentType);
    BookingIdsPresent(treatmentType);
    var requested := if doctorId != "" then FindDoctor(pool, doctorId) else None;
    if requested.Some? then requested
    else if |pool| > 0 then Some(pool[0])
    else None
  }

  /** Pool ids are distinct, so a requested doctor in the pool is exactly the
      pool entry with that id. */
  lemma AssignRequested(treatmentType: string, doctorId: string, i: int)
    requires doctorId != ""
    requires 0 <= i < |BookingPool(treatmentType)| && BookingPool(treatmentType)[i].id == doctorId
    ensures Assign(treatmentType, doctorId) == Some(BookingPool(treatmentType)[i])
  {
    BookingPoolDistinct(treatmentType);
    FindDoctorExact(BookingPool(treatmentType), i);
  }

  /** A treatment type the registry does not list never gets a doctor, and
      whatever doctor was requested is ignored. */
  lemma UnknownTypeUnassigned(treatmentType: string, doctorId: string)
    requires treatmentType !in Keys(BookingTable)
    ensures Assign(treatmentType, doctorId).None?
  {
    UnknownTypeHasNoPool(treatmentType);
  }

  // ---------------------------------------------------------------------
  // Booking

  /** The POST body. An absent or empty field is "". */
  datatype BookingRequest = BookingRequest(
    patientId: string,
    patientName: string,
    date: Option<int>,
    time: string,
    visitType: string,
    treatmentType: string,
    doctorId: string)

  /** All six required fields are present (truthy). */
  predicate Complete(req: BookingRequest)
  {
    && req.patientId != "" && req.patientName != "" && req.date.Some?
    && req.time != "" && req.visitType != "" && req.treatmentType != ""
  }

  /** `POST /appointments`. */
  function Book(store: Store, req: BookingRequest, freshId: int): (out: (Response<Appointment>, Store))
    ensures !Complete(req) <==> out.0.BadRequest?
    ensures !Complete(req) ==> out.1 == store
    ensures Complete(req) ==>
              && out.0.Ok?
              && out.0.value.id == freshId
              && out.0.value.patientId == req.patientId
              && out.0.value.patientName == req.patientName
              && Some(out.0.value.date) == req.date
              && out.0.value.time == req.time
              && out.0.value.visitType == req.visitType
              && out.0.value.treatmentType == req.treatmentType
              && out.0.value.doctor == Assign(req.treatmentType, req.doctorId)
              && out.0.value.status == "scheduled"
    ensures Complete(req) ==> out.1.appointments == store.appointments + [out.0.value]
    ensures Complete(req) && out.0.value.doctor.None? ==> out.1.index == store.index
    ensures Complete(req) && out.0.value.doctor.Some? ==>
              PI.Lists(PI.Get(out.1.index, out.0.value.doctor.value.id), req.patientId)
    ensures Complete(req) ==>
              out.1.index == PI.Add(store.index, out.0.value.doctor, PI.PatientRef(req.patientId, req.patientName))
    ensures forall k :: k in store.index && !(out.0.Ok? && out.0.value.doctor.Some? && k == out.0.value.doctor.value.id) ==>
              k in out.1.index && out.1.index[k] == store.index[k]
  {
    if !Complete(req) then
      (BadRequest("Missing required fields: patientId, patientName, date, time, type, treatmentType"), store)
    else
      var doctor := Assign(req.treatmentType, req.doctorId);
      var created := Appointment(freshId, req.patientId, req.patientName, req.date.value, req.time,
                                 req.visitType, req.treatmentType, doctor, "scheduled");
      var index := if doctor.Some? then PI.Add(store.index, doctor, PI.PatientRef(req.patientId, req.patientName))
                   else store.index;
      (Ok(created), Store(store.appointments + [created], index))
  }

  /** Booking keeps the index free of duplicate patients per doctor. */
  lemma BookPreservesIndex(store: Store, req: BookingRequest, freshId: int)
    requires PI.Valid(store.index)
    ensures PI.Valid(Book(store, req, freshId).1.index)
  {
    if Complete(req) {
      var doctor := Assign(req.treatmentType, req.doctorId);
      if doctor.Some? {
        PI.AddPreservesValid(store.index, doctor, PI.PatientRef(req.patientId, req.patientName));
      }
    }
  }

  // ---------------------------------------------------------------------
  // Queries

  /** The list query; "" and `None` mean the field was not given. */
  datatype Query = Query(patientId: string, doctorId: string, status: string, from: Option<int>, to: Option<int>)

  const NoFilter: Query := Query("", "", "", None, None)

  /** Whether `a` passes every given field of `q`. */
  predicate Matches(q: Query, a: Appointment)
  {
    && (q.patientId == "" || a.patientId == q.patientId)
    && (q.doctorId == "" || (a.doctor.Some? && a.doctor.value.id == q.doctorId))
    && (q.status == "" || a.status == q.status)
    && (q.from.None? || q.from.value <= a.date)
    && (q.to.None? || a.date <= q.to.value)
  }

  /** `filterAppointments`. */
  function FilterAppointments(list: seq<Appointment>, q: Query): (r: seq<Appointment>)
    ensures IsSubsequence(r, list)
    ensures forall i :: 0 <= i < |r| ==>
              && (q.patientId != "" ==> r[i].patientId == q.patientId)
              && (q.doctorId != "" ==> r[i].doctor.Some? && r[i].doctor.value.id == q.doctorId)
              && (q.status != "" ==> r[i].status == q.status)
              && (q.from.Some? ==> q.from.value <= r[i].date)
              && (q.to.Some? ==> r[i].date <= q.to.value)
    ensures forall i :: 0 <= i < |list| && Matches(q, list[i]) ==> list[i] in r
  {
    Filter((a: Appointment) => Matches(q, a), list)
  }

  /** A query with no field given returns the whole list. */
  lemma NoFilterKeepsAll(list: seq<Appointment>)
    ensures FilterAppointments(list, NoFilter) == list
  {
    FilterKeepsAll((a: Appointment) => Matches(NoFilter, a), list);
  }

  /** Both bounds are inclusive: a range of one day returns exactly that
      day's appointments, in list order. */
  lemma SingleDayRange(list: seq<Appointment>, day: int)
    ensures FilterAppointments(list, Query("", "", "", Some(day), Some(day)))
         == Filter((a: Appointment) => a.date == day, list)
  {
    var q := Query("", "", "", Some(day), Some(day));
    FilterExt((a: Appointment) => Matches(q, a), (a: Appointment) => a.date == day, list);
  }

  /** `GET /appointments/doctor/:doctorId`. */
  function ByDoctor(list: seq<Appointment>, doctorId: string): (r: seq<Appointment>)
    ensures IsSubsequence(r, list)
    ensures forall i :: 0 <= i < |r| ==> r[i].doctor.Some? && r[i].doctor.value.id == doctorId
    ensures forall i :: 0 <= i < |list| && list[i].doctor.Some? && list[i].doctor.value.id == doctorId ==> list[i] in r
  {
    Filter((a: Appointment) => a.doctor.Some? && a.doctor.value.id == doctorId, list)
  }

  /** `GET /appointments/patient/:patientId`. */
  function ByPatient(list: seq<Appointment>, patientId: string): (r: seq<Appointment>)
    ensures IsSubsequence(r, list)
    ensures forall i :: 0 <= i < |r| ==> r[i].patientId == patientId
    ensures forall i :: 0 <= i < |list| && list[i].patientId == patientId ==> list[i] in r
  {
    Filter((a: Appointment) => a.patientId == patientId, list)
  }

  /** The doctor route is the list query with only `doctorId` given. */
  lemma ByDoctorIsQuery(list: seq<Appointment>, doctorId: string)
    requires doctorId != ""
    ensures ByDoctor(list, doctorId) == FilterAppointments(list, NoFilter.(doctorId := doctorId))
  {
    var q := NoFilter.(doctorId := doctorId);
    FilterExt((a: Appointment) => a.doctor.Some? && a.doctor.value.id == doctorId, (a: Appointment) => Matches(q, a), list);
  }

  /** The patient route is the list query with only `patientId` given. */
  lemma ByPatientIsQuery(list: seq<Appointment>, patientId: string)
    requires patientId != ""
    ensures ByPatient(list, patientId) == FilterAppointments(list, NoFilter.(patientId := patientId))
  {
    var q := NoFilter.(patientId := patientId);
    FilterExt((a: Appointment) => a.patientId == patientId, (a: Appointment) => Matches(q, a), list);
  }

  /** A doctor filter never returns an appointment without a doctor. */
  lemma DoctorFilterSkipsUnassigned(list: seq<Appointment>, q: Query, i: int)
    requires q.doctorId != ""
    requires 0 <= i < |FilterAppointments(list, q)|
    ensures FilterAppointments(list, q)[i].doctor.Some?
  {
  }

  /** Position of the first appointment with id `id`, or -1. */
  function IndexOf(list: seq<Appointment>, id: int): (k: int)
    ensures -1 <= k < |list|
    ensures k == -1 <==> forall j :: 0 <= j < |list| ==> list[j].id != id
    ensures 0 <= k ==> list[k].id == id && forall j :: 0 <= j < k ==> list[j].id != id
  {
    FindIndex((a: Appointment) => a.id == id, list)
  }

  /** `GET /appointments/:id`; `id` is `parseInt` of the path segment,
      `None` for NaN, which matches nothing. */
  function GetById(list: seq<Appointment>, id: Option<int>): (r: Response<Appointment>)
    ensures r.Ok? || r.NotFound?
    ensures r.Ok? <==> id.Some? && exists i :: 0 <= i < |list| && list[i].id == id.value
    ensures r.Ok? ==> r.value.id == id.value
    ensures r.Ok? ==> exists i :: 0 <= i < |list| && list[i] == r.value && forall j :: 0 <= j < i ==> list[j].id != id.value
  {
    if id.None? then NotFound("Appointment not found")
    else
      var k := IndexOf(list, id.value);
      if k < 0 then NotFound("Appointment not found") else Ok(list[k])
  }

  /** Round trip: a booked appointment whose fresh id is unused is what a
      lookup of that id returns. */
  lemma BookThenGet(store: Store, req: BookingRequest, freshId: int)
    requires Complete(req)
    requires forall j :: 0 <= j < |store.appointments| ==> store.appointments[j].id != freshId
    ensures GetById(Book(store, req, freshId).1.appointments, Some(freshId)) == Book(store, req, freshId).0
  {
    var out := Book(store, req, freshId);
    var list := out.1.appointments;
    assert list[|store.appointments|] == out.0.value;
    var k := IndexOf(list, freshId);
    assert k == |store.appointments|;
  }

  // ---------------------------------------------------------------------
  // Status update

  const AllowedStatuses: seq<string> := ["scheduled", "completed", "cancelled"]

  /** `PUT /appointments/:id/status`: the status is checked before the id is
      looked up; only the first appointment with that id changes. */
  function UpdateStatus(store: Store, id: Option<int>, status: string): (out: (Response<Appointment>, Store))
    ensures status !in AllowedStatuses ==> out.0.BadRequest? && out.1 == store
    ensures status in AllowedStatuses && (id.None? || IndexOf(store.appointments, id.value) < 0) ==>
              out.0.NotFound? && out.1 == store
    ensures status in AllowedStatuses && id.Some? && IndexOf(store.appointments, id.value) >= 0 ==>
              var k := IndexOf(store.appointments, id.value);
              && out.0 == Ok(store.appointments[k].(status := status))
              && out.1 == Store(store.appointments[k := store.appointments[k].(status := status)], store.index)
  {
    if status !in AllowedStatuses then
      (BadRequest("Invalid status. Allowed: scheduled, completed, cancelled"), store)
    else if id.None? then
      (NotFound("Appointment not found"), store)
    else
      var k := IndexOf(store.appointments, id.value);
      if k < 0 then (NotFound("Appointment not found"), store)
      else
        var updated := store.appointments[k].(status := status);
        (Ok(updated), Store(store.appointments[k := updated], store.index))
  }

  /** A status update touches nothing but one status: ids, length, every
      other appointment and the index are as before. */
  lemma UpdateStatusFrame(store: Store, id: Option<int>, status: string)
    ensures var after := UpdateStatus(store, id, status).1;
            && |after.appointments| == |store.appointments|
            && after.index == store.index
            && forall j :: 0 <= j < |store.appointments| ==>
                 after.appointments[j] == store.appointments[j].(status := after.appointments[j].status)
  {
  }

  /** There is no transition graph: from any state, an allowed status can be
      set, and a second update simply overrides the first. */
  lemma StatusLastWriteWins(store: Store, id: int, first: string, second: string)
    requires first in AllowedStatuses && second in AllowedStatuses
    ensures UpdateStatus(UpdateStatus(store, Some(id), first).1, Some(id), second)
         == UpdateStatus(store, Some(id), second)
  {
    var list := store.appointments;
    var k := IndexOf(list, id);
    if k >= 0 {
      var mid := UpdateStatus(store, Some(id), first).1.appointments;
      assert forall j :: 0 <= j < |list| ==> mid[j].id == list[j].id;
      assert IndexOf(mid, id) == k;
      assert mid[k := mid[k].(status := second)] == list[k := list[k].(status := second)];
    }
  }

  /** A rejected status leaves an earlier update in place. */
  lemma InvalidStatusKeepsEarlierUpdate(store: Store, id: int, status: string, bogus: string)
    requires status in AllowedStatuses && bogus !in AllowedStatuses
    requires IndexOf(store.appointments, id) >= 0
    ensures var after := UpdateStatus(store, Some(id), status).1;
            var again := UpdateStatus(after, Some(id), bogus);
            && again.0.BadRequest?
            && again.1 == after
            && after.appointments[IndexOf(store.appointments, id)].status == status
  {
  }

  // ---------------------------------------------------------------------
  // Slots

  /** The reply of `GET /appointments/available-slots`. */
  datatype SlotsReply = SlotsReply(practitionerId: string, date: string, slots: seq<string>)

  const Slots: seq<string> := ["09:00", "09:30", "10:00", "10:30", "11:00", "11:30",
                               "14:00", "14:30", "15:00", "15:30", "16:00", "16:30", "17:00"]

  /** The static catalogue, whatever practitioner and date are asked for;
      both are echoed back. */
  function AvailableSlots(practitionerId: string, date: string): (r: SlotsReply)
    ensures r.practitionerId == practitionerId && r.date == date
    ensures |r.slots| == 13
    ensures forall i :: 0 <= i < |r.slots| ==> |r.slots[i]| == 5 && r.slots[i][2] == ':'
  {
    SlotsReply(practitionerId, date, Slots)
  }

  /** The slots do not depend on practitioner or date. */
  lemma SlotsIgnoreArguments(p1: string, d1: string, p2: string, d2: string)
    ensures AvailableSlots(p1, d1).slots == AvailableSlots(p2, d2).slots
  {
  }

  /** The slots are in strictly increasing time order. */
  lemma SlotsAscending()
    ensures forall i :: 0 <= i < |Slots| - 1 ==> StrLess(Slots[i], Slots[i + 1])
  {
  }

  // ---------------------------------------------------------------------
  // Scenarios

  function Request(treatmentType: string, doctorId: string): BookingRequest
  {
    BookingRequest("P010", "Asha", Some(19800), "10:00", "Consultation", treatmentType, doctorId)
  }

  /** Without a requested doctor, Panchakarma gets its first doctor, D101. */
  lemma DefaultsToFirstDoctor(store: Store, freshId: int)
    ensures Book(store, Request("Panchakarma", ""), freshId).0.value.doctor.value.id == "D101"
  {
    var d := Assign("Panchakarma", "");
    PanchakarmaPool();
    assert d == Some(PanchakarmaDoctors[0]);
    BookedDoctor(store, Request("Panchakarma", ""), freshId, d);
  }

  lemma PanchakarmaPool()
    ensures BookingPool("Panchakarma") == PanchakarmaDoctors
  {
    LookupFirst(BookingTable, "Panchakarma");
  }

  /** A complete request books, with the doctor the assignment picks. */
  lemma BookedDoctor(store: Store, req: BookingRequest, freshId: int, d: Option<Doctor>)
    requires Complete(req) && Assign(req.treatmentType, req.doctorId) == d
    ensures Book(store, req, freshId).0.Ok? && Book(store, req, freshId).0.value.doctor == d
  {
  }

  /** A requested doctor from the pool is honoured: D103 for Panchakarma. */
  lemma HonoursRequestedDoctor(store: Store, freshId: int)
    ensures Book(store, Request("Panchakarma", "D103"), freshId).0.value.doctor.value.id == "D103"
  {
    PanchakarmaPool();
    AssignRequested("Panchakarma", "D103", 2);
    BookedDoctor(store, Request("Panchakarma", "D103"), freshId, Some(PanchakarmaDoctors[2]));
  }

  /** An unknown treatment type still books, with no doctor. */
  lemma UnknownTypeStillBooks(store: Store, freshId: int)
    ensures Book(store, Request("Unknown", ""), freshId).0.Ok?
    ensures Book(store, Request("Unknown", ""), freshId).0.value.doctor.None?
  {
    UnknownNotListed();
    UnknownTypeUnassigned("Unknown", "");
    BookedDoctor(store, Request("Unknown", ""), freshId, None);
  }

  lemma UnknownNotListed()
    ensures "Unknown" !in Keys(BookingTable)
  {
    BookingTableShape();
  }

  /** Booking the same patient with the same doctor twice lists that
      patient once under the doctor. */
  lemma RepeatBookingListsPatientOnce(store: Store, req: BookingRequest, firstId: int, secondId: int)
    requires PI.Valid(store.index)
    requires Complete(req)
    requires Assign(req.treatmentType, req.doctorId).Some?
    ensures var after := Book(Book(store, req, firstId).1, req, secondId).1;
            var list := PI.Get(after.index, Assign(req.treatmentType, req.doctorId).value.id);
            Count((p: PI.PatientRef) => p.id == req.patientId, list) == 1
  {
    var doctor := Assign(req.treatmentType, req.doctorId);
    var mid := Book(store, req, firstId).1;
    BookPreservesIndex(store, req, firstId);
    var after := Book(mid, req, secondId).1;
    assert after.index == mid.index;
    PI.ListedOnce(PI.Get(mid.index, doctor.value.id), req.patientId);
  }
}

=== FILE: booking_wizard.dfy ===
/** The four-step booking page: choose a treatment, a practitioner who
    offers it, a date and a slot, then confirm. The page's effects (the
    practitioner filter and the slot list) are folded into the handlers
    that change the fields they depend on. */
module BookingWizard {
  import opened Wrappers
  import opened Seqs
  import opened Text
  import CA = ClientAppointments
  import A = Appointments

  /** A treatment card. */
  datatype UiTreatment = UiTreatment(id: string, name: string, duration: int)

  /** A practitioner card; `treatments` are the UI treatment ids offered. */
  datatype UiPractitioner = UiPractitioner(id: nat, fullName: string, specialization: string, treatments: seq<string>)

  /** The form; `practitionerId` is `''` or the string of a practitioner's
      numeric id, so it is kept as that id. */
  datatype Form = Form(
    treatmentType: string,
    practitionerId: Option<nat>,
    scheduledDate: Option<int>,
    scheduledTime: string,
    duration: int,
    notes: string,
    isUrgent: bool)

  datatype Wizard = Wizard(
    step: int,
    form: Form,
    treatments: seq<UiTreatment>,
    all: seq<UiPractitioner>,
    filtered: seq<UiPractitioner>,
    slots: seq<string>)

  const EmptyForm := Form("", None, None, "", 60, "", false)

  const TimeSlots: seq<string> := ["09:00", "09:30", "10:00", "10:30", "11:00", "11:30",
                                   "14:00", "14:30", "15:00", "15:30", "16:00", "16:30", "17:00"]

  const MockTreatments: seq<UiTreatment> := [
    UiTreatment("abhyanga", "Abhyanga", 60),
    UiTreatment("shirodhara", "Shirodhara", 90),
    UiTreatment("swedana", "Swedana", 45),
    UiTreatment("panchakarma", "Panchakarma Consultation", 30),
    UiTreatment("nasya", "Nasya", 30),
    UiTreatment("basti", "Basti", 75)
  ]

  const MockPractitioners: seq<UiPractitioner> := [
    UiPractitioner(1, "Dr. Priya Sharma", "Panchakarma Specialist", ["abhyanga", "shirodhara", "swedana"]),
    UiPractitioner(2, "Dr. Rajesh Kumar", "Ayurvedic Physician", ["panchakarma", "nasya", "basti"]),
    UiPractitioner(3, "Dr. Meera Patel", "Women's Health Specialist", ["abhyanga", "shirodhara", "panchakarma"]),
    UiPractitioner(4, "Dr. T. Vasavi", "Therapeutic Massage Specialist", ["abhyanga", "swedana"]),
    UiPractitioner(5, "Dr. Arun Joshi", "Nasya & Basti Specialist", ["nasya", "basti", "panchakarma"])
  ]

  /** The page as first shown: step 1, the empty form, every practitioner. */
  function Initial(treatments: seq<UiTreatment>, all: seq<UiPractitioner>): (w: Wizard)
    ensures w.step == 1 && w.form == EmptyForm && w.filtered == all && w.slots == []
  {
    Wizard(1, EmptyForm, treatments, all, all, [])
  }

  predicate Offers(p: UiPractitioner, treatmentId: string)
  {
    treatmentId in p.treatments
  }

  function Offering(treatmentId: string): UiPractitioner -> bool
  {
    (p: UiPractitioner) => Offers(p, treatmentId)
  }

  /** The practitioners shown for a treatment: those offering it, or all
      when none is chosen. */
  function FilterFor(all: seq<UiPractitioner>, treatmentId: string): (r: seq<UiPractitioner>)
    ensures treatmentId == "" ==> r == all
    ensures IsSubsequence(r, all)
    ensures treatmentId != "" ==> forall i :: 0 <= i < |r| ==> Offers(r[i], treatmentId)
    ensures treatmentId != "" ==> forall i :: 0 <= i < |all| && Offers(all[i], treatmentId) ==> all[i] in r
  {
    SubsequenceRefl(all);
    if treatmentId == "" then all else Filter(Offering(treatmentId), all)
  }

  /** `getTreatmentSpecialists(id).length`. */
  function SpecialistCount(all: seq<UiPractitioner>, treatmentId: string): (n: nat)
    ensures n <= |all|
    ensures n == 0 <==> forall i :: 0 <= i < |all| ==> !Offers(all[i], treatmentId)
  {
    Count(Offering(treatmentId), all)
  }

  /** The count on a treatment card is the length of the list shown once
      that treatment is chosen. */
  lemma SpecialistCountIsFilteredLength(all: seq<UiPractitioner>, treatmentId: string)
    requires treatmentId != ""
    ensures SpecialistCount(all, treatmentId) == |FilterFor(all, treatmentId)|
  {
    CountIsFilterLength(Offering(treatmentId), all);
  }

  /** The position of the practitioner with that id in a list, or -1. */
  function PositionOf(list: seq<UiPractitioner>, id: nat): (k: int)
    ensures -1 <= k < |list|
    ensures k == -1 <==> forall i :: 0 <= i < |list| ==> list[i].id != id
    ensures k >= 0 ==> list[k].id == id
  {
    FindIndex((p: UiPractitioner) => p.id == id, list)
  }

  /** The slot effect: both treatment and date set loads the fixed slots;
      otherwise the list stays as it was. */
  function RefreshSlots(w: Wizard): (r: Wizard)
    ensures r == w.(slots := r.slots)
    ensures w.form.treatmentType != "" && w.form.scheduledDate.Some? ==> r.slots == TimeSlots
    ensures !(w.form.treatmentType != "" && w.form.scheduledDate.Some?) ==> r.slots == w.slots
  {
    if w.form.treatmentType != "" && w.form.scheduledDate.Some? then w.(slots := TimeSlots) else w
  }

  /** Choosing a treatment (or `''` to clear it): its duration is copied
      when it is a known treatment, the practitioner list is re-filtered,
      and the chosen practitioner is dropped if the new list lacks them. */
  function SelectTreatment(w: Wizard, treatmentId: string): (r: Wizard)
    ensures r.step == w.step && r.all == w.all && r.treatments == w.treatments
    ensures r.form.treatmentType == treatmentId
    ensures r.filtered == FilterFor(w.all, treatmentId)
    ensures var k := FindIndex((t: UiTreatment) => t.id == treatmentId, w.treatments);
            r.form.duration == if k >= 0 then w.treatments[k].duration else w.form.duration
    ensures treatmentId != "" && w.form.practitionerId.Some? ==>
              (r.form.practitionerId.None? <==> PositionOf(r.filtered, w.form.practitionerId.value) < 0)
    ensures treatmentId == "" || w.form.practitionerId.None? ==> r.form.practitionerId == w.form.practitionerId
    ensures r.form.scheduledDate == w.form.scheduledDate && r.form.scheduledTime == w.form.scheduledTime
  {
    var k := FindIndex((t: UiTreatment) => t.id == treatmentId, w.treatments);
    var duration := if k >= 0 then w.treatments[k].duration else w.form.duration;
    var filtered := FilterFor(w.all, treatmentId);
    var keep := treatmentId == "" || w.form.practitionerId.None?
                || PositionOf(filtered, w.form.practitionerId.value) >= 0;
    var form := w.form.(treatmentType := treatmentId, duration := duration,
                        practitionerId := if keep then w.form.practitionerId else None);
    RefreshSlots(w.(form := form, filtered := filtered))
  }

  /** After choosing a treatment, any practitioner still chosen offers it. */
  lemma ChosenPractitionerOffersTreatment(w: Wizard, treatmentId: string)
    requires treatmentId != ""
    ensures var r := SelectTreatment(w, treatmentId);
            r.form.practitionerId.Some? ==>
              exists i :: 0 <= i < |r.filtered| && r.filtered[i].id == r.form.practitionerId.value
                          && Offers(r.filtered[i], treatmentId)
  {
    var r := SelectTreatment(w, treatmentId);
    if r.form.practitionerId.Some? {
      var k := PositionOf(r.filtered, r.form.practitionerId.value);
      assert 0 <= k && r.filtered[k].id == r.form.practitionerId.value;
    }
  }

  /** Choosing a practitioner card. */
  function SelectPractitioner(w: Wizard, id: nat): (r: Wizard)
    ensures r.step == w.step && r.filtered == w.filtered && r.slots == w.slots
    ensures r.form.practitionerId == Some(id) && r.form.treatmentType == w.form.treatmentType
    ensures r.step == 2 ==> (StepValid(r) <==> |w.filtered| > 0)
  {
    w.(form := w.form.(practitionerId := Some(id)))
  }

  /** Picking a date reloads the slots. */
  function SelectDate(w: Wizard, date: int): (r: Wizard)
    ensures r.form == w.form.(scheduledDate := Some(date))
    ensures w.form.treatmentType != "" ==> r.slots == TimeSlots
  {
    RefreshSlots(w.(form := w.form.(scheduledDate := Some(date))))
  }

  function SelectTime(w: Wizard, time: string): (r: Wizard)
    ensures r.step == w.step && r.form.scheduledTime == time && r.form.scheduledDate == w.form.scheduledDate
    ensures r.step == 3 ==> (StepValid(r) <==> w.form.scheduledDate.Some? && time != "")
  {
    w.(form := w.form.(scheduledTime := time))
  }

  /** Emptying the date input: the slots already loaded stay, since the
      page reloads them only once both treatment and date are set. */
  function ClearDate(w: Wizard): (r: Wizard)
    ensures r.form == w.form.(scheduledDate := None) && r.slots == w.slots
    ensures r.step == 3 ==> !StepValid(r)
  {
    RefreshSlots(w.(form := w.form.(scheduledDate := None)))
  }

  /** Once treatment and date are both chosen, the slots are the fixed
      thirteen, however they were reached. */
  lemma SlotsOnceTreatmentAndDate(w: Wizard, treatmentId: string, date: int)
    requires treatmentId != ""
    ensures SelectDate(SelectTreatment(w, treatmentId), date).slots == TimeSlots
    ensures SelectTreatment(SelectDate(w, date), treatmentId).slots == TimeSlots
    ensures |TimeSlots| == 13
  {
  }

  /** `isStepValid()`. */
  function StepValid(w: Wizard): (b: bool)
    ensures w.step == 1 ==> (b <==> w.form.treatmentType != "")
    ensures w.step == 2 ==> (b <==> w.form.practitionerId.Some? && |w.filtered| > 0)
    ensures w.step == 3 ==> (b <==> w.form.scheduledDate.Some? && w.form.scheduledTime != "")
    ensures w.step == 4 ==> b
    ensures !(1 <= w.step <= 4) ==> !b
  {
    match w.step
    case 1 => w.form.treatmentType != ""
    case 2 => w.form.practitionerId.Some? && |w.filtered| > 0
    case 3 => w.form.scheduledDate.Some? && w.form.scheduledTime != ""
    case 4 => true
    case _ => false
  }

  function Next(w: Wizard): (r: Wizard)
    ensures r.step == if w.step < 4 then w.step + 1 else w.step
    ensures r == w.(step := r.step)
  {
    if w.step < 4 then w.(step := w.step + 1) else w
  }

  function Previous(w: Wizard): (r: Wizard)
    ensures r.step == if w.step > 1 then w.step - 1 else w.step
    ensures r == w.(step := r.step)
  {
    if w.step > 1 then w.(step := w.step - 1) else w
  }

  /** The events the page reacts to. */
  datatype Event =
    | NextClicked
    | PreviousClicked
    | TreatmentChosen(treatmentId: string)
    | PractitionerChosen(id: nat)
    | DateChosen(date: int)
    | TimeChosen(time: string)
    | DateCleared
    | NotesEdited(text: string)
    | UrgentToggled(checked: bool)
    | ChooseDifferentTreatment
    | Submitted(succeeded: bool)
    | BookAnother

  /** One event. Each control exists only on its own step: the treatment
      cards on step 1, the practitioner cards on step 2, the date input
      (which can also be emptied) and the slots on step 3, the notes and the
      urgent checkbox on step 4, and the two navigation buttons on steps 1
      to 4 (the
      success screen of step 5 has only "book another"). The confirm
      button is disabled while the step is not valid; it submits on step 4
      and moves on otherwise. "Choose a different treatment" (shown on
      step 2 with no practitioner) returns to step 1. */
  function Apply(w: Wizard, e: Event): (r: Wizard)
    ensures 1 <= w.step <= 4 && !e.Submitted? && !e.BookAnother? ==> 1 <= r.step <= 4
    ensures e.NextClicked? && !StepValid(w) ==> r == w
    ensures e.NextClicked? && StepValid(w) && w.step < 4 ==> r.step == w.step + 1 && r.form == w.form
    ensures e.TreatmentChosen? && w.step != 1 ==> r == w
    ensures e.PractitionerChosen? && w.step != 2 ==> r == w
    ensures (e.DateChosen? || e.TimeChosen? || e.DateCleared?) && w.step != 3 ==> r == w
    ensures e.DateCleared? && w.step == 3 ==> r == w.(form := w.form.(scheduledDate := None))
    ensures e.NotesEdited? && w.step == 4 ==> r == w.(form := w.form.(notes := e.text))
    ensures e.UrgentToggled? && w.step == 4 ==> r == w.(form := w.form.(isUrgent := e.checked))
    ensures (e.NotesEdited? || e.UrgentToggled?) && w.step != 4 ==> r == w
    ensures e.Submitted? && e.succeeded && w.step == 4 ==> r.step == 5
    ensures e.Submitted? && !e.succeeded ==> r == w
    ensures e.BookAnother? && w.step == 5 ==> r.step == 1 && r.form == EmptyForm && r.filtered == w.all
  {
    if IsEdit(e) then Edit(w, e) else Navigate(w, e)
  }

  /** The events that fill in the form rather than move between steps. */
  predicate IsEdit(e: Event)
  {
    e.TreatmentChosen? || e.PractitionerChosen? || e.DateChosen? || e.TimeChosen?
    || e.DateCleared? || e.NotesEdited? || e.UrgentToggled?
  }

  /** A form control: it acts on its own step only and never moves. */
  function Edit(w: Wizard, e: Event): (r: Wizard)
    requires IsEdit(e)
    ensures r.step == w.step
    ensures e.TreatmentChosen? && w.step != 1 ==> r == w
    ensures e.PractitionerChosen? && w.step != 2 ==> r == w
    ensures (e.DateChosen? || e.TimeChosen? || e.DateCleared?) && w.step != 3 ==> r == w
    ensures e.DateCleared? && w.step == 3 ==> r == w.(form := w.form.(scheduledDate := None))
    ensures e.NotesEdited? && w.step == 4 ==> r == w.(form := w.form.(notes := e.text))
    ensures e.UrgentToggled? && w.step == 4 ==> r == w.(form := w.form.(isUrgent := e.checked))
    ensures (e.NotesEdited? || e.UrgentToggled?) && w.step != 4 ==> r == w
  {
    match e
    case TreatmentChosen(t) => if w.step == 1 then SelectTreatment(w, t) else w
    case PractitionerChosen(id) => if w.step == 2 then SelectPractitioner(w, id) else w
    case DateChosen(d) => if w.step == 3 then SelectDate(w, d) else w
    case TimeChosen(t) => if w.step == 3 then SelectTime(w, t) else w
    case DateCleared => if w.step == 3 then ClearDate(w) else w
    case NotesEdited(s) => if w.step == 4 then w.(form := w.form.(notes := s)) else w
    case UrgentToggled(b) => if w.step == 4 then w.(form := w.form.(isUrgent := b)) else w
  }

  /** A button: the two navigation buttons, "choose a different
      treatment", the submit outcome and "book another". */
  function Navigate(w: Wizard, e: Event): (r: Wizard)
    requires !IsEdit(e)
    ensures 1 <= w.step <= 4 && !e.Submitted? && !e.BookAnother? ==> 1 <= r.step <= 4
    ensures e.NextClicked? && !StepValid(w) ==> r == w
    ensures e.NextClicked? && StepValid(w) && w.step < 4 ==> r.step == w.step + 1 && r.form == w.form
    ensures e.Submitted? && e.succeeded && w.step == 4 ==> r.step == 5
    ensures e.Submitted? && !e.succeeded ==> r == w
    ensures e.BookAnother? && w.step == 5 ==> r.step == 1 && r.form == EmptyForm && r.filtered == w.all
  {
    match e
    case NextClicked => if w.step == 4 || !StepValid(w) then w else Next(w)
    case PreviousClicked => if w.step == 5 then w else Previous(w)
    case ChooseDifferentTreatment => if w.step == 2 && |w.filtered| == 0 then w.(step := 1) else w
    case Submitted(ok) => if ok && w.step == 4 then w.(step := 5) else w
    case BookAnother =>
      if w.step == 5 then w.(step := 1, form := EmptyForm, filtered := w.all) else w
  }

  /** The step stays within 1..4 until a successful submit sets 5, over any
      sequence of events. */
  lemma {:induction false} StepStaysInRange(w: Wizard, events: seq<Event>)
    requires 1 <= w.step <= 4
    requires forall i :: 0 <= i < |events| ==> !(events[i].Submitted? && events[i].succeeded)
    ensures 1 <= Run(w, events).step <= 4
    decreases |events|
  {
    if |events| > 0 {
      var e := events[0];
      var w' := Apply(w, e);
      assert 1 <= w'.step <= 4 by {
        if e.BookAnother? {
          assert w' == w;
        }
      }
      StepStaysInRange(w', events[1..]);
    }
  }

  function Run(w: Wizard, events: seq<Event>): Wizard
    decreases |events|
  {
    if |events| == 0 then w else Run(Apply(w, events[0]), events[1..])
  }

  /** What the steps already passed guarantee about the form: past step 1
      a treatment is chosen, and past step 3 a date and a slot. */
  predicate Passed(w: Wizard)
  {
    && 1 <= w.step <= 5
    && (w.step >= 2 ==> w.form.treatmentType != "")
    && (w.step >= 4 ==> w.form.scheduledDate.Some? && w.form.scheduledTime != "")
  }

  /** Every event keeps what the passed steps guarantee. */
  lemma ApplyKeepsPassed(w: Wizard, e: Event)
    requires Passed(w)
    ensures Passed(Apply(w, e))
  {
  }

  /** From the opening page, any sequence of events keeps it. */
  lemma {:induction false} RunKeepsPassed(w: Wizard, events: seq<Event>)
    requires Passed(w)
    ensures Passed(Run(w, events))
    decreases |events|
  {
    if |events| > 0 {
      ApplyKeepsPassed(w, events[0]);
      RunKeepsPassed(Apply(w, events[0]), events[1..]);
    }
  }

  /** However the confirmation step is reached from the opening page, the
      form on it is one the booking route accepts. */
  lemma ConfirmStepIsBookable(treatments: seq<UiTreatment>, all: seq<UiPractitioner>, events: seq<Event>,
                              store: A.Store, user: Option<CA.User>, freshId: int)
    requires Run(Initial(treatments, all), events).step == 4
    ensures A.Book(store, CA.Payload(user, ToBookingForm(Run(Initial(treatments, all), events).form)), freshId).0.Ok?
  {
    var w := Run(Initial(treatments, all), events);
    RunKeepsPassed(Initial(treatments, all), events);
    ValidFormIsBooked(store, user, w.form, freshId);
  }

  /** Running events one after another is running them all at once. */
  lemma {:induction false} RunSnoc(w: Wizard, events: seq<Event>, e: Event)
    ensures Run(w, events + [e]) == Apply(Run(w, events), e)
    decreases |events|
  {
    if |events| > 0 {
      assert (events + [e])[1..] == events[1..] + [e];
      RunSnoc(Apply(w, events[0]), events[1..], e);
    }
  }

  /** The notes typed on the confirmation step stay on it and are the notes
      handed to the booking. */
  lemma NotesReachBooking(treatments: seq<UiTreatment>, all: seq<UiPractitioner>, events: seq<Event>, text: string)
    requires Run(Initial(treatments, all), events).step == 4
    ensures Run(Initial(treatments, all), events + [NotesEdited(text)]).step == 4
    ensures ToBookingForm(Run(Initial(treatments, all), events + [NotesEdited(text)]).form).notes == text
  {
    RunSnoc(Initial(treatments, all), events, NotesEdited(text));
  }

  /** A date emptied on step 3 disables the confirm button, so the page
      stays on step 3 until a new date is picked. */
  lemma ClearedDateBlocksNext(w: Wizard)
    requires w.step == 3
    ensures Apply(Apply(w, DateCleared), NextClicked) == Apply(w, DateCleared)
    ensures Apply(w, DateCleared).step == 3
  {
  }

  /** The form as handed to the appointment hook. */
  function ToBookingForm(f: Form): (b: CA.BookingForm)
    ensures b.scheduledDate == f.scheduledDate && b.scheduledTime == f.scheduledTime
    ensures b.treatmentType == f.treatmentType && b.duration == f.duration && b.notes == f.notes
    ensures f.practitionerId.None? <==> b.practitionerId == ""
  {
    CA.BookingForm(f.scheduledDate, f.scheduledTime, f.treatmentType,
                   if f.practitionerId.Some? then NatToString(f.practitionerId.value) else "",
                   f.duration, f.notes)
  }

  /** A form that passed steps 1 and 3 is always accepted by the server. */
  lemma ValidFormIsBooked(store: A.Store, user: Option<CA.User>, f: Form, freshId: int)
    requires StepValid(Wizard(1, f, [], [], [], [])) && StepValid(Wizard(3, f, [], [], [], []))
    ensures A.Book(store, CA.Payload(user, ToBookingForm(f)), freshId).0.Ok?
  {
    CA.BookingFromForm(store, user, ToBookingForm(f), freshId);
  }

  /** In the mock data, Abhyanga is offered by three practitioners and
      Basti by two. */
  lemma MockSpecialistCounts(a: string, b: string)
    requires a == "abhyanga" && b == "basti"
    ensures SpecialistCount(MockPractitioners, a) == 3
    ensures SpecialistCount(MockPractitioners, b) == 2
  {
    AbhyangaCount(a);
    BastiCount(b);
  }

  lemma AbhyangaCount(a: string)
    requires a == "abhyanga"
    ensures SpecialistCount(MockPractitioners, a) == 3
  {
    MockOffers();
    FiveOffering(MockPractitioners, a, true, false, true, true, false);
  }

  lemma BastiCount(b: string)
    requires b == "basti"
    ensures SpecialistCount(MockPractitioners, b) == 2
  {
    MockOffers();
    FiveOffering(MockPractitioners, b, false, true, false, false, true);
  }

  /** The treatments each mock practitioner offers. */
  lemma MockOffers()
    ensures |MockPractitioners| == 5
    ensures MockPractitioners[0].treatments == ["abhyanga", "shirodhara", "swedana"]
    ensures MockPractitioners[1].treatments == ["panchakarma", "nasya", "basti"]
    ensures MockPractitioners[2].treatments == ["abhyanga", "shirodhara", "panchakarma"]
    ensures MockPractitioners[3].treatments == ["abhyanga", "swedana"]
    ensures MockPractitioners[4].treatments == ["nasya", "basti", "panchakarma"]
  {
  }

  /** The count over five practitioners whose offers are known. */
  lemma FiveOffering(s: seq<UiPractitioner>, t: string, o0: bool, o1: bool, o2: bool, o3: bool, o4: bool)
    requires |s| == 5
    requires (t in s[0].treatments) == o0 && (t in s[1].treatments) == o1 && (t in s[2].treatments) == o2
    requires (t in s[3].treatments) == o3 && (t in s[4].treatments) == o4
    ensures SpecialistCount(s, t) == (if o0 then 1 else 0) + (if o1 then 1 else 0) + (if o2 then 1 else 0)
                                    + (if o3 then 1 else 0) + (if o4 then 1 else 0)
  {
    CountFive(Offering(t), s);
  }
}

=== FILE: calendar_grid.dfy ===
/** The month views of the practitioner's calendar and the patient's
    appointment calendar: the 42-cell grid, the appointments shown in a
    cell, the selected day's list and the summary figures. Months are
    JavaScript month indexes (0 is January); the weekday of the first of the
    month is an input. */
module CalendarGrid {
  import opened Wrappers
  import opened Seqs
  import opened Text

  // ---------------------------------------------------------------------
  // Calendar arithmetic

  /** A calendar date; `month` is 0..11 once normalised. */
  datatype Date = Date(year: int, month: int, day: int)

  predicate IsLeap(year: int)
  {
    (year % 4 == 0 && year % 100 != 0) || year % 400 == 0
  }

  /** Days in month `month` (0..11) of the Gregorian calendar. */
  function DaysIn(year: int, month: int): (n: nat)
    requires 0 <= month < 12
    ensures 28 <= n <= 31
  {
    if month == 1 then (if IsLeap(year) then 29 else 28)
    else if month == 3 || month == 5 || month == 8 || month == 10 then 30
    else 31
  }

  /** A month index outside 0..11 rolls into the neighbouring years, as the
      `Date` constructor does. */
  function NormYear(year: int, month: int): int
  {
    year + month / 12
  }

  function NormMonth(month: int): (m: int)
    ensures 0 <= m < 12
  {
    month % 12
  }

  /** The length of month index `month` of `year`, after rolling over. */
  function MonthLength(year: int, month: int): (n: nat)
    ensures 28 <= n <= 31
  {
    DaysIn(NormYear(year, month), NormMonth(month))
  }

  predicate ValidDate(d: Date)
  {
    0 <= d.month < 12 && 1 <= d.day <= DaysIn(d.year, d.month)
  }

  /** The following calendar day. */
  function NextDay(d: Date): (r: Date)
    requires ValidDate(d)
    ensures ValidDate(r)
  {
    if d.day < DaysIn(d.year, d.month) then Date(d.year, d.month, d.day + 1)
    else if d.month == 11 then Date(d.year + 1, 0, 1)
    else Date(d.year, d.month + 1, 1)
  }

  // ---------------------------------------------------------------------
  // The grid

  datatype Kind = Leading | Current | Trailing

  /** One cell: the day number shown and whether it belongs to the month
      before, the month shown, or the month after. */
  datatype Cell = Cell(number: int, kind: Kind)

  /** The cell construction of both calendars: `weekday` cells counting up
      to `prevLast`, then the days of the month, then cells numbered from 1
      until there are 42 cells. */
  function Grid(weekday: nat, days: nat, prevLast: int): (g: seq<Cell>)
    ensures |g| == if weekday + days <= 42 then 42 else weekday + days
    ensures forall i :: 0 <= i < |g| ==>
              && (g[i].kind == Leading <==> i < weekday)
              && (g[i].kind == Current <==> weekday <= i < weekday + days)
    ensures forall i :: 0 <= i < weekday ==> g[i].number == prevLast - (weekday - 1 - i)
    ensures forall i :: weekday <= i < weekday + days ==> g[i].number == i - weekday + 1
    ensures forall i :: weekday + days <= i < |g| ==> g[i].number == i - weekday - days + 1
  {
    var leading := seq(weekday, i => Cell(prevLast - (weekday - 1 - i), Leading));
    var current := seq(days, k => Cell(k + 1, Current));
    var rest := if weekday + days <= 42 then 42 - weekday - days else 0;
    var trailing := seq(rest, k => Cell(k + 1, Trailing));
    leading + current + trailing
  }

  /** The grid as written: the leading cells end at
      `new Date(year, month - 1, 0)`, the last day of the month two before
      the one shown. */
  function AsWrittenGrid(year: int, month: int, weekday: nat): seq<Cell>
  {
    Grid(weekday, MonthLength(year, month), MonthLength(year, month - 2))
  }

  /** The grid with the leading cells ending at `new Date(year, month, 0)`,
      the last day of the previous month. */
  function MonthGrid(year: int, month: int, weekday: nat): seq<Cell>
  {
    Grid(weekday, MonthLength(year, month), MonthLength(year, month - 1))
  }

  /** The date a cell stands for (`fullDate`), before any rolling over of
      the day number. */
  function CellDate(year: int, month: int, c: Cell): Date
  {
    var offset := match c.kind case Leading => -1 case Current => 0 case Trailing => 1;
    Date(NormYear(year, month + offset), NormMonth(month + offset), c.number)
  }

  /** Every month grid has exactly 42 cells; the month's days appear once
      each, in order, and the trailing cells count up from 1. */
  lemma GridHas42(year: int, month: int, weekday: nat)
    requires weekday < 7
    ensures |MonthGrid(year, month, weekday)| == 42
    ensures |AsWrittenGrid(year, month, weekday)| == 42
    ensures forall d :: 1 <= d <= MonthLength(year, month) ==>
              MonthGrid(year, month, weekday)[weekday + d - 1] == Cell(d, Current)
  {
  }

  lemma NormNeighbours(year: int, month: int)
    requires 0 <= month < 12
    ensures NormYear(year, month) == year && NormMonth(month) == month
    ensures (NormYear(year, month - 1), NormMonth(month - 1)) ==
            (if month == 0 then (year - 1, 11) else (year, month - 1))
    ensures (NormYear(year, month + 1), NormMonth(month + 1)) ==
            (if month == 11 then (year + 1, 0) else (year, month + 1))
  {
  }

  /** With the previous month's length, the 42 cells are 42 consecutive
      calendar days: each cell's date is a real date and the next cell holds
      the following day. */
  lemma MonthGridIsConsecutive(year: int, month: int, weekday: nat)
    requires 0 <= month < 12 && weekday < 7
    ensures var g := MonthGrid(year, month, weekday);
            && (forall i :: 0 <= i < |g| ==> ValidDate(CellDate(year, month, g[i])))
            && (forall i :: 0 <= i < |g| - 1 ==> NextDay(CellDate(year, month, g[i])) == CellDate(year, month, g[i + 1]))
  {
    var g := MonthGrid(year, month, weekday);
    var days := MonthLength(year, month);
    var prevLast := MonthLength(year, month - 1);
    NormNeighbours(year, month);
    assert days == DaysIn(year, month);
    forall i | 0 <= i < |g|
      ensures ValidDate(CellDate(year, month, g[i]))
    {
    }
    forall i | 0 <= i < |g| - 1
      ensures NextDay(CellDate(year, month, g[i])) == CellDate(year, month, g[i + 1])
    {
      if i < weekday - 1 {
      } else if i == weekday - 1 {
        assert g[i].number == prevLast;
      } else if i < weekday + days - 1 {
      } else if i == weekday + days - 1 {
      } else {
      }
    }
  }

  /** The grid as written shows the previous month's days correctly exactly
      when there are no leading cells or the months one and two before the
      shown one have the same length. */
  lemma AsWrittenAgreesIff(year: int, month: int, weekday: nat)
    requires weekday < 7
    ensures AsWrittenGrid(year, month, weekday) == MonthGrid(year, month, weekday) <==>
            weekday == 0 || MonthLength(year, month - 2) == MonthLength(year, month - 1)
  {
    var a := AsWrittenGrid(year, month, weekday);
    var b := MonthGrid(year, month, weekday);
    if weekday > 0 && MonthLength(year, month - 2) != MonthLength(year, month - 1) {
      assert a[weekday - 1] != b[weekday - 1];
    } else {
      assert |a| == |b|;
      forall i | 0 <= i < |a|
        ensures a[i] == b[i]
      {
      }
    }
  }

  /** March 2024 starts on a Friday: the grid as written labels the five
      leading cells 27..31 although February 2024 has 29 days, so the last
      of them is no date of February (the browser rolls it to 2 March). */
  lemma AsWrittenMarch2024()
    ensures AsWrittenGrid(2024, 2, 5)[4] == Cell(31, Leading)
    ensures !ValidDate(CellDate(2024, 2, AsWrittenGrid(2024, 2, 5)[4]))
    ensures MonthGrid(2024, 2, 5)[4] == Cell(29, Leading)
  {
    assert MonthLength(2024, 0) == 31;
    assert MonthLength(2024, 1) == 29;
  }

  // ---------------------------------------------------------------------
  // Appointments in the grid

  datatype CalAppointment = CalAppointment(id: nat, date: Date, time: string, duration: nat, patient: string, status: string)

  function OnDay(d: Date): CalAppointment -> bool
  {
    (a: CalAppointment) => a.date == d
  }

  /** `getAppointmentsForDate(date)`: the appointments on that day, in list
      order. */
  function OnDate(apts: seq<CalAppointment>, d: Date): (r: seq<CalAppointment>)
    ensures forall i :: 0 <= i < |r| ==> r[i].date == d && r[i] in apts
    ensures forall i :: 0 <= i < |apts| && apts[i].date == d ==> apts[i] in r
    ensures IsSubsequence(r, apts)
    ensures |r| == Count(OnDay(d), apts)
  {
    Filter(OnDay(d), apts)
  }

  /** What a practitioner's day cell lists: the first three appointments and
      the number of further ones for "+n more". */
  function CellEntries(dayApts: seq<CalAppointment>): (r: (seq<CalAppointment>, Option<nat>))
    ensures |r.0| == if |dayApts| < 3 then |dayApts| else 3
    ensures r.0 <= dayApts
    ensures r.1.Some? <==> |dayApts| > 3
    ensures |r.0| + (if r.1.Some? then r.1.value else 0) == |dayApts|
  {
    (Take(dayApts, 3), if |dayApts| > 3 then Some(|dayApts| - 3) else None)
  }

  predicate TimeLe(a: CalAppointment, b: CalAppointment)
  {
    StrLe(a.time, b.time)
  }

  lemma TimeLeTotalPreorder()
    ensures TotalPreorder(TimeLe)
  {
    StrLeTotalPreorder();
  }

  /** The selected day's list: that day's appointments ordered by time (a
      stable sort). */
  function SelectedDayList(apts: seq<CalAppointment>, d: Date): (r: seq<CalAppointment>)
    ensures multiset(r) == multiset(OnDate(apts, d))
    ensures forall i, j :: 0 <= i < j < |r| ==> StrLe(r[i].time, r[j].time)
    ensures forall i :: 0 <= i < |r| ==> r[i].date == d
  {
    var day := OnDate(apts, d);
    TimeLeTotalPreorder();
    SortBySortsAndPermutes(TimeLe, day);
    var r := SortBy(TimeLe, day);
    forall i | 0 <= i < |r|
      ensures r[i].date == d
    {
      assert r[i] in multiset(day);
    }
    r
  }

  datatype Stats = Stats(total: nat, confirmed: nat, pending: nat, minutes: int)

  function HasStatus(s: string): CalAppointment -> bool
  {
    (a: CalAppointment) => a.status == s
  }

  function Duration(a: CalAppointment): int
  {
    a.duration
  }

  /** The quick-stats row: all appointments, the confirmed and the pending
      ones, and the sum of the durations. */
  function QuickStats(apts: seq<CalAppointment>): (r: Stats)
    ensures r.total == |apts|
    ensures r.confirmed == |Filter(HasStatus("confirmed"), apts)|
    ensures r.pending == |Filter(HasStatus("pending"), apts)|
    ensures r.confirmed + r.pending <= r.total
    ensures r.minutes == Sum(Duration, apts)
    ensures r.minutes >= 0
    ensures |apts| == 0 ==> r == Stats(0, 0, 0, 0)
  {
    CountIsFilterLength(HasStatus("confirmed"), apts);
    CountIsFilterLength(HasStatus("pending"), apts);
    ConfirmedPlusPending(apts);
    SumNonNegative(Duration, apts);
    Stats(|apts|, Count(HasStatus("confirmed"), apts), Count(HasStatus("pending"), apts), Sum(Duration, apts))
  }

  lemma {:induction false} ConfirmedPlusPending(apts: seq<CalAppointment>)
    ensures Count(HasStatus("confirmed"), apts) + Count(HasStatus("pending"), apts) <= |apts|
  {
    if |apts| > 0 {
      ConfirmedPlusPending(apts[1..]);
    }
  }

  /** The figures of two lists together are the sums of their figures. */
  lemma QuickStatsAdd(a: seq<CalAppointment>, b: seq<CalAppointment>)
    ensures var (x, y, z) := (QuickStats(a), QuickStats(b), QuickStats(a + b));
            && z.total == x.total + y.total
            && z.confirmed == x.confirmed + y.confirmed
            && z.pending == x.pending + y.pending
            && z.minutes == x.minutes + y.minutes
  {
    FilterConcat(HasStatus("confirmed"), a, b);
    FilterConcat(HasStatus("pending"), a, b);
    SumConcat(Duration, a, b);
  }

  // ---------------------------------------------------------------------
  // The patient calendar's indicators

  datatype Dot = Green | Yellow | Red | Blue | Grey

  /** The dot colour of one appointment. */
  function DotColour(status: string): Dot
  {
    match status
    case "confirmed" => Green
    case "pending" => Yellow
    case "cancelled" => Red
    case _ => Blue
  }

  /** `getDayAppointmentIndicator(dayAppointments)`: nothing for an empty
      day, else a dot for each of the first three and a grey one when there
      are more. */
  function Indicator(dayApts: seq<CalAppointment>): (r: Option<seq<Dot>>)
    ensures r.None? <==> |dayApts| == 0
    ensures r.Some? ==> |r.value| == (if |dayApts| <= 3 then |dayApts| else 4)
    ensures r.Some? ==> forall i :: 0 <= i < |r.value| && i < 3 ==>
              i < |dayApts| && r.value[i] == DotColour(dayApts[i].status)
    ensures r.Some? && |dayApts| > 3 ==> r.value[3] == Grey
  {
    if |dayApts| == 0 then None
    else
      var first := Take(dayApts, 3);
      Some(seq(|first|, i requires 0 <= i < |first| => DotColour(first[i].status))
           + (if |dayApts| > 3 then [Grey] else []))
  }

  /** A grey dot never stands for an appointment: the coloured dots are
      exactly the first appointments' statuses. */
  lemma GreyMeansMore(dayApts: seq<CalAppointment>, i: nat)
    requires Indicator(dayApts).Some? && i < |Indicator(dayApts).value|
    requires Indicator(dayApts).value[i] == Grey
    ensures i == 3 && |dayApts| > 3
  {
  }

  /** The first-appointment preview: the time of the day's first
      appointment, only in cells of the month shown. */
  function Preview(c: Cell, dayApts: seq<CalAppointment>): (r: Option<string>)
    ensures r.Some? <==> |dayApts| > 0 && c.kind == Current
    ensures r.Some? ==> r.value == dayApts[0].time
  {
    if |dayApts| > 0 && c.kind == Current then Some(dayApts[0].time) else None
  }
}

=== FILE: chatbot.dfy ===
/** The chatbot: a rule-based reply that lower-cases the message and tries
    keyword rules in a fixed order, and the choice the message endpoint makes
    between that reply and a language-model answer. The model call itself is
    a parameter: its outcome is given, not computed. */
module Chatbot {
  import opened Wrappers
  import opened Text

  /** The fixed replies the rule-based responder can give. */
  datatype Reply = Greeting | BookingHelp | RescheduleHelp | CancelHelp | SupportHelp | TreatmentInfo | Clarify

  function ReplyText(r: Reply): string
  {
    match r
    case Greeting => "Hello! I'm your AyurSutra assistant. Ask me about booking, rescheduling, treatments, or contact info."
    case BookingHelp => "To book an appointment, go to Patient > Book Appointment and choose your date, time, and treatment."
    case RescheduleHelp => "You can reschedule from your dashboard. Select the appointment and choose Reschedule to pick a new slot."
    case CancelHelp => "To cancel an appointment, open it from your dashboard and choose Cancel. Note that cancellation policies may apply."
    case SupportHelp => "For support, use the Help section or email support@ayursutra.example."
    case TreatmentInfo => "AyurSutra offers Panchakarma and related therapies like Abhyanga and Shirodhara. For details, visit Treatments in the app."
    case Clarify => "I'm here to help with appointments and treatments. Could you please clarify your question?"
  }

  /** The keywords of each rule, in the order the source lists them. */
  function Keywords(r: Reply): seq<string>
  {
    match r
    case BookingHelp => ["book", "appointment"]
    case RescheduleHelp => ["reschedule", "change"]
    case CancelHelp => ["cancel"]
    case SupportHelp => ["contact", "help", "support"]
    case TreatmentInfo => ["panchakarma", "treatment", "abhyanga", "shirodhara"]
    case _ => []
  }

  /** The rules, in the order they are tried. */
  const Rules: seq<Reply> := [BookingHelp, RescheduleHelp, CancelHelp, SupportHelp, TreatmentInfo]

  /** Some keyword of `keywords` occurs in `m`. */
  function AnyKeyword(m: string, keywords: seq<string>): (b: bool)
    ensures b <==> exists i :: 0 <= i < |keywords| && Contains(m, keywords[i])
  {
    if |keywords| == 0 then false
    else if Contains(m, keywords[0]) then true
    else
      var b := AnyKeyword(m, keywords[1..]);
      assert b ==> exists i :: 1 <= i < |keywords| && Contains(m, keywords[i]) by {
        if b {
          var i :| 0 <= i < |keywords[1..]| && Contains(m, keywords[1..][i]);
          assert keywords[1..][i] == keywords[i + 1];
        }
      }
      b
  }

  /** A rule fires when the lowered message contains one of its keywords. */
  function Fires(m: string, rule: Reply): bool
  {
    AnyKeyword(m, Keywords(rule))
  }

  /** The reply of the first rule that fires, or the clarification. */
  function FirstRule(m: string, rules: seq<Reply>): (reply: Reply)
    ensures (forall i :: 0 <= i < |rules| ==> !Fires(m, rules[i])) ==> reply == Clarify
    ensures reply == Clarify || exists i :: 0 <= i < |rules| && reply == rules[i]
  {
    if |rules| == 0 then Clarify
    else if Fires(m, rules[0]) then rules[0]
    else
      var reply := FirstRule(m, rules[1..]);
      assert reply != Clarify ==> exists i :: 0 <= i < |rules| && reply == rules[i] by {
        if reply != Clarify {
          var i :| 0 <= i < |rules[1..]| && reply == rules[1..][i];
          assert rules[1..][i] == rules[i + 1];
        }
      }
      assert (forall i :: 0 <= i < |rules| ==> !Fires(m, rules[i])) ==> reply == Clarify by {
        if forall i :: 0 <= i < |rules| ==> !Fires(m, rules[i]) {
          assert forall i :: 0 <= i < |rules[1..]| ==> rules[1..][i] == rules[i + 1];
        }
      }
      reply
  }

  /** The responder over a given rule order: the greeting for a blank
      message, else the first rule that fires on the lowered message. */
  function Respond(message: string, rules: seq<Reply>): (reply: Reply)
    requires Greeting !in rules
    ensures reply == Greeting <==> IsBlank(message)
    ensures !IsBlank(message) ==> reply == FirstRule(Lower(message), rules)
  {
    var m := Lower(message);
    LowerKeepsBlankness(message);
    TrimEmptyIffBlank(m);
    if m == "" || |Trim(m)| == 0 then Greeting
    else FirstRule(m, rules)
  }

  /** `ruleBasedReply(message)`; an undefined message is "". */
  function RuleBasedReply(message: string): (reply: Reply)
    ensures reply == Greeting <==> IsBlank(message)
    ensures !IsBlank(message) && (forall i :: 0 <= i < |Rules| ==> !Fires(Lower(message), Rules[i])) ==> reply == Clarify
  {
    Respond(message, Rules)
  }

  /** The earliest rule that fires decides: later rules are not consulted. */
  lemma {:induction false} FirstRuleAt(m: string, rules: seq<Reply>, i: int)
    requires 0 <= i < |rules|
    requires Fires(m, rules[i])
    requires forall j :: 0 <= j < i ==> !Fires(m, rules[j])
    ensures FirstRule(m, rules) == rules[i]
    decreases i
  {
    if i > 0 {
      assert !Fires(m, rules[0]);
      assert rules[1..][i - 1] == rules[i];
      FirstRuleAt(m, rules[1..], i - 1);
    }
  }

  /** For a non-blank message, the first rule whose keyword occurs in the
      lowered message gives the reply. */
  lemma FirstHitWins(message: string, i: int)
    requires !IsBlank(message)
    requires 0 <= i < |Rules|
    requires Fires(Lower(message), Rules[i])
    requires forall j :: 0 <= j < i ==> !Fires(Lower(message), Rules[j])
    ensures RuleBasedReply(message) == Rules[i]
  {
    FirstRuleAt(Lower(message), Rules, i);
    LowerKeepsBlankness(message);
  }

  /** Matching ignores case: a message and its lower-cased form get the
      same reply. */
  lemma ReplyIgnoresCase(message: string)
    ensures RuleBasedReply(Lower(message)) == RuleBasedReply(message)
  {
    LowerIdempotent(message);
    LowerKeepsBlankness(message);
  }

  /** A message asking to cancel an appointment mentions "appointment", so
      it gets the booking reply: the booking rule is tried first. */
  lemma CancelAppointmentGetsBookingReply(message: string)
    requires message == "Cancel appointment"
    ensures RuleBasedReply(message) == BookingHelp
  {
    var m := Lower(message);
    assert m[7..18] == message[7..18];
    assert OccursAt(m, "appointment", 7);
    assert Contains(m, Keywords(BookingHelp)[1]);
    assert !IsJsSpace(message[0]);
    FirstRuleAt(m, Rules, 0);
  }

  // ---------------------------------------------------------------------
  // The message endpoint

  /** The request's `message`: absent, a string, or any other value (on
      which `toLowerCase` throws). */
  datatype Message = Absent | Text(text: string) | NotText

  /** What the language-model request produced: an answer whose first
      choice may carry content, or an error. */
  datatype ModelOutcome = Answered(content: Option<string>) | Failed

  /** `ruleBasedReply(message)` as the endpoint calls it; `None` when the
      call throws. */
  function ReplyFor(message: Message): (r: Option<Reply>)
    ensures message.NotText? <==> r.None?
  {
    match message
    case Absent => Some(RuleBasedReply(""))
    case Text(s) => Some(RuleBasedReply(s))
    case NotText => None
  }

  /** The rule-based reply, or the greeting when computing it throws. */
  function Fallback(message: Message): (reply: Reply)
    ensures message.Text? ==> reply == RuleBasedReply(message.text)
    ensures !message.Text? ==> reply == Greeting
  {
    var r := ReplyFor(message);
    if r.Some? then r.value else RuleBasedReply("")
  }

  /** What the endpoint sends back: one of the fixed replies, or the model's
      own text. */
  datatype Answer = Canned(reply: Reply) | FromModel(text: string)

  /** The `reply` field of the response. */
  function AnswerText(a: Answer): string
  {
    match a
    case Canned(r) => ReplyText(r)
    case FromModel(t) => t
  }

  /** The answer of `POST /api/chatbot/message`; `apiKey` "" means no key is
      configured. A thrown error is answered with the greeting. */
  function Endpoint(message: Message, apiKey: string, outcome: ModelOutcome): (a: Answer)
    ensures apiKey == "" ==> a == Canned(Fallback(message))
    ensures apiKey == "" && message.Text? ==> a == Canned(RuleBasedReply(message.text))
    ensures apiKey != "" && outcome.Failed? ==> a == Canned(Greeting)
    ensures apiKey != "" && outcome.Answered? && outcome.content.Some? && Trim(outcome.content.value) != "" ==>
              a == FromModel(Trim(outcome.content.value))
    ensures apiKey != "" && outcome.Answered? && (outcome.content.None? || Trim(outcome.content.value) == "") ==>
              a == Canned(Fallback(message))
  {
    if apiKey == "" then
      Canned(Fallback(message))
    else
      match outcome
      case Failed => Canned(RuleBasedReply(""))
      case Answered(content) =>
        var trimmed := if content.Some? then Trim(content.value) else "";
        if trimmed != "" then FromModel(trimmed) else Canned(Fallback(message))
  }

  /** A model answer is never passed on with surrounding whitespace. */
  lemma EndpointAnswerTrimmed(message: Message, apiKey: string, outcome: ModelOutcome)
    requires apiKey != "" && outcome.Answered? && outcome.content.Some?
    requires !IsBlank(outcome.content.value)
    ensures Endpoint(message, apiKey, outcome).FromModel?
    ensures var t := Endpoint(message, apiKey, outcome).text;
            |t| > 0 && !IsJsSpace(t[0]) && !IsJsSpace(t[|t| - 1])
  {
    TrimEmptyIffBlank(outcome.content.value);
  }

  /** A blank or missing model answer is replaced by the rule-based reply,
      exactly as when no key is configured. */
  lemma BlankAnswerFallsBack(message: Message, apiKey: string, content: string)
    requires apiKey != ""
    requires IsBlank(content)
    ensures Endpoint(message, apiKey, Answered(Some(content))) == Endpoint(message, "", Failed)
  {
    TrimEmptyIffBlank(content);
  }
}

=== FILE: milestones.dfy ===
/** The milestone list: achievement points, the completed count, the next
    milestone to reach, the expand toggle and the connector colours. */
module Milestones {
  import opened Wrappers
  import opened Seqs

  datatype Milestone = Milestone(id: int, title: string, status: string, points: int)

  const MockMilestones: seq<Milestone> := [
    Milestone(1, "Treatment Initiation", "completed", 100),
    Milestone(2, "Purvakarma Completion", "completed", 200),
    Milestone(3, "First Week Progress", "completed", 150),
    Milestone(4, "Midpoint Achievement", "completed", 300),
    Milestone(5, "Symptom Relief", "current", 250),
    Milestone(6, "Pradhankarma Completion", "upcoming", 400),
    Milestone(7, "Full Recovery", "upcoming", 500)
  ]

  predicate IsCompleted(m: Milestone)
  {
    m.status == "completed"
  }

  function Points(m: Milestone): int
  {
    m.points
  }

  function EarnedPoints(m: Milestone): int
  {
    if IsCompleted(m) then m.points else 0
  }

  /** `completedMilestones.reduce(sum + points)`. */
  function TotalPoints(ms: seq<Milestone>): int
  {
    Sum(Points, Filter(IsCompleted, ms))
  }

  /** The total counts each completed milestone's points once and nothing
      else. */
  lemma {:induction false} TotalPointsCountsCompleted(ms: seq<Milestone>)
    ensures TotalPoints(ms) == Sum(EarnedPoints, ms)
    decreases |ms|
  {
    if |ms| > 0 {
      TotalPointsCountsCompleted(ms[1..]);
    }
  }

  /** Completing a further milestone raises the total by exactly that
      milestone's points. */
  lemma {:induction false} CompletingAddsPoints(ms: seq<Milestone>, k: int)
    requires 0 <= k < |ms| && !IsCompleted(ms[k])
    ensures TotalPoints(ms[k := ms[k].(status := "completed")]) == TotalPoints(ms) + ms[k].points
    decreases |ms|
  {
    var ms' := ms[k := ms[k].(status := "completed")];
    if k > 0 {
      assert ms'[1..] == ms[1..][k - 1 := ms[k].(status := "completed")];
      CompletingAddsPoints(ms[1..], k - 1);
    } else {
      assert ms'[1..] == ms[1..];
    }
  }

  /** The header's "completed / total". */
  function Header(ms: seq<Milestone>): (r: (nat, nat))
    ensures r.1 == |ms| && r.0 <= r.1
    ensures r.0 == Count(IsCompleted, ms)
  {
    CountIsFilterLength(IsCompleted, ms);
    (|Filter(IsCompleted, ms)|, |ms|)
  }

  /** The preview: the first milestone whose status is exactly "upcoming"
      (a "current" one is skipped); `None` shows the congratulations. */
  function NextMilestone(ms: seq<Milestone>): (r: Option<Milestone>)
    ensures r.None? <==> forall i :: 0 <= i < |ms| ==> ms[i].status != "upcoming"
    ensures r.Some? ==> exists i :: 0 <= i < |ms| && ms[i] == r.value && r.value.status == "upcoming"
                          && forall j :: 0 <= j < i ==> ms[j].status != "upcoming"
  {
    var k := FindIndex((m: Milestone) => m.status == "upcoming", ms);
    if k < 0 then None else Some(ms[k])
  }

  /** A click on a milestone card: the expanded card collapses, any other
      becomes the only expanded one. */
  function Toggle(expanded: Option<int>, clicked: int): (r: Option<int>)
    ensures expanded == Some(clicked) ==> r.None?
    ensures expanded != Some(clicked) ==> r == Some(clicked)
  {
    if expanded == Some(clicked) then None else Some(clicked)
  }

  /** Clicking the same card twice restores a collapsed or same-card state;
      after a click at most the clicked card is expanded. */
  lemma ToggleLaws(expanded: Option<int>, clicked: int, ms: seq<Milestone>)
    ensures expanded.None? || expanded == Some(clicked) ==> Toggle(Toggle(expanded, clicked), clicked) == expanded
    ensures forall i :: 0 <= i < |ms| && Toggle(expanded, clicked) == Some(ms[i].id) ==> ms[i].id == clicked
  {
  }

  /** The connector under each card but the last: green iff that milestone
      is completed. */
  function Connectors(ms: seq<Milestone>): (r: seq<bool>)
    ensures |r| == if |ms| == 0 then 0 else |ms| - 1
    ensures forall i :: 0 <= i < |r| ==> (r[i] <==> ms[i].status == "completed")
  {
    if |ms| == 0 then [] else seq(|ms| - 1, i requires 0 <= i < |ms| - 1 => IsCompleted(ms[i]))
  }

  /** The mock list earns 750 points. */
  lemma MockPoints(ms: seq<Milestone>)
    requires ms == MockMilestones
    ensures TotalPoints(ms) == 750
  {
    assert IsCompleted(ms[0]) && IsCompleted(ms[1]) && IsCompleted(ms[2]) && IsCompleted(ms[3]);
    assert !IsCompleted(ms[4]) && !IsCompleted(ms[5]) && !IsCompleted(ms[6]);
    CompletedPrefix(ms, 4);
    SumFour(ms[..4]);
  }

  /** When exactly the first `n` milestones are completed, the total is
      their points. */
  lemma {:induction false} CompletedPrefix(ms: seq<Milestone>, n: int)
    requires 0 <= n <= |ms|
    requires forall i :: 0 <= i < n ==> IsCompleted(ms[i])
    requires forall i :: n <= i < |ms| ==> !IsCompleted(ms[i])
    ensures TotalPoints(ms) == Sum(Points, ms[..n])
    decreases n
  {
    if n == 0 {
      CountIsFilterLength(IsCompleted, ms);
    } else {
      CompletedPrefix(ms[1..], n - 1);
      assert ms[1..][..n - 1] == ms[..n][1..];
    }
  }

  lemma SumFour(d: seq<Milestone>)
    requires |d| == 4
    ensures Sum(Points, d) == d[0].points + d[1].points + d[2].points + d[3].points
  {
    assert d[3..][1..] == [];
    assert Sum(Points, d[3..]) == d[3].points;
    assert d[2..][1..] == d[3..];
    assert Sum(Points, d[2..]) == d[2].points + d[3].points;
    assert d[1..][1..] == d[2..];
    assert Sum(Points, d[1..]) == d[1].points + d[2].points + d[3].points;
  }

  /** Four of the seven mock milestones are completed. */
  lemma MockHeader(ms: seq<Milestone>)
    requires ms == MockMilestones
    ensures Header(ms) == (4, 7)
  {
  }

  /** The mock preview shows the sixth milestone: the fifth is current. */
  lemma MockNext()
    ensures NextMilestone(MockMilestones) == Some(MockMilestones[5])
  {
    var m := MockMilestones;
    assert m[5].status == "upcoming";
    assert forall j :: 0 <= j < 5 ==> m[j].status in {"completed", "current"};
    FirstUpcoming(m, 5);
  }

  /** The next milestone is the first upcoming one. */
  lemma FirstUpcoming(ms: seq<Milestone>, k: nat)
    requires k < |ms| && ms[k].status == "upcoming"
    requires forall j :: 0 <= j < k ==> ms[j].status != "upcoming"
    ensures NextMilestone(ms) == Some(ms[k])
  {
    var r := NextMilestone(ms);
    var i :| 0 <= i < |ms| && ms[i] == r.value && r.value.status == "upcoming"
             && forall j :: 0 <= j < i ==> ms[j].status != "upcoming";
    assert i == k;
  }
}

=== FILE: notification_panel.dfy ===
/** The bell and drop-down that show a patient's notifications: relative
    times, the filter tabs, the click rule and the unread badge. */
module NotificationPanel {
  import opened Wrappers
  import opened Seqs
  import opened Text
  import CN = ClientNotifications

  const MsPerMinute: int := 60000

  /** What `formatTimeAgo` shows; `DateShown` is the locale date of the
      notification, which is not modelled further. */
  datatype TimeAgo = JustNow | MinutesAgo(m: nat) | HoursAgo(h: nat) | DaysAgo(d: nat) | DateShown(at: int)

  /** `formatTimeAgo(createdAt)` at time `now` (both in milliseconds). The
      elapsed minutes are floored, so a time in the future is "just now". */
  function FormatTimeAgo(now: int, createdAt: int): (t: TimeAgo)
    ensures var d := (now - createdAt) / MsPerMinute;
            && (t.JustNow? <==> d < 1)
            && (t.MinutesAgo? <==> 1 <= d < 60)
            && (t.MinutesAgo? ==> t.m == d)
            && (t.HoursAgo? <==> 60 <= d && d / 60 < 24)
            && (t.HoursAgo? ==> t.h == d / 60)
            && (t.DaysAgo? <==> 24 <= d / 60 && d / 60 / 24 < 7)
            && (t.DaysAgo? ==> t.d == d / 60 / 24)
            && (t.DateShown? <==> 7 <= d / 60 / 24)
  {
    var minutes := (now - createdAt) / MsPerMinute;
    if minutes < 1 then JustNow
    else if minutes < 60 then MinutesAgo(minutes)
    else
      var hours := minutes / 60;
      if hours < 24 then HoursAgo(hours)
      else
        var days := hours / 24;
        if days < 7 then DaysAgo(days) else DateShown(createdAt)
  }

  /** The text of each relative time. */
  function Label(t: TimeAgo): string
    requires !t.DateShown?
  {
    match t
    case JustNow => "Just now"
    case MinutesAgo(m) => NatToString(m) + "m ago"
    case HoursAgo(h) => NatToString(h) + "h ago"
    case DaysAgo(d) => NatToString(d) + "d ago"
  }

  /** In elapsed milliseconds: minutes below an hour, hours below a day,
      days below a week, and a date from seven days on. */
  lemma TimeAgoBands(now: int, createdAt: int)
    ensures var e := now - createdAt;
            var t := FormatTimeAgo(now, createdAt);
            && (t.JustNow? <==> e < 60000)
            && (t.MinutesAgo? <==> 60000 <= e < 3600000)
            && (t.HoursAgo? <==> 3600000 <= e < 86400000)
            && (t.DaysAgo? <==> 86400000 <= e < 604800000)
            && (t.DateShown? <==> 604800000 <= e)
  {
    var e := now - createdAt;
    var d := e / MsPerMinute;
    MinutesToHours(e);
    HoursToDays(e);
    assert d / 60 == e / 3600000;
    assert d / 60 / 24 == e / 86400000;
  }

  /** Whole minutes, floored again by 60, are whole hours. */
  lemma MinutesToHours(x: int)
    ensures x / MsPerMinute / 60 == x / 3600000
  {
    var q, r := x / 60000, x % 60000;
    var q2, r2 := q / 60, q % 60;
    assert x == q2 * 3600000 + (r2 * 60000 + r);
    DivUnique(x, 3600000, q2, r2 * 60000 + r);
  }

  /** Whole hours, floored again by 24, are whole days. */
  lemma HoursToDays(x: int)
    ensures x / 3600000 / 24 == x / 86400000
  {
    var q, r := x / 3600000, x % 3600000;
    var q2, r2 := q / 24, q % 24;
    assert x == q2 * 86400000 + (r2 * 3600000 + r);
    DivUnique(x, 86400000, q2, r2 * 3600000 + r);
  }

  /** Division is determined by quotient and remainder. */
  lemma DivUnique(x: int, m: int, q: int, r: int)
    requires m > 0 && x == q * m + r && 0 <= r < m
    ensures x / m == q
  {
    var q0, r0 := x / m, x % m;
    assert (q - q0) * m == r0 - r;
    if q > q0 {
      MulAtLeast(q - q0, m);
    } else if q < q0 {
      MulAtLeast(q0 - q, m);
    }
  }

  lemma MulAtLeast(d: int, m: int)
    requires d >= 1 && m > 0
    ensures d * m >= m
  {
    assert d * m == (d - 1) * m + m;
  }

  datatype Tab = All | UnreadOnly | Appointments

  /** The tab names: any other value shows every notification. */
  function TabOf(tab: string): Tab
  {
    if tab == "unread" then UnreadOnly else if tab == "appointments" then Appointments else All
  }

  predicate Shown(n: CN.Notice, f: Tab)
  {
    match f
    case UnreadOnly => !n.isRead
    case Appointments => n.kind == "appointment"
    case All => true
  }

  /** `filteredNotifications`: the list (or nothing, when there is none yet)
      under the active tab, in list order. */
  function Visible(list: Option<seq<CN.Notice>>, f: Tab): (r: seq<CN.Notice>)
    ensures list.None? ==> r == []
    ensures list.Some? && f.All? ==> r == list.value
    ensures list.Some? ==> IsSubsequence(r, list.value)
    ensures list.Some? ==> forall i :: 0 <= i < |r| ==> Shown(r[i], f)
    ensures list.Some? ==> forall i :: 0 <= i < |list.value| && Shown(list.value[i], f) ==> list.value[i] in r
  {
    if list.None? then []
    else
      var r := Filter((n: CN.Notice) => Shown(n, f), list.value);
      if f.All? then
        FilterKeepsAll((n: CN.Notice) => Shown(n, f), list.value);
        r
      else r
  }

  /** The unread tab shows exactly the hook's unread list. */
  lemma UnreadTabIsUnreadList(list: seq<CN.Notice>)
    ensures Visible(Some(list), UnreadOnly) == CN.Unread(list)
  {
    FilterExt((n: CN.Notice) => Shown(n, UnreadOnly), CN.IsUnread, list);
  }

  /** Clicking a notification marks it read only when it is unread. */
  function Click(s: CN.State, n: CN.Notice): (r: CN.State)
    ensures n.isRead ==> r == s
    ensures !n.isRead ==> r == CN.MarkAsRead(s, n.id)
  {
    if !n.isRead then CN.MarkAsRead(s, n.id) else s
  }

  /** Because read notifications are not re-marked, clicking any shown
      notification keeps a consistent counter consistent (ids unique). */
  lemma ClickKeepsConsistent(s: CN.State, k: int)
    requires CN.Consistent(s) && CN.DistinctIds(s.notifications)
    requires 0 <= k < |s.notifications|
    ensures CN.Consistent(Click(s, s.notifications[k]))
  {
    if !s.notifications[k].isRead {
      CN.MarkUnreadKeepsConsistent(s, k);
    }
  }

  /** The badge on the bell: hidden at zero, the count up to 99, then
      "99+". */
  function Badge(unreadCount: int): (b: Option<string>)
    ensures b.None? <==> unreadCount <= 0
    ensures unreadCount > 99 ==> b == Some("99+")
    ensures 0 < unreadCount <= 99 ==> b == Some(NatToString(unreadCount))
  {
    if unreadCount <= 0 then None
    else if unreadCount > 99 then Some("99+")
    else Some(NatToString(unreadCount))
  }

  /** A shown badge always has one to three characters. */
  lemma BadgeIsShort(unreadCount: int)
    requires Badge(unreadCount).Some?
    ensures 1 <= |Badge(unreadCount).value| <= 3
  {
    if unreadCount <= 99 {
      assert unreadCount < 1000;
      NatToStringShort(unreadCount);
    }
  }

  /** "Mark all as read" is offered exactly when the counter is positive. */
  function ShowMarkAll(unreadCount: int): (b: bool)
    ensures b <==> Badge(unreadCount).Some?
  {
    unreadCount > 0
  }

  /** The empty-list message of the active tab. */
  function EmptyMessage(tab: string): (m: string)
    ensures tab == "unread" ==> m == "No unread notifications"
    ensures tab != "unread" ==> m == "No notifications"
  {
    if tab == "unread" then "No unread notifications" else "No notifications"
  }
}

=== FILE: notification_routes.dfy ===
/** The notifications routes: lookup by id and marking one notification
    read. Creation times come from the clock, so they are a parameter. */
module NotificationRoutes {
  import opened Wrappers
  import opened Seqs

  /** A stored notification; `kind` is the record's `type`, `createdAt` is
      in milliseconds. */
  datatype Notification = Notification(
    id: int,
    userId: int,
    kind: string,
    title: string,
    message: string,
    read: bool,
    createdAt: int)

  /** The two seeded notifications, created now and one day before `now`. */
  function Seed(now: int): seq<Notification>
  {
    [ Notification(1, 1, "appointment_reminder", "Appointment Reminder",
                   "You have an appointment tomorrow at 10:00 AM", false, now),
      Notification(2, 2, "treatment_update", "Treatment Progress",
                   "Your Panchakarma treatment is progressing well", true, now - 86400000) ]
  }

  /** Position of the first notification with that id, or -1. */
  function IndexOf(list: seq<Notification>, id: Option<int>): (k: int)
    ensures -1 <= k < |list|
    ensures k == -1 <==> id.None? || forall j :: 0 <= j < |list| ==> list[j].id != id.value
    ensures 0 <= k ==> id.Some? && list[k].id == id.value && forall j :: 0 <= j < k ==> list[j].id != id.value
  {
    if id.None? then -1 else FindIndex((n: Notification) => n.id == id.value, list)
  }

  /** `GET /notifications/:id`; `id` is `parseInt` of the segment, `None`
      for NaN. */
  function GetById(list: seq<Notification>, id: Option<int>): (r: Response<Notification>)
    ensures r.Ok? || r.NotFound?
    ensures r.Ok? <==> id.Some? && exists i :: 0 <= i < |list| && list[i].id == id.value
    ensures r.Ok? ==> r.value.id == id.value && r.value in list
    ensures r.Ok? ==> exists i :: 0 <= i < |list| && list[i] == r.value && forall j :: 0 <= j < i ==> list[j].id != id.value
  {
    var k := IndexOf(list, id);
    if k < 0 then NotFound("Notification not found") else Ok(list[k])
  }

  /** `PUT /notifications/:id/read`: set `read` on the first notification
      with that id; 404 and no change when there is none. */
  function MarkRead(list: seq<Notification>, id: Option<int>): (out: (Response<Notification>, seq<Notification>))
    ensures out.0.Ok? || out.0.NotFound?
    ensures out.0.NotFound? <==> IndexOf(list, id) < 0
    ensures out.0.NotFound? ==> out.1 == list
    ensures out.0.Ok? ==>
              var k := IndexOf(list, id);
              && out.1 == list[k := list[k].(read := true)]
              && out.0.value == out.1[k]
  {
    var k := IndexOf(list, id);
    if k < 0 then (NotFound("Notification not found"), list)
    else
      var after := list[k := list[k].(read := true)];
      (Ok(after[k]), after)
  }

  /** Marking read changes only the `read` flag, and only of one entry. */
  lemma MarkReadFrame(list: seq<Notification>, id: Option<int>)
    ensures var after := MarkRead(list, id).1;
            && |after| == |list|
            && forall j :: 0 <= j < |list| ==>
                 after[j] == list[j].(read := after[j].read)
                 && (after[j].read != list[j].read ==> j == IndexOf(list, id))
  {
  }

  /** Marking read twice leaves the list as marking once. */
  lemma MarkReadIdempotent(list: seq<Notification>, id: Option<int>)
    ensures MarkRead(MarkRead(list, id).1, id).1 == MarkRead(list, id).1
  {
    var k := IndexOf(list, id);
    if k >= 0 {
      var after := MarkRead(list, id).1;
      assert forall j :: 0 <= j < |list| ==> after[j].id == list[j].id;
      assert IndexOf(after, id) == k;
    }
  }

  /** After marking, a lookup of the same id finds it read. */
  lemma MarkReadThenGet(list: seq<Notification>, id: Option<int>)
    requires MarkRead(list, id).0.Ok?
    ensures GetById(MarkRead(list, id).1, id).Ok?
    ensures GetById(MarkRead(list, id).1, id).value.read
  {
    var k := IndexOf(list, id);
    var after := MarkRead(list, id).1;
    assert forall j :: 0 <= j < |list| ==> after[j].id == list[j].id;
    assert IndexOf(after, id) == k;
  }
}

=== FILE: patient_index.dfy ===
/** The in-memory practitioner-to-patients index that booking updates as a
    side effect: a map from doctor id to the patients booked with that
    doctor, kept free of duplicate patient ids. */
module PatientIndex {
  import opened Wrappers
  import opened Registry
  import Seqs

  /** A patient as stored in the index: `{id, name}`. */
  datatype PatientRef = PatientRef(id: string, name: string)

  /** The `Map` keyed by doctor id. */
  type Index = map<string, seq<PatientRef>>

  predicate Lists(list: seq<PatientRef>, patientId: string)
  {
    exists i :: 0 <= i < |list| && list[i].id == patientId
  }

  predicate DistinctPatients(list: seq<PatientRef>)
  {
    forall i, j :: 0 <= i < j < |list| ==> list[i].id != list[j].id
  }

  /** Every per-doctor list holds each patient id at most once. */
  predicate Valid(ix: Index)
  {
    forall k :: k in ix ==> DistinctPatients(ix[k])
  }

  /** Only a doctor with a non-empty id is recorded. */
  predicate Recordable(doctor: Option<Doctor>)
  {
    doctor.Some? && doctor.value.id != ""
  }

  /** The empty index the server starts with. */
  const Empty: Index := map[]

  /** `getPatientsByPractitioner`: the stored list, or none. */
  function Get(ix: Index, doctorId: string): (list: seq<PatientRef>)
    ensures doctorId !in ix ==> list == []
    ensures doctorId in ix ==> list == ix[doctorId]
    ensures Valid(ix) ==> DistinctPatients(list)
  {
    if doctorId in ix then ix[doctorId] else []
  }

  /** `addPatientToPractitioner`: append the patient to the doctor's list
      unless a patient with the same id is already there. */
  function Add(ix: Index, doctor: Option<Doctor>, patient: PatientRef): (r: Index)
    ensures !Recordable(doctor) ==> r == ix
    ensures forall k :: k in ix && !(Recordable(doctor) && k == doctor.value.id) ==> k in r && r[k] == ix[k]
    ensures Recordable(doctor) ==> r.Keys == ix.Keys + {doctor.value.id}
    ensures Recordable(doctor) ==> Lists(Get(r, doctor.value.id), patient.id)
    ensures Recordable(doctor) && !Lists(Get(ix, doctor.value.id), patient.id) ==>
              Get(r, doctor.value.id) == Get(ix, doctor.value.id) + [patient]
    ensures Recordable(doctor) && Lists(Get(ix, doctor.value.id), patient.id) ==> r == ix
  {
    if !Recordable(doctor) then ix
    else
      var key := doctor.value.id;
      var existing := Get(ix, key);
      if Lists(existing, patient.id) then
        ix
      else
        assert existing + [patient] == Get(ix[key := existing + [patient]], key);
        assert (existing + [patient])[|existing|].id == patient.id;
        ix[key := existing + [patient]]
  }

  /** `clearAll`. */
  function ClearAll(ix: Index): (r: Index)
    ensures forall k :: Get(r, k) == []
  {
    map[]
  }

  /** Adding keeps every list free of duplicate patient ids. */
  lemma AddPreservesValid(ix: Index, doctor: Option<Doctor>, patient: PatientRef)
    requires Valid(ix)
    ensures Valid(Add(ix, doctor, patient))
  {
    if Recordable(doctor) && !Lists(Get(ix, doctor.value.id), patient.id) {
      var list := Get(ix, doctor.value.id) + [patient];
      assert DistinctPatients(list) by {
        forall i, j | 0 <= i < j < |list|
          ensures list[i].id != list[j].id
        {
          if j == |list| - 1 {
            assert list[i] == Get(ix, doctor.value.id)[i];
          }
        }
      }
    }
  }

  /** Adding the same patient twice leaves the index as adding once did. */
  lemma AddIdempotent(ix: Index, doctor: Option<Doctor>, patient: PatientRef)
    ensures Add(Add(ix, doctor, patient), doctor, patient) == Add(ix, doctor, patient)
  {
  }

  /** Once a patient id is listed, a later add under another name changes
      nothing: the first stored name wins. */
  lemma FirstNameWins(ix: Index, doctor: Option<Doctor>, id: string, first: string, second: string)
    ensures Add(Add(ix, doctor, PatientRef(id, first)), doctor, PatientRef(id, second))
         == Add(ix, doctor, PatientRef(id, first))
  {
  }

  /** A doctor never added to has an empty list, however the others change. */
  lemma NeverAddedIsEmpty(doctorId: string, doctors: seq<Doctor>, patients: seq<PatientRef>)
    requires |doctors| == |patients|
    requires forall i :: 0 <= i < |doctors| ==> doctors[i].id != doctorId
    ensures Get(AddAll(Empty, doctors, patients), doctorId) == []
  {
    AddAllUntouched(Empty, doctors, patients, doctorId);
  }

  /** A run of adds, one per booking. */
  function AddAll(ix: Index, doctors: seq<Doctor>, patients: seq<PatientRef>): Index
    requires |doctors| == |patients|
    decreases |doctors|
  {
    if |doctors| == 0 then ix
    else AddAll(Add(ix, Some(doctors[0]), patients[0]), doctors[1..], patients[1..])
  }

  lemma {:induction false} AddAllUntouched(ix: Index, doctors: seq<Doctor>, patients: seq<PatientRef>, doctorId: string)
    requires |doctors| == |patients|
    requires forall i :: 0 <= i < |doctors| ==> doctors[i].id != doctorId
    ensures Get(AddAll(ix, doctors, patients), doctorId) == Get(ix, doctorId)
    decreases |doctors|
  {
    if |doctors| > 0 {
      var next := Add(ix, Some(doctors[0]), patients[0]);
      assert Get(next, doctorId) == Get(ix, doctorId);
      AddAllUntouched(next, doctors[1..], patients[1..], doctorId);
    }
  }

  /** In a list free of duplicates, a listed patient occurs exactly once. */
  lemma {:induction false} ListedOnce(list: seq<PatientRef>, patientId: string)
    requires DistinctPatients(list)
    requires Lists(list, patientId)
    ensures Seqs.Count((p: PatientRef) => p.id == patientId, list) == 1
    decreases |list|
  {
    var rest := list[1..];
    if list[0].id == patientId {
      assert forall i :: 0 <= i < |rest| ==> rest[i].id != patientId by {
        forall i | 0 <= i < |rest| ensures rest[i].id != patientId {
          assert rest[i] == list[i + 1];
        }
      }
    } else {
      var i :| 0 <= i < |list| && list[i].id == patientId;
      assert rest[i - 1] == list[i];
      ListedOnce(rest, patientId);
    }
  }
}

=== FILE: patient_list.dfy ===
/** The practitioner's patient list: search over names, e-mail, treatment
    and concerns, the status filter, the most-recent-visit-first order and
    the compact view. Visit dates are day numbers. */
module PatientList {
  import opened Wrappers
  import opened Seqs
  import opened Text

  datatype Patient = Patient(
    id: nat,
    fullName: string,
    email: string,
    phone: string,
    currentTreatment: string,
    status: string,
    lastVisit: Option<int>,
    progress: int,
    concerns: seq<string>)

  /** The search condition for a non-empty term. */
  predicate Matches(p: Patient, term: string)
  {
    || ContainsIgnoreCase(p.fullName, term)
    || ContainsIgnoreCase(p.email, term)
    || ContainsIgnoreCase(p.currentTreatment, term)
    || exists i :: 0 <= i < |p.concerns| && ContainsIgnoreCase(p.concerns[i], term)
  }

  /** A patient passes the search (skipped for an empty term) and the status
      filter (skipped for "all"). */
  predicate Passes(p: Patient, term: string, statusFilter: string)
  {
    (term == "" || Matches(p, term)) && (statusFilter == "all" || p.status == statusFilter)
  }

  function Passing(term: string, statusFilter: string): Patient -> bool
  {
    (p: Patient) => Passes(p, term, statusFilter)
  }

  function Searched(term: string): Patient -> bool
  {
    (p: Patient) => Matches(p, term)
  }

  function StatusIs(statusFilter: string): Patient -> bool
  {
    (p: Patient) => p.status == statusFilter
  }

  /** The order of the sort comparator: a patient with a last visit comes
      before one without, and later visits come first. Patients it ties
      keep their order. */
  predicate VisitOrder(a: Patient, b: Patient)
  {
    match (a.lastVisit, b.lastVisit)
    case (_, None) => true
    case (None, Some(_)) => false
    case (Some(x), Some(y)) => x >= y
  }

  lemma VisitOrderTotalPreorder()
    ensures TotalPreorder(VisitOrder)
  {
  }

  /** The listed patients before the compact cut: the search, then the status
      filter, then the stable sort by last visit. */
  function Listed(patients: seq<Patient>, term: string, statusFilter: string): (r: seq<Patient>)
    ensures multiset(r) == multiset(Filter(Passing(term, statusFilter), patients))
    ensures forall i, j :: 0 <= i < j < |r| && r[i].lastVisit.None? ==> r[j].lastVisit.None?
    ensures forall i, j :: 0 <= i < j < |r| && r[j].lastVisit.Some? ==>
              r[i].lastVisit.Some? && r[i].lastVisit.value >= r[j].lastVisit.value
  {
    var searched := if term != "" then Filter(Searched(term), patients) else patients;
    var filtered := if statusFilter != "all" then Filter(StatusIs(statusFilter), searched) else searched;
    VisitOrderTotalPreorder();
    SortBySortsAndPermutes(VisitOrder, filtered);
    FilteredIsPasses(patients, term, statusFilter);
    VisitSorted(SortBy(VisitOrder, filtered));
    SortBy(VisitOrder, filtered)
  }

  /** What being sorted by `VisitOrder` means for the last visits. */
  lemma VisitSorted(r: seq<Patient>)
    requires Sorted(VisitOrder, r)
    ensures forall i, j :: 0 <= i < j < |r| && r[i].lastVisit.None? ==> r[j].lastVisit.None?
    ensures forall i, j :: 0 <= i < j < |r| && r[j].lastVisit.Some? ==>
              r[i].lastVisit.Some? && r[i].lastVisit.value >= r[j].lastVisit.value
  {
    forall i, j | 0 <= i < j < |r|
      ensures VisitOrder(r[i], r[j])
    {
    }
  }

  lemma FilteredIsPasses(patients: seq<Patient>, term: string, statusFilter: string)
    ensures var searched := if term != "" then Filter(Searched(term), patients) else patients;
            (if statusFilter != "all" then Filter(StatusIs(statusFilter), searched) else searched)
            == Filter(Passing(term, statusFilter), patients)
  {
    var passes := Passing(term, statusFilter);
    if term != "" {
      if statusFilter != "all" {
        FilterTwice(StatusIs(statusFilter), Searched(term), passes, patients);
      } else {
        FilterExt(Searched(term), passes, patients);
      }
    } else {
      if statusFilter != "all" {
        FilterExt(StatusIs(statusFilter), passes, patients);
      } else {
        FilterKeepsAll(passes, patients);
      }
    }
  }

  /** A patient is listed exactly when they pass the search and the filter. */
  lemma ListedIff(patients: seq<Patient>, term: string, statusFilter: string, p: Patient)
    ensures p in Listed(patients, term, statusFilter) <==> p in patients && Passes(p, term, statusFilter)
  {
    var kept := Filter(Passing(term, statusFilter), patients);
    assert p in Listed(patients, term, statusFilter) <==> p in multiset(kept);
    if p in patients && Passes(p, term, statusFilter) {
      var i :| 0 <= i < |patients| && patients[i] == p;
    }
    if p in kept {
      var i :| 0 <= i < |kept| && kept[i] == p;
    }
  }

  /** `filteredPatients`: in compact mode only the first five. */
  function Shown(patients: seq<Patient>, term: string, statusFilter: string, compact: bool): (r: seq<Patient>)
    ensures r <= Listed(patients, term, statusFilter)
    ensures compact ==> |r| <= 5
    ensures !compact ==> r == Listed(patients, term, statusFilter)
    ensures compact && |Listed(patients, term, statusFilter)| >= 5 ==> |r| == 5
  {
    var all := Listed(patients, term, statusFilter);
    if compact then Take(all, 5) else all
  }

  datatype Colour = Green | Blue | Yellow | Grey

  /** `getProgressColor(progress)`: 80, 50 and 25 are the thresholds. */
  function ProgressColour(progress: int): (c: Colour)
    ensures c == Green <==> progress >= 80
    ensures c == Blue <==> 50 <= progress < 80
    ensures c == Yellow <==> 25 <= progress < 50
    ensures c == Grey <==> progress < 25
  {
    if progress >= 80 then Green
    else if progress >= 50 then Blue
    else if progress >= 25 then Yellow
    else Grey
  }

  const MockPatients: seq<Patient> := [
    Patient(1, "Rajesh Kumar", "rajesh.kumar@email.com", "+91-9876543210", "Panchakarma", "active", Some(19736), 65, ["Stress", "Digestive Issues"]),
    Patient(2, "Priya Sharma", "priya.sharma@email.com", "+91-9876543211", "Abhyanga", "active", Some(19735), 80, ["Joint Pain", "Insomnia"]),
    Patient(3, "Amit Patel", "amit.patel@email.com", "+91-9876543212", "Shirodhara", "completed", Some(19732), 100, ["Anxiety", "Hypertension"]),
    Patient(4, "Sunita Gupta", "sunita.gupta@email.com", "+91-9876543213", "Consultation", "new", None, 0, ["Fatigue", "Weight Management"])
  ]

  /** With no search and no filter, a patient who alone has never visited
      is listed last (as the one new patient of the fixture is). */
  lemma NeverVisitedListedLast(patients: seq<Patient>, k: nat)
    requires k < |patients| && patients[k].lastVisit.None?
    requires forall i :: 0 <= i < |patients| && i != k ==> patients[i].lastVisit.Some?
    ensures |Listed(patients, "", "all")| == |patients|
    ensures Listed(patients, "", "all")[|patients| - 1] == patients[k]
  {
    var r := Listed(patients, "", "all");
    EmptySearchKeepsAll(patients);
    NoVisitSortsLast(r, patients, k);
    assert r[|r| - 1] == patients[k];
  }

  /** A permutation of `patients` in which no-visit patients come last ends
      with the one patient who has no visit. */
  lemma NoVisitSortsLast(r: seq<Patient>, patients: seq<Patient>, k: nat)
    requires k < |patients| && patients[k].lastVisit.None?
    requires forall i :: 0 <= i < |patients| && i != k ==> patients[i].lastVisit.Some?
    requires multiset(r) == multiset(patients)
    requires forall i, j :: 0 <= i < j < |r| && r[i].lastVisit.None? ==> r[j].lastVisit.None?
    ensures |r| == |patients| && r[|r| - 1] == patients[k]
  {
    assert |r| == |patients| by {
      assert |multiset(r)| == |r| && |multiset(patients)| == |patients|;
    }
    assert patients[k] in multiset(r);
    var j :| 0 <= j < |r| && r[j] == patients[k];
    var last := r[|r| - 1];
    assert last.lastVisit.None? by {
      if j < |r| - 1 {
        assert r[j].lastVisit.None?;
      }
    }
    assert last in multiset(patients);
    var m :| 0 <= m < |patients| && patients[m] == last;
    assert m == k;
  }

  /** An empty search and "all" let every patient through. */
  lemma EmptySearchKeepsAll(patients: seq<Patient>)
    ensures Filter(Passing("", "all"), patients) == patients
  {
    forall i | 0 <= i < |patients|
      ensures Passing("", "all")(patients[i])
    {
    }
    FilterKeepsAll(Passing("", "all"), patients);
  }
}

=== FILE: patient_records.dfy ===
/** The practitioner's patient records: the search and constitution filter
    over the records, and the case-insensitive status and severity colour
    maps. */
module PatientRecords {
  import opened Seqs
  import opened Text

  datatype Record = Record(id: string, name: string, phone: string, email: string, constitution: string)

  /** The search: name and e-mail ignoring case, phone as typed. */
  predicate MatchesSearch(r: Record, term: string)
  {
    ContainsIgnoreCase(r.name, term) || Contains(r.phone, term) || ContainsIgnoreCase(r.email, term)
  }

  /** The constitution filter: "all", or the constitution contains the
      chosen dosha anywhere. */
  predicate MatchesConstitution(r: Record, dosha: string)
  {
    dosha == "all" || Contains(r.constitution, dosha)
  }

  function Listed(term: string, dosha: string): Record -> bool
  {
    (r: Record) => MatchesSearch(r, term) && MatchesConstitution(r, dosha)
  }

  /** `filteredPatients`: the records passing both tests, in order. */
  function Filtered(records: seq<Record>, term: string, dosha: string): (r: seq<Record>)
    ensures IsSubsequence(r, records)
    ensures forall i :: 0 <= i < |r| ==> MatchesSearch(r[i], term) && MatchesConstitution(r[i], dosha)
    ensures forall i :: 0 <= i < |records| ==>
              (MatchesSearch(records[i], term) && MatchesConstitution(records[i], dosha) ==> records[i] in r)
  {
    Filter(Listed(term, dosha), records)
  }

  /** Every record passes an empty search, so "all" with no term lists
      everything. */
  lemma EmptySearchListsAll(records: seq<Record>)
    ensures Filtered(records, "", "all") == records
  {
    forall i | 0 <= i < |records|
      ensures Listed("", "all")(records[i])
    {
      EmptyOccursEverywhere(records[i].phone);
    }
    FilterKeepsAll(Listed("", "all"), records);
  }

  /** The dosha filter is a substring test: "Vata" keeps a "Kapha-Vata"
      record as well as a "Vata-Pitta" one, and a record always passes the
      filter named by its own constitution. */
  lemma DoshaIsSubstring(r: Record)
    ensures MatchesConstitution(r.(constitution := "Kapha-Vata"), "Vata")
    ensures MatchesConstitution(r.(constitution := "Vata-Pitta"), "Vata")
    ensures !MatchesConstitution(r.(constitution := "Pitta-Kapha"), "Vata")
    ensures MatchesConstitution(r, r.constitution)
  {
    assert OccursAt("Kapha-Vata", "Vata", 6);
    assert OccursAt("Vata-Pitta", "Vata", 0);
    assert OccursAt(r.constitution, r.constitution, 0);
    FirstCharAbsent("Pitta-Kapha", "Vata");
  }

  datatype Colour = Green | Blue | Yellow | Red | Grey

  /** `getStatusColor(status)` on the lower-cased status. */
  function StatusColour(status: string): (c: Colour)
    ensures c == Green <==> Lower(status) == "active"
    ensures c == Blue <==> Lower(status) == "completed"
    ensures c == Yellow <==> Lower(status) == "planned"
  {
    match Lower(status)
    case "active" => Green
    case "completed" => Blue
    case "planned" => Yellow
    case _ => Grey
  }

  /** `getSeverityColor(severity)` on the lower-cased severity. */
  function SeverityColour(severity: string): (c: Colour)
    ensures c == Red <==> Lower(severity) == "severe"
    ensures c == Yellow <==> Lower(severity) == "moderate"
    ensures c == Green <==> Lower(severity) == "mild"
  {
    match Lower(severity)
    case "severe" => Red
    case "moderate" => Yellow
    case "mild" => Green
    case _ => Grey
  }

  /** Both maps ignore case: a value and its lower-cased form get the same
      colour. */
  lemma ColoursIgnoreCase(s: string)
    ensures StatusColour(Lower(s)) == StatusColour(s)
    ensures SeverityColour(Lower(s)) == SeverityColour(s)
  {
    LowerIdempotent(s);
  }
}

=== FILE: phase_indicator.dfy ===
/** The three-phase indicator of a Panchakarma course: which phases are
    done, which is under way, and which are still to come. */
module PhaseIndicator {
  import opened Wrappers
  import opened Seqs
  import PP = PatientProgress

  /** The phase ids, in treatment order. */
  const PhaseIds: seq<string> := ["purvakarma", "pradhankarma", "paschatkarma"]

  datatype PhaseStatus = Completed | Current | Upcoming

  /** The `currentPhase` prop with its default: an omitted prop (`None`,
      JavaScript's `undefined`) is "purvakarma". */
  function PhaseProp(prop: Option<string>): (p: string)
    ensures prop.None? ==> p == "purvakarma"
    ensures prop.Some? ==> p == prop.value
  {
    if prop.Some? then prop.value else "purvakarma"
  }

  /** Without the prop the first phase is under way and the other two are
      still to come. */
  lemma OmittedPropStartsFirstPhase()
    ensures Statuses(PhaseProp(None)) == [Current, Upcoming, Upcoming]
    ensures Arrows(PhaseProp(None)) == [false, false]
  {
    assert CurrentIndex("purvakarma") == 0;
  }

  /** `getCurrentPhaseIndex()`: the position of the phase whose id equals
      `currentPhase` exactly, or -1. */
  function CurrentIndex(currentPhase: string): (k: int)
    ensures -1 <= k < 3
    ensures k == -1 <==> currentPhase !in PhaseIds
    ensures k >= 0 ==> PhaseIds[k] == currentPhase
  {
    FindIndex((id: string) => id == currentPhase, PhaseIds)
  }

  /** `getPhaseStatus(i)`. */
  function StatusOf(i: int, currentPhase: string): (s: PhaseStatus)
    ensures s == Completed <==> i < CurrentIndex(currentPhase)
    ensures s == Current <==> i == CurrentIndex(currentPhase)
    ensures s == Upcoming <==> i > CurrentIndex(currentPhase)
  {
    var k := CurrentIndex(currentPhase);
    if i < k then Completed else if i == k then Current else Upcoming
  }

  /** The statuses of the three phases as drawn. */
  function Statuses(currentPhase: string): (r: seq<PhaseStatus>)
    ensures |r| == 3
    ensures forall i :: 0 <= i < 3 ==> r[i] == StatusOf(i, currentPhase)
  {
    seq(3, i => StatusOf(i, currentPhase))
  }

  /** At most one phase is current, completed phases form a prefix, and
      upcoming phases a suffix. */
  lemma StatusShape(currentPhase: string)
    ensures forall i, j :: 0 <= i < j < 3 && Statuses(currentPhase)[i] == Current ==> Statuses(currentPhase)[j] != Current
    ensures forall i, j :: 0 <= i < j < 3 && Statuses(currentPhase)[j] == Completed ==> Statuses(currentPhase)[i] == Completed
    ensures forall i, j :: 0 <= i < j < 3 && Statuses(currentPhase)[i] == Upcoming ==> Statuses(currentPhase)[j] == Upcoming
    ensures currentPhase in PhaseIds <==> Current in Statuses(currentPhase)
  {
    var r := Statuses(currentPhase);
    if currentPhase in PhaseIds {
      var k := CurrentIndex(currentPhase);
      assert r[k] == Current;
    }
  }

  /** An id that matches no phase exactly (say "Purvakarma") shows every
      phase as upcoming. */
  lemma UnmatchedPhaseAllUpcoming(currentPhase: string)
    requires currentPhase !in PhaseIds
    ensures Statuses(currentPhase) == [Upcoming, Upcoming, Upcoming]
  {
  }

  /** The arrows between consecutive phases: one fewer than the phases,
      green after phase `i` iff `i` is before the current index. */
  function Arrows(currentPhase: string): (r: seq<bool>)
    ensures |r| == |PhaseIds| - 1 == 2
    ensures forall i :: 0 <= i < |r| ==> (r[i] <==> i < CurrentIndex(currentPhase))
  {
    seq(|PhaseIds| - 1, i => i < CurrentIndex(currentPhase))
  }

  /** A green arrow always leaves a completed phase. */
  lemma GreenArrowAfterCompleted(currentPhase: string, i: int)
    requires 0 <= i < 2 && Arrows(currentPhase)[i]
    ensures Statuses(currentPhase)[i] == Completed
  {
  }

  /** The indicator knows exactly the phases the progress hook has ranges
      for. */
  lemma PhasesHaveRanges(phase: string)
    ensures CurrentIndex(phase) >= 0 <==> PP.PhaseRange(phase).Some?
  {
  }
}

=== FILE: practitioner_routes.dfy ===
/** The practitioners routes: the fixed list of eighteen doctors, lookup by
    id, and the patients the index holds for a practitioner. */
module PractitionerRoutes {
  import opened Wrappers
  import opened Registry
  import PI = PatientIndex

  /** The demo list: the treatments registry's doctors, pool by pool. */
  const Practitioners: seq<Doctor> := [
    Doctor("D101", "Dr. Ananya Iyer", "Panchakarma Specialist"),
    Doctor("D102", "Dr. Rohan Deshmukh", "Detox & Rejuvenation"),
    Doctor("D103", "Dr. Meera Patel", "Ayurvedic Physician"),
    Doctor("D201", "Dr. Kavya Nair", "Therapeutic Massage"),
    Doctor("D202", "Dr. Arjun Rao", "Musculoskeletal Care"),
    Doctor("D203", "Dr. Sneha Kulkarni", "Pain Management"),
    Doctor("D301", "Dr. Niharika Sharma", "Stress & Sleep Disorders"),
    Doctor("D302", "Dr. Vivek Menon", "Neurological Wellness"),
    Doctor("D303", "Dr. Priyanka Joshi", "Mind-Body Balance"),
    Doctor("D401", "Dr. Sagar Pawar", "Metabolic Health"),
    Doctor("D402", "Dr. Aishwarya G", "Weight Management"),
    Doctor("D403", "Dr. Harshita Jain", "Skin & Detox"),
    Doctor("D501", "Dr. Ritu Kapoor", "ENT & Respiratory"),
    Doctor("D502", "Dr. Aman Gupta", "Sinus & Allergy Care"),
    Doctor("D503", "Dr. Neha Bansal", "Head & Neck Therapy"),
    Doctor("D601", "Dr. Kiran Shetty", "Digestive Wellness"),
    Doctor("D602", "Dr. Pooja Rao", "Gut Health & Detox"),
    Doctor("D603", "Dr. Mahesh I", "Colon Therapy")
  ]

  /** `D`, then the pool digit, `0` and the slot digit. */
  predicate IdShape(id: string, pool: int, slot: int)
  {
    |id| == 4 && id[0] == 'D' && id[1] as int - '0' as int == pool && id[2] == '0' && id[3] as int - '0' as int == slot
  }

  /** Entry `i` is the `(i % 3 + 1)`-th doctor of pool `i / 3 + 1`. */
  lemma PractitionerIds()
    ensures |Practitioners| == 18
    ensures forall i :: 0 <= i < 18 ==> IdShape(Practitioners[i].id, i / 3 + 1, i % 3 + 1)
  {
  }

  /** The eighteen ids are pairwise distinct. */
  lemma PractitionersDistinct()
    ensures |Practitioners| == 18
    ensures DistinctIds(Practitioners)
  {
    PractitionerIds();
    forall i, j | 0 <= i < j < 18
      ensures Practitioners[i].id != Practitioners[j].id
    {
      var a := Practitioners[i].id;
      var b := Practitioners[j].id;
      assert IdShape(a, i / 3 + 1, i % 3 + 1) && IdShape(b, j / 3 + 1, j % 3 + 1);
    }
  }

  /** The list is the six treatment pools' doctors, pool after pool. */
  lemma PractitionersArePools(k: int)
    requires 0 <= k < 6
    ensures Practitioners[3 * k..3 * k + 3] == ProfileDoctors(TreatmentTable[k].1)
  {
    if k == 0 { Pool0(); }
    else if k == 1 { Pool1(); }
    else if k == 2 { Pool2(); }
    else if k == 3 { Pool3(); }
    else if k == 4 { Pool4(); }
    else { Pool5(); }
  }

  /** The Panchakarma pool is entries 0 to 2. */
  lemma Pool0()
    ensures Practitioners[0..3] == ProfileDoctors(TreatmentTable[0].1)
  {
    SameDoctors(PanchakarmaProfiles, Practitioners[0..3]);
  }

  /** The Abhyanga pool is entries 3 to 5. */
  lemma Pool1()
    ensures Practitioners[3..6] == ProfileDoctors(TreatmentTable[1].1)
  {
    SameDoctors(AbhyangaProfiles, Practitioners[3..6]);
  }

  /** The Shirodhara pool is entries 6 to 8. */
  lemma Pool2()
    ensures Practitioners[6..9] == ProfileDoctors(TreatmentTable[2].1)
  {
    SameDoctors(ShirodharaProfiles, Practitioners[6..9]);
  }

  /** The Udvartana pool is entries 9 to 11. */
  lemma Pool3()
    ensures Practitioners[9..12] == ProfileDoctors(TreatmentTable[3].1)
  {
    SameDoctors(UdvartanaProfiles, Practitioners[9..12]);
  }

  /** The Nasya pool is entries 12 to 14. */
  lemma Pool4()
    ensures Practitioners[12..15] == ProfileDoctors(TreatmentTable[4].1)
  {
    SameDoctors(NasyaProfiles, Practitioners[12..15]);
  }

  /** The Basti pool is entries 15 to 17. */
  lemma Pool5()
    ensures Practitioners[15..18] == ProfileDoctors(TreatmentTable[5].1)
  {
    SameDoctors(BastiProfiles, Practitioners[15..18]);
  }

  /** `GET /practitioners`: the whole list. */
  function ListPractitioners(): (r: seq<Doctor>)
    ensures |r| == 18 && DistinctIds(r)
  {
    PractitionersDistinct();
    Practitioners
  }

  /** `GET /practitioners/:id`: the entry with exactly that id, or 404. */
  function FindPractitioner(id: string): (r: Response<Doctor>)
    ensures r.Ok? || r.NotFound?
    ensures r.Ok? <==> exists i :: 0 <= i < |Practitioners| && Practitioners[i].id == id
    ensures r.Ok? ==> r.value.id == id && r.value in Practitioners
  {
    var found := FindDoctor(Practitioners, id);
    if found.None? then NotFound("Practitioner not found") else Ok(found.value)
  }

  /** Ids are unique, so the lookup returns the one entry with that id. */
  lemma FindPractitionerExact(i: int)
    requires 0 <= i < |Practitioners|
    ensures FindPractitioner(Practitioners[i].id) == Ok(Practitioners[i])
  {
    PractitionersDistinct();
    FindDoctorExact(Practitioners, i);
  }

  /** The reply of `GET /practitioners/:id/patients`. */
  datatype PatientsReply = PatientsReply(practitionerId: string, patients: seq<PI.PatientRef>)

  /** The index's list for the id, echoed with the id; never a 404. */
  function PatientsOf(ix: PI.Index, id: string): (r: PatientsReply)
    ensures r.practitionerId == id
    ensures r.patients == PI.Get(ix, id)
    ensures id !in ix ==> r.patients == []
    ensures id in ix ==> r.patients == ix[id]
    ensures PI.Valid(ix) ==> PI.DistinctPatients(r.patients)
  {
    PatientsReply(id, PI.Get(ix, id))
  }
}

=== FILE: profile.dfy ===
/** The patient's profile page: the profile loaded from the signed-in user
    with its defaults, cancelling back to those values, editing a field by
    a dotted path, saving, the age computed from the date of birth and the
    avatar initials. The profile and the user are plain JavaScript objects,
    modelled as maps from keys to values. */
module Profile {
  import opened Wrappers
  import opened Text

  /** A JSON-like value: the profile holds strings, flags and nested
      objects, and a user record may hold `null`. */
  datatype Value = Null | Flag(b: bool) | Str(s: string) | Obj(fields: map<string, Value>)

  type Object = map<string, Value>

  /** JavaScript truthiness. */
  predicate Truthy(v: Value)
  {
    match v
    case Null => false
    case Flag(b) => b
    case Str(s) => s != ""
    case Obj(_) => true
  }

  /** `o.key`, `None` standing for `undefined`. */
  function Get(o: Object, key: string): Option<Value>
  {
    if key in o then Some(o[key]) else None
  }

  /** `v?.key`: `undefined` unless `v` is an object holding the key. */
  function Member(v: Option<Value>, key: string): Option<Value>
  {
    if v.Some? && v.value.Obj? && key in v.value.fields then Some(v.value.fields[key]) else None
  }

  /** `v || d` */
  function Or(v: Option<Value>, d: Value): (r: Value)
    ensures r == d <==> v.None? || !Truthy(v.value) || v.value == d
  {
    if v.Some? && Truthy(v.value) then v.value else d
  }

  /** `v ?? d` */
  function Coalesce(v: Option<Value>, d: Value): (r: Value)
    ensures r == d <==> v.None? || v.value.Null? || v.value == d
  {
    if v.Some? && !v.value.Null? then v.value else d
  }

  // ---------------------------------------------------------------------
  // Loading and cancelling

  /** The ten text fields of the profile. */
  const TextKeys: set<string> := {"fullName", "email", "phone", "dateOfBirth", "address",
                                  "emergencyContact", "medicalHistory", "constitution",
                                  "allergies", "currentMedications"}

  const ProfileKeys: set<string> := TextKeys + {"preferences"}

  /** The default of a text field when the user's value is falsy. */
  function TextDefault(key: string): string
  {
    if key == "constitution" then "Vata-Pitta" else ""
  }

  /** The preferences object built from the user's preferences (or from the
      defaults, with `prefs` undefined). */
  function Preferences(prefs: Option<Value>): (r: Value)
    ensures r.Obj? && r.fields.Keys == {"language", "notifications", "privacy"}
  {
    var notifications := Member(prefs, "notifications");
    var privacy := Member(prefs, "privacy");
    Obj(map[
      "language" := Or(Member(prefs, "language"), Str("english")),
      "notifications" := Obj(map[
        "email" := Coalesce(Member(notifications, "email"), Flag(true)),
        "sms" := Coalesce(Member(notifications, "sms"), Flag(true)),
        "push" := Coalesce(Member(notifications, "push"), Flag(true))]),
      "privacy" := Obj(map[
        "shareProgress" := Coalesce(Member(privacy, "shareProgress"), Flag(false)),
        "allowMarketing" := Coalesce(Member(privacy, "allowMarketing"), Flag(false))])])
  }

  /** The profile object the load effect and `handleCancel` both build from
      the user: each text field is the user's value when truthy and its
      default otherwise, the language likewise, and each flag is the user's
      value unless missing or `null` (so an explicit `false` survives). */
  function FromUser(user: Object): Object
  {
    map k | k in ProfileKeys ::
      if k == "preferences" then Preferences(Get(user, "preferences"))
      else Or(Get(user, k), Str(TextDefault(k)))
  }

  /** What each field of the loaded profile holds. */
  lemma FromUserFields(user: Object)
    ensures FromUser(user).Keys == ProfileKeys
    ensures forall k :: k in TextKeys ==>
              (FromUser(user)[k] == Str(TextDefault(k)) <==>
               k !in user || !Truthy(user[k]) || user[k] == Str(TextDefault(k)))
    ensures forall k :: k in TextKeys && k in user && Truthy(user[k]) ==> FromUser(user)[k] == user[k]
    ensures FromUser(user)["preferences"] == Preferences(Get(user, "preferences"))
  {
    PreferencesNotText();
  }

  lemma PreferencesNotText()
    ensures "preferences" !in TextKeys
  {
  }

  /** The state the page starts in, before any user is seen: every text
      field empty, including the constitution. */
  const Initial: Object :=
    map k | k in ProfileKeys :: if k == "preferences" then Preferences(None) else Str("")

  /** The load effect: with a signed-in user the profile is rebuilt from it,
      otherwise it stays as it is. */
  function Load(user: Option<Object>, current: Object): (r: Object)
    ensures user.None? ==> r == current
    ensures user.Some? ==> r.Keys == ProfileKeys && r["preferences"].Obj?
  {
    if user.Some? then FromUser(user.value) else current
  }

  /** `handleCancel()`: the profile as the load effect would rebuild it, and
      edit mode off. */
  function Cancel(user: Option<Object>, current: Object): (r: (Object, bool))
    ensures !r.1
    ensures user.None? ==> r.0 == current
  {
    (Load(user, current), false)
  }

  /** Cancelling restores exactly what loading gives, whatever was edited in
      between. */
  lemma CancelIsReload(user: Option<Object>, loaded: Object, edited: Object)
    requires user.Some?
    ensures Cancel(user, edited).0 == Load(user, loaded)
  {
  }

  /** With an empty user record every field takes its default: the text
      fields are empty except the constitution, "Vata-Pitta"; the language
      is "english", every notification flag is on and every privacy flag
      off. This differs from the initial state only in the constitution. */
  lemma EmptyUserDefaults()
    ensures var r := FromUser(map[]);
            && (forall k :: k in TextKeys && k != "constitution" ==> r[k] == Str(""))
            && r["constitution"] == Str("Vata-Pitta")
            && r["preferences"].fields["language"] == Str("english")
            && r["preferences"].fields["notifications"] ==
               Obj(map["email" := Flag(true), "sms" := Flag(true), "push" := Flag(true)])
            && r["preferences"].fields["privacy"] ==
               Obj(map["shareProgress" := Flag(false), "allowMarketing" := Flag(false)])
    ensures FromUser(map[]) == Initial["constitution" := Str("Vata-Pitta")]
  {
    var r := FromUser(map[]);
    var expected := Initial["constitution" := Str("Vata-Pitta")];
    PreferencesNotText();
    forall k | k in TextKeys
      ensures r[k] == Str(TextDefault(k))
    {
      EmptyUserText(k);
    }
    DefaultPreferences();
    assert r.Keys == expected.Keys;
    forall k | k in r.Keys
      ensures r[k] == expected[k]
    {
    }
  }

  lemma EmptyUserText(k: string)
    requires k in TextKeys
    ensures FromUser(map[])[k] == Str(TextDefault(k))
  {
    PreferencesNotText();
  }

  /** The preferences loaded from no preferences at all. */
  lemma DefaultPreferences()
    ensures Preferences(None).fields["language"] == Str("english")
    ensures Preferences(None).fields["notifications"] ==
              Obj(map["email" := Flag(true), "sms" := Flag(true), "push" := Flag(true)])
    ensures Preferences(None).fields["privacy"] ==
              Obj(map["shareProgress" := Flag(false), "allowMarketing" := Flag(false)])
  {
  }

  /** An explicit `false` notification flag is kept, where `||` would have
      turned it back on. */
  lemma ExplicitFalseKept(user: Object)
    requires "preferences" in user
    requires user["preferences"] == Obj(map["notifications" := Obj(map["email" := Flag(false)])])
    ensures FromUser(user)["preferences"].fields["notifications"].fields["email"] == Flag(false)
    ensures FromUser(user)["preferences"].fields["notifications"].fields["sms"] == Flag(true)
  {
  }

  /** Rebuilding a profile from a profile built from a user changes
      nothing: the defaults are a normal form. */
  lemma FromUserIdempotent(user: Object)
    ensures FromUser(FromUser(user)) == FromUser(user)
  {
    var once := FromUser(user);
    var twice := FromUser(once);
    forall k | k in once.Keys
      ensures twice[k] == once[k]
    {
      if k == "preferences" {
        PreferencesIdempotent(Get(user, "preferences"));
      } else {
        TextFieldStable(user, k);
      }
    }
    assert twice.Keys == once.Keys;
  }

  /** A text field loaded twice is loaded once: a truthy value stays, and a
      falsy one became the default, which stays too. */
  lemma TextFieldStable(user: Object, k: string)
    requires k in TextKeys
    ensures FromUser(FromUser(user))[k] == FromUser(user)[k]
  {
    PreferencesNotText();
    var d := Str(TextDefault(k));
    var v := Or(Get(user, k), d);
    assert FromUser(user)[k] == v;
    assert Get(FromUser(user), k) == Some(v);
    assert FromUser(FromUser(user))[k] == Or(Some(v), d);
  }

  lemma PreferencesIdempotent(prefs: Option<Value>)
    ensures Preferences(Some(Preferences(prefs))) == Preferences(prefs)
  {
    var p := Preferences(prefs);
    var n := Member(prefs, "notifications");
    var v := Member(prefs, "privacy");
    assert Member(Some(p), "language") == Some(Or(Member(prefs, "language"), Str("english")));
    var n1 := Member(Some(p), "notifications");
    var v1 := Member(Some(p), "privacy");
    assert Member(n1, "email") == Some(Coalesce(Member(n, "email"), Flag(true)));
    assert Member(n1, "sms") == Some(Coalesce(Member(n, "sms"), Flag(true)));
    assert Member(n1, "push") == Some(Coalesce(Member(n, "push"), Flag(true)));
    assert Member(v1, "shareProgress") == Some(Coalesce(Member(v, "shareProgress"), Flag(false)));
    assert Member(v1, "allowMarketing") == Some(Coalesce(Member(v, "allowMarketing"), Flag(false)));
  }

  // ---------------------------------------------------------------------
  // Editing by dotted path

  /** The keys a field name addresses: the name itself when it holds no
      dot, otherwise the first two pieces of `split('.')`, and the third
      when it is there and non-empty (an empty third piece is falsy and
      ignored, as are any further pieces). */
  function Path(field: string): (p: seq<string>)
    ensures 1 <= |p| <= 3
    ensures |p| == 1 <==> '.' !in field
    ensures |p| == 1 ==> p[0] == field
    ensures |p| >= 2 ==> |p| <= |Split(field, '.')| && p == Split(field, '.')[..|p|]
  {
    if '.' !in field then [field]
    else
      var pieces := Split(field, '.');
      DotSplits(field);
      if |pieces| > 2 && pieces[2] != "" then pieces[..3] else pieces[..2]
  }

  /** A string holding the separator splits into at least two pieces. */
  lemma DotSplits(s: string)
    requires '.' in s
    ensures |Split(s, '.')| >= 2
  {
  }

  /** `{...v}` for the values met here: an object's own fields, nothing for
      `null`, `undefined` or a flag. */
  function Spread(v: Option<Value>): (r: Object)
    ensures v.Some? && v.value.Obj? ==> r == v.value.fields
  {
    if v.Some? && v.value.Obj? then v.value.fields else map[]
  }

  /** `handleInputChange(field, value)`. A field without a dot is set at the
      top level; `a.b` replaces `a` by a copy of it with `b` set; `a.b.c`
      replaces `a` by a copy with `b` replaced by a copy with `c` set.
      Reading `prev[a][b]` throws when `prev[a]` is `undefined` or `null`,
      reported as `None`. */
  function SetPath(prev: Object, field: string, value: Value): (r: Option<Object>)
    ensures r.None? <==> |Path(field)| == 3 && (Path(field)[0] !in prev || prev[Path(field)[0]].Null?)
    ensures r.Some? ==> r.value.Keys == prev.Keys + {Path(field)[0]}
    ensures r.Some? ==> forall k :: k in prev && k != Path(field)[0] ==> r.value[k] == prev[k]
  {
    var path := Path(field);
    if |path| == 1 then Some(prev[field := value])
    else
      var parent := Get(prev, path[0]);
      var inner := Spread(parent);
      if |path| == 2 then Some(prev[path[0] := Obj(inner[path[1] := value])])
      else if parent.None? || parent.value.Null? then None
      else
        var middle := Spread(Get(inner, path[1]));
        Some(prev[path[0] := Obj(inner[path[1] := Obj(middle[path[2] := value])])])
  }

  /** The value at a path of keys, `None` where some step is missing. */
  function At(o: Object, path: seq<string>): Option<Value>
    requires |path| >= 1
    decreases |path|
  {
    if path[0] !in o then None
    else if |path| == 1 then Some(o[path[0]])
    else if o[path[0]].Obj? then At(o[path[0]].fields, path[1..])
    else None
  }

  /** Reading back the field just set gives the value set. */
  lemma SetThenGet(prev: Object, field: string, value: Value)
    requires SetPath(prev, field, value).Some?
    ensures At(SetPath(prev, field, value).value, Path(field)) == Some(value)
  {
    var path := Path(field);
    var r := SetPath(prev, field, value).value;
    if |path| == 2 {
      assert path[1..][1..] == [];
      assert At(r[path[0]].fields, path[1..]) == Some(value);
    } else if |path| == 3 {
      var rest := path[1..];
      assert rest[1..] == [path[2]];
      assert At(r[path[0]].fields[path[1]].fields, rest[1..]) == Some(value);
    }
  }

  /** Siblings are kept at every level: in the object a dotted path goes
      into, every other key keeps its value, and so does every other key of
      the nested object a three-part path goes into. */
  lemma SiblingsPreserved(prev: Object, field: string, value: Value)
    requires SetPath(prev, field, value).Some?
    requires |Path(field)| >= 2 && Path(field)[0] in prev && prev[Path(field)[0]].Obj?
    ensures var p := Path(field);
            var r := SetPath(prev, field, value).value;
            var before := prev[p[0]].fields;
            && r[p[0]].Obj?
            && forall k :: k in before && k != p[1] ==> k in r[p[0]].fields && r[p[0]].fields[k] == before[k]
    ensures var p := Path(field);
            var r := SetPath(prev, field, value).value;
            var before := prev[p[0]].fields;
            |p| == 3 && p[1] in before && before[p[1]].Obj? ==>
              && r[p[0]].fields[p[1]].Obj?
              && forall k :: k in before[p[1]].fields && k != p[2] ==>
                   k in r[p[0]].fields[p[1]].fields && r[p[0]].fields[p[1]].fields[k] == before[p[1]].fields[k]
  {
  }

  /** A field written `a.b.c` from dot-free pieces, `c` non-empty,
      addresses exactly those three keys. */
  lemma PathOfPieces(a: string, b: string, c: string)
    requires '.' !in a && '.' !in b && '.' !in c && c != ""
    ensures Path(a + "." + b + "." + c) == [a, b, c]
  {
    var pieces := [a, b, c];
    var f := a + "." + b + "." + c;
    assert pieces[1..][1..] == [c];
    assert Join(pieces[1..], '.') == b + "." + c;
    assert Join(pieces, '.') == a + "." + (b + "." + c);
    assert a + "." + (b + "." + c) == f;
    SplitJoin(pieces, '.');
    assert f[|a|] == '.';
  }

  /** Editing one notification flag of a loaded profile sets that flag and
      keeps the other flags, the other preferences and the text fields. */
  lemma EditNotificationFlag(user: Object, flag: string, b: bool)
    requires flag in {"email", "sms", "push"}
    ensures var prev := FromUser(user);
            var r := SetPath(prev, "preferences.notifications." + flag, Flag(b));
            && r.Some?
            && At(r.value, ["preferences", "notifications", flag]) == Some(Flag(b))
            && (forall k :: k in prev["preferences"].fields["notifications"].fields && k != flag ==>
                  At(r.value, ["preferences", "notifications", k]) == At(prev, ["preferences", "notifications", k]))
            && (forall k :: k in prev && k != "preferences" ==> r.value[k] == prev[k])
  {
    var prev := FromUser(user);
    var f := "preferences.notifications." + flag;
    NotificationPath(flag);
    LoadedShape(user);
    EditNested(prev, f, Flag(b));
  }

  lemma NotificationPath(flag: string)
    requires flag in {"email", "sms", "push"}
    ensures Path("preferences.notifications." + flag) == ["preferences", "notifications", flag]
  {
    assert "preferences.notifications." + flag == "preferences" + "." + "notifications" + "." + flag;
    PathOfPieces("preferences", "notifications", flag);
  }

  lemma LoadedShape(user: Object)
    ensures var prev := FromUser(user);
            && "preferences" in prev && prev["preferences"].Obj?
            && "notifications" in prev["preferences"].fields
            && prev["preferences"].fields["notifications"].Obj?
  {
  }

  /** The same, for any three-part path into nested objects. */
  lemma EditNested(prev: Object, field: string, value: Value)
    requires |Path(field)| == 3
    requires var p := Path(field);
             (p[0] in prev && prev[p[0]].Obj? && p[1] in prev[p[0]].fields && prev[p[0]].fields[p[1]].Obj?)
    ensures var p := Path(field);
            var r := SetPath(prev, field, value);
            && r.Some?
            && At(r.value, p) == Some(value)
            && (forall k :: k in prev[p[0]].fields[p[1]].fields && k != p[2] ==>
                  At(r.value, [p[0], p[1], k]) == At(prev, [p[0], p[1], k]))
  {
    var p := Path(field);
    var r := SetPath(prev, field, value).value;
    SetThenGet(prev, field, value);
    SiblingsPreserved(prev, field, value);
    forall k | k in prev[p[0]].fields[p[1]].fields && k != p[2]
      ensures At(r, [p[0], p[1], k]) == At(prev, [p[0], p[1], k])
    {
      AtThree(r, p[0], p[1], k);
      AtThree(prev, p[0], p[1], k);
    }
  }

  lemma AtThree(o: Object, a: string, b: string, c: string)
    requires a in o && o[a].Obj? && b in o[a].fields && o[a].fields[b].Obj?
    ensures At(o, [a, b, c]) == Get(o[a].fields[b].fields, c)
  {
    assert [a, b, c][1..] == [b, c];
    assert [b, c][1..] == [c];
    assert At(o, [a, b, c]) == At(o[a].fields, [b, c]);
    assert At(o[a].fields, [b, c]) == At(o[a].fields[b].fields, [c]);
  }

  // ---------------------------------------------------------------------
  // Saving

  datatype PageState = PageState(editing: bool, loading: bool)

  /** `handleSave()` given whether `updateProfile` succeeds: the state while
      the update is awaited, and the state after it. */
  function Save(s: PageState, succeeds: bool): (r: (PageState, PageState))
    ensures r.0 == s.(loading := true)
    ensures !r.1.loading
    ensures r.1.editing <==> s.editing && !succeeds
  {
    (s.(loading := true), PageState(s.editing && !succeeds, false))
  }

  /** A failed save leaves the page as it was before, apart from the
      loading flag being cleared; a successful one leaves edit mode. */
  lemma SaveOutcome(s: PageState)
    ensures Save(s, false).1 == s.(loading := false)
    ensures Save(s, true).1 == PageState(false, false)
  {
  }

  // ---------------------------------------------------------------------
  // Age and initials

  datatype Date = Date(year: int, month: int, day: int)

  /** Calendar order on (year, month, day). */
  predicate OnOrBefore(a: Date, b: Date)
  {
    a.year < b.year || (a.year == b.year && (a.month < b.month || (a.month == b.month && a.day <= b.day)))
  }

  /** The birthday in year `birth.year + n`. */
  function Anniversary(birth: Date, n: int): Date
  {
    birth.(year := birth.year + n)
  }

  /** `calculateAge(dateOfBirth)`: empty text gives '' (here `None`);
      otherwise the difference of the years, one less when this year's
      birthday is still to come. `birth` and `today` are the parsed date
      and the clock's date. The age is the number of birthdays reached:
      the last anniversary on or before today. */
  function Age(dobText: string, birth: Date, today: Date): (r: Option<int>)
    ensures r.None? <==> dobText == ""
    ensures r.Some? ==> OnOrBefore(Anniversary(birth, r.value), today)
                        && !OnOrBefore(Anniversary(birth, r.value + 1), today)
  {
    if dobText == "" then None
    else
      var age := today.year - birth.year;
      var monthDiff := today.month - birth.month;
      if monthDiff < 0 || (monthDiff == 0 && today.day < birth.day) then Some(age - 1) else Some(age)
  }

  /** Only one count of years fits that description, so the age is
      determined by it. */
  lemma AgeUnique(birth: Date, today: Date, n: int, m: int)
    requires OnOrBefore(Anniversary(birth, n), today) && !OnOrBefore(Anniversary(birth, n + 1), today)
    requires OnOrBefore(Anniversary(birth, m), today) && !OnOrBefore(Anniversary(birth, m + 1), today)
    ensures n == m
  {
  }

  /** The first character of each non-empty word (`n[0]` of an empty word
      is `undefined`, which `join('')` prints as nothing). */
  function Firsts(words: seq<string>): (r: string)
    ensures |r| <= |words|
  {
    if |words| == 0 then ""
    else (if |words[0]| > 0 then [words[0][0]] else "") + Firsts(words[1..])
  }

  /** The avatar text: the initials of the full name, upper-cased. */
  function Initials(fullName: string): (r: string)
    ensures |r| <= |Split(fullName, ' ')| <= |fullName| + 1
    ensures forall i :: 0 <= i < |r| ==> !('a' <= r[i] <= 'z')
  {
    SplitLength(fullName);
    Upper(Firsts(Split(fullName, ' ')))
  }

  /** Splitting gives at most one piece more than there are characters. */
  lemma {:induction false} SplitLength(s: string)
    ensures |Split(s, ' ')| <= |s| + 1
    decreases |s|
  {
    if |s| > 0 {
      SplitLength(s[1..]);
    }
  }

  /** For a name made of non-empty words separated by single spaces, the
      initials are the words' first letters, upper-cased, one per word. */
  lemma InitialsOfWords(words: seq<string>)
    requires |words| >= 1
    requires forall i :: 0 <= i < |words| ==> |words[i]| > 0
    requires forall i, j :: 0 <= i < |words| && 0 <= j < |words[i]| ==> words[i][j] != ' '
    ensures Initials(Join(words, ' ')) == Upper(seq(|words|, i requires 0 <= i < |words| => words[i][0]))
  {
    SplitJoin(words, ' ');
    FirstsOfNonEmpty(words);
  }

  lemma {:induction false} FirstsOfNonEmpty(words: seq<string>)
    requires forall i :: 0 <= i < |words| ==> |words[i]| > 0
    ensures Firsts(words) == seq(|words|, i requires 0 <= i < |words| => words[i][0])
  {
    if |words| > 0 {
      FirstsOfNonEmpty(words[1..]);
    }
  }
}

=== FILE: registry.dfy ===
/** The doctor registry: the fixed table from treatment type to an ordered
    pool of qualified doctors. The booking route keeps a four-type copy with
    short doctor records; the treatments route keeps a six-type table whose
    doctors also carry experience, rating and contact. */
module Registry {
  import opened Wrappers

  /** A doctor as attached to an appointment: `{id, name, specialty}`. */
  datatype Doctor = Doctor(id: string, name: string, specialty: string)

  /** A doctor as listed by the treatments route. The rating is kept in
      tenths (4.9 is 49) so that it stays an integer. */
  datatype DoctorProfile = DoctorProfile(doctor: Doctor, experienceYears: nat, ratingTenths: nat, contact: string)

  /** An object literal `{key: pool, ...}` in declaration order. */
  type Table<T> = seq<(string, seq<T>)>

  /** `table[key] || []`: the pool under the first entry with that key, or
      none for an unknown key. */
  function Lookup<T>(table: Table<T>, key: string): seq<T>
  {
    LookupFrom(table, key, 0)
  }

  function LookupFrom<T>(table: Table<T>, key: string, k: nat): seq<T>
    decreases |table| - k
  {
    if k >= |table| then []
    else if table[k].0 == key then table[k].1
    else LookupFrom(table, key, k + 1)
  }

  /** An unknown key gives the empty pool; otherwise the pool beside the
      first entry carrying the key. */
  lemma LookupSpec<T>(table: Table<T>, key: string)
    ensures (forall i :: 0 <= i < |table| ==> table[i].0 != key) ==> Lookup(table, key) == []
    ensures forall i :: 0 <= i < |table| && table[i].0 == key && (forall j :: 0 <= j < i ==> table[j].0 != key) ==>
              Lookup(table, key) == table[i].1
  {
    LookupFromSpec(table, key, 0);
  }

  lemma {:induction false} LookupFromSpec<T>(table: Table<T>, key: string, k: nat)
    ensures (forall i :: k <= i < |table| ==> table[i].0 != key) ==> LookupFrom(table, key, k) == []
    ensures forall i :: k <= i < |table| && table[i].0 == key && (forall j :: k <= j < i ==> table[j].0 != key) ==>
              LookupFrom(table, key, k) == table[i].1
    decreases |table| - k
  {
    if k < |table| && table[k].0 != key {
      LookupFromSpec(table, key, k + 1);
    }
  }

  /** In a table with distinct keys, a listed key's pool is the one stored
      beside it. */
  lemma LookupListed<T>(table: Table<T>, key: string) returns (i: int)
    requires DistinctStrings(Keys(table))
    requires key in Keys(table)
    ensures 0 <= i < |table| && table[i].0 == key && Lookup(table, key) == table[i].1
  {
    var keys := Keys(table);
    LookupSpec(table, key);
    i :| 0 <= i < |keys| && keys[i] == key;
    assert forall j :: 0 <= j < i ==> table[j].0 != key by {
      forall j | 0 <= j < i ensures table[j].0 != key {
        assert keys[j] != keys[i];
      }
    }
  }

  function Keys<T>(table: Table<T>): seq<string>
  {
    seq(|table|, i requires 0 <= i < |table| => table[i].0)
  }

  function Ids(pool: seq<Doctor>): seq<string>
  {
    seq(|pool|, i requires 0 <= i < |pool| => pool[i].id)
  }

  function ProfileDoctors(pool: seq<DoctorProfile>): seq<Doctor>
  {
    seq(|pool|, i requires 0 <= i < |pool| => pool[i].doctor)
  }

  predicate DistinctIds(pool: seq<Doctor>)
  {
    forall i, j :: 0 <= i < j < |pool| ==> pool[i].id != pool[j].id
  }

  predicate DistinctStrings(s: seq<string>)
  {
    forall i, j :: 0 <= i < j < |s| ==> s[i] != s[j]
  }

  /** `pool.find(d => d.id === id)`: the first doctor with that id. */
  function FindDoctor(pool: seq<Doctor>, id: string): (r: Option<Doctor>)
    ensures r.Some? <==> exists i :: 0 <= i < |pool| && pool[i].id == id
    ensures r.Some? ==> exists i :: 0 <= i < |pool| && pool[i] == r.value && r.value.id == id &&
                          forall j :: 0 <= j < i ==> pool[j].id != id
  {
    if |pool| == 0 then None
    else if pool[0].id == id then Some(pool[0])
    else
      var r := FindDoctor(pool[1..], id);
      if r.Some? then
        var i :| 0 <= i < |pool[1..]| && pool[1..][i] == r.value && r.value.id == id && forall j :: 0 <= j < i ==> pool[1..][j].id != id;
        assert pool[i + 1] == r.value;
        r
      else r
  }

  /** With distinct ids, the doctor found is the one entry carrying the id. */
  lemma FindDoctorExact(pool: seq<Doctor>, i: int)
    requires DistinctIds(pool)
    requires 0 <= i < |pool|
    ensures FindDoctor(pool, pool[i].id) == Some(pool[i])
  {
    var r := FindDoctor(pool, pool[i].id);
    var k :| 0 <= k < |pool| && pool[k] == r.value && r.value.id == pool[i].id && forall j :: 0 <= j < k ==> pool[j].id != pool[i].id;
    assert k == i;
  }

  // ---------------------------------------------------------------------
  // The booking table (appointments.js)

  const PanchakarmaDoctors: seq<Doctor> := [
    Doctor("D101", "Dr. Ananya Iyer", "Panchakarma Specialist"),
    Doctor("D102", "Dr. Rohan Deshmukh", "Detox & Rejuvenation"),
    Doctor("D103", "Dr. Meera Patel", "Ayurvedic Physician")]

  const AbhyangaDoctors: seq<Doctor> := [
    Doctor("D201", "Dr. Kavya Nair", "Therapeutic Massage"),
    Doctor("D202", "Dr. Arjun Rao", "Musculoskeletal Care"),
    Doctor("D203", "Dr. Sneha Kulkarni", "Pain Management")]

  const ShirodharaDoctors: seq<Doctor> := [
    Doctor("D301", "Dr. Niharika Sharma", "Stress & Sleep Disorders"),
    Doctor("D302", "Dr. Vivek Menon", "Neurological Wellness"),
    Doctor("D303", "Dr. Priyanka Joshi", "Mind-Body Balance")]

  const UdvartanaDoctors: seq<Doctor> := [
    Doctor("D401", "Dr. Sagar Pawar", "Metabolic Health"),
    Doctor("D402", "Dr. Aishwarya G", "Weight Management"),
    Doctor("D403", "Dr. Harshita Jain", "Skin & Detox")]

  const BookingTable: Table<Doctor> := [
    ("Panchakarma", PanchakarmaDoctors),
    ("Abhyanga", AbhyangaDoctors),
    ("Shirodhara", ShirodharaDoctors),
    ("Udvartana", UdvartanaDoctors)
  ]

  /** The booking pool for a treatment type (empty when unknown). */
  function BookingPool(treatmentType: string): seq<Doctor>
  {
    Lookup(BookingTable, treatmentType)
  }

  // ---------------------------------------------------------------------
  // The treatments table (treatments.js)

  const PanchakarmaProfiles: seq<DoctorProfile> := [
    DoctorProfile(Doctor("D101", "Dr. Ananya Iyer", "Panchakarma Specialist"), 12, 49, "+91 98000 11111"),
    DoctorProfile(Doctor("D102", "Dr. Rohan Deshmukh", "Detox & Rejuvenation"), 10, 48, "+91 98000 22222"),
    DoctorProfile(Doctor("D103", "Dr. Meera Patel", "Ayurvedic Physician"), 9, 47, "+91 98000 33333")]

  const AbhyangaProfiles: seq<DoctorProfile> := [
    DoctorProfile(Doctor("D201", "Dr. Kavya Nair", "Therapeutic Massage"), 8, 48, "+91 98111 11111"),
    DoctorProfile(Doctor("D202", "Dr. Arjun Rao", "Musculoskeletal Care"), 11, 47, "+91 98111 22222"),
    DoctorProfile(Doctor("D203", "Dr. Sneha Kulkarni", "Pain Management"), 7, 46, "+91 98111 33333")]

  const ShirodharaProfiles: seq<DoctorProfile> := [
    DoctorProfile(Doctor("D301", "Dr. Niharika Sharma", "Stress & Sleep Disorders"), 10, 49, "+91 98222 11111"),
    DoctorProfile(Doctor("D302", "Dr. Vivek Menon", "Neurological Wellness"), 12, 48, "+91 98222 22222"),
    DoctorProfile(Doctor("D303", "Dr. Priyanka Joshi", "Mind-Body Balance"), 9, 47, "+91 98222 33333")]

  const UdvartanaProfiles: seq<DoctorProfile> := [
    DoctorProfile(Doctor("D401", "Dr. Sagar Pawar", "Metabolic Health"), 8, 47, "+91 98333 11111"),
    DoctorProfile(Doctor("D402", "Dr. Aishwarya G", "Weight Management"), 10, 48, "+91 98333 22222"),
    DoctorProfile(Doctor("D403", "Dr. Harshita Jain", "Skin & Detox"), 6, 46, "+91 98333 33333")]

  const NasyaProfiles: seq<DoctorProfile> := [
    DoctorProfile(Doctor("D501", "Dr. Ritu Kapoor", "ENT & Respiratory"), 9, 47, "+91 98444 11111"),
    DoctorProfile(Doctor("D502", "Dr. Aman Gupta", "Sinus & Allergy Care"), 7, 46, "+91 98444 22222"),
    DoctorProfile(Doctor("D503", "Dr. Neha Bansal", "Head & Neck Therapy"), 8, 47, "+91 98444 33333")]

  const BastiProfiles: seq<DoctorProfile> := [
    DoctorProfile(Doctor("D601", "Dr. Kiran Shetty", "Digestive Wellness"), 11, 48, "+91 98555 11111"),
    DoctorProfile(Doctor("D602", "Dr. Pooja Rao", "Gut Health & Detox"), 10, 47, "+91 98555 22222"),
    DoctorProfile(Doctor("D603", "Dr. Mahesh I", "Colon Therapy"), 9, 46, "+91 98555 33333")]

  /** The treatments route's table. */
  const TreatmentTable: Table<DoctorProfile> := [
    ("Panchakarma", PanchakarmaProfiles),
    ("Abhyanga", AbhyangaProfiles),
    ("Shirodhara", ShirodharaProfiles),
    ("Udvartana", UdvartanaProfiles),
    ("Nasya", NasyaProfiles),
    ("Basti", BastiProfiles)
  ]

  /** The treatments-route pool for a treatment type (empty when unknown). */
  function TreatmentPool(treatmentType: string): seq<DoctorProfile>
  {
    Lookup(TreatmentTable, treatmentType)
  }

  /** The treatments table has six distinct keys, each pool holding exactly
      three doctors with pairwise distinct ids. */
  lemma TreatmentTableShape()
    ensures Keys(TreatmentTable) == ["Panchakarma", "Abhyanga", "Shirodhara", "Udvartana", "Nasya", "Basti"]
    ensures DistinctStrings(Keys(TreatmentTable))
    ensures forall i :: 0 <= i < |TreatmentTable| ==>
              |TreatmentTable[i].1| == 3 && DistinctIds(ProfileDoctors(TreatmentTable[i].1))
  {
  }

  /** The booking table has four distinct keys with three distinct-id doctors each. */
  lemma BookingTableShape()
    ensures Keys(BookingTable) == ["Panchakarma", "Abhyanga", "Shirodhara", "Udvartana"]
    ensures DistinctStrings(Keys(BookingTable))
    ensures forall i :: 0 <= i < |BookingTable| ==> |BookingTable[i].1| == 3 && DistinctIds(BookingTable[i].1)
  {
  }

  /** The four types the booking table knows have the same doctors, in the
      same order, in both tables. */
  lemma SharedPoolsAgree(treatmentType: string)
    requires treatmentType in Keys(BookingTable)
    ensures BookingPool(treatmentType) == ProfileDoctors(TreatmentPool(treatmentType))
  {
    assert Keys(BookingTable) == ["Panchakarma", "Abhyanga", "Shirodhara", "Udvartana"];
    if treatmentType == "Panchakarma" {
      SharedPoolAt0();
    } else if treatmentType == "Abhyanga" {
      SharedPoolAt1();
    } else if treatmentType == "Shirodhara" {
      SharedPoolAt2();
    } else if treatmentType == "Udvartana" {
      SharedPoolAt3();
    }
  }

  lemma SharedPoolAt0()
    ensures BookingPool("Panchakarma") == ProfileDoctors(TreatmentPool("Panchakarma"))
  {
    LookupFirst(BookingTable, "Panchakarma");
    LookupFirst(TreatmentTable, "Panchakarma");
    DoctorsAt0();
  }

  lemma SharedPoolAt1()
    ensures BookingPool("Abhyanga") == ProfileDoctors(TreatmentPool("Abhyanga"))
  {
    assert BookingTable[0].0[0] != 'A' && TreatmentTable[0].0[0] != 'A';
    LookupAt(BookingTable, "Abhyanga", 1);
    LookupAt(TreatmentTable, "Abhyanga", 1);
    DoctorsAt1();
  }

  lemma SharedPoolAt2()
    ensures BookingPool("Shirodhara") == ProfileDoctors(TreatmentPool("Shirodhara"))
  {
    assert BookingTable[0].0[0] != 'S' && BookingTable[1].0[0] != 'S';
    assert TreatmentTable[0].0[0] != 'S' && TreatmentTable[1].0[0] != 'S';
    LookupAt(BookingTable, "Shirodhara", 2);
    LookupAt(TreatmentTable, "Shirodhara", 2);
    DoctorsAt2();
  }

  lemma SharedPoolAt3()
    ensures BookingPool("Udvartana") == ProfileDoctors(TreatmentPool("Udvartana"))
  {
    assert BookingTable[0].0[0] != 'U' && BookingTable[1].0[0] != 'U' && BookingTable[2].0[0] != 'U';
    assert TreatmentTable[0].0[0] != 'U' && TreatmentTable[1].0[0] != 'U' && TreatmentTable[2].0[0] != 'U';
    LookupAt(BookingTable, "Udvartana", 3);
    LookupAt(TreatmentTable, "Udvartana", 3);
    DoctorsAt3();
  }

  /** The key of the first entry finds that entry's pool. */
  lemma LookupFirst<T>(table: Table<T>, key: string)
    requires |table| > 0 && table[0].0 == key
    ensures Lookup(table, key) == table[0].1
  {
  }

  /** A key first listed at `i` finds the pool beside it. */
  lemma LookupAt<T>(table: Table<T>, key: string, i: nat)
    requires i < |table| && table[i].0 == key
    requires forall j :: 0 <= j < i ==> table[j].0 != key
    ensures Lookup(table, key) == table[i].1
  {
    LookupSpec(table, key);
  }

  lemma DoctorsAt0()
    ensures ProfileDoctors(PanchakarmaProfiles) == PanchakarmaDoctors
  {
    SameDoctors(PanchakarmaProfiles, PanchakarmaDoctors);
  }

  lemma DoctorsAt1()
    ensures ProfileDoctors(AbhyangaProfiles) == AbhyangaDoctors
  {
    SameDoctors(AbhyangaProfiles, AbhyangaDoctors);
  }

  lemma DoctorsAt2()
    ensures ProfileDoctors(ShirodharaProfiles) == ShirodharaDoctors
  {
    SameDoctors(ShirodharaProfiles, ShirodharaDoctors);
  }

  lemma DoctorsAt3()
    ensures ProfileDoctors(UdvartanaProfiles) == UdvartanaDoctors
  {
    SameDoctors(UdvartanaProfiles, UdvartanaDoctors);
  }

  /** Three profiles carrying three doctors, in order. */
  lemma SameDoctors(profiles: seq<DoctorProfile>, doctors: seq<Doctor>)
    requires |profiles| == 3 && |doctors| == 3
    requires profiles[0].doctor == doctors[0] && profiles[1].doctor == doctors[1] && profiles[2].doctor == doctors[2]
    ensures ProfileDoctors(profiles) == doctors
  {
  }

  /** A lookup gives either nothing or one of the table's pools. */
  lemma LookupIsSomePool<T>(table: Table<T>, key: string, k: nat)
    ensures LookupFrom(table, key, k) == [] || exists i :: k <= i < |table| && LookupFrom(table, key, k) == table[i].1
    decreases |table| - k
  {
    if k < |table| && table[k].0 != key {
      LookupIsSomePool(table, key, k + 1);
    }
  }

  /** Every doctor of a booking pool has an id, so the index can record
      them. */
  lemma BookingIdsPresent(treatmentType: string)
    ensures forall i :: 0 <= i < |BookingPool(treatmentType)| ==> BookingPool(treatmentType)[i].id != ""
  {
    LookupIsSomePool(BookingTable, treatmentType, 0);
    assert forall i, j :: 0 <= i < |BookingTable| && 0 <= j < |BookingTable[i].1| ==> BookingTable[i].1[j].id != "";
  }

  /** A type the booking table does not list has an empty booking pool. */
  lemma UnknownTypeHasNoPool(treatmentType: string)
    requires treatmentType !in Keys(BookingTable)
    ensures BookingPool(treatmentType) == []
  {
    LookupSpec(BookingTable, treatmentType);
    assert forall i :: 0 <= i < |BookingTable| ==> BookingTable[i].0 == Keys(BookingTable)[i];
  }

  /** Every booking pool has pairwise distinct ids, so "the doctor with id x
      in the pool" is well defined. */
  lemma BookingPoolDistinct(treatmentType: string)
    ensures DistinctIds(BookingPool(treatmentType))
  {
    LookupIsSomePool(BookingTable, treatmentType, 0);
    BookingTableShape();
  }
}

=== FILE: scheduler.dfy ===
/** The practitioner's day view: today's appointments with 12-hour times,
    the "current" highlight, the per-status quick actions and the summary
    counts. A clock time stands for its zero-padded `HH:MM` text. */
module AppointmentScheduler {
  import opened Seqs
  import opened Text

  datatype Clock = Clock(hour: nat, minute: nat)

  /** A time of day as the fixture and `getCurrentTime()` produce it. */
  predicate ValidClock(c: Clock)
  {
    c.hour < 24 && c.minute < 60
  }

  /** The `HH:MM` text, each part padded to two places. */
  function ClockText(c: Clock): string
  {
    TwoDigits(c.hour) + ":" + TwoDigits(c.minute)
  }

  function Minutes(c: Clock): nat
  {
    c.hour * 60 + c.minute
  }

  datatype Appointment = Appointment(id: nat, patientName: string, time: Clock, duration: nat, status: string)

  const MockToday: seq<Appointment> := [
    Appointment(1, "Rajesh Kumar", Clock(9, 0), 60, "completed"),
    Appointment(2, "Priya Sharma", Clock(10, 30), 45, "completed"),
    Appointment(3, "Amit Patel", Clock(11, 30), 90, "in-progress"),
    Appointment(4, "Sunita Gupta", Clock(14, 0), 60, "upcoming"),
    Appointment(5, "Vikram Singh", Clock(15, 30), 75, "upcoming"),
    Appointment(6, "Meera Reddy", Clock(17, 0), 30, "upcoming")
  ]

  // ---------------------------------------------------------------------
  // Reading the text back

  /** `split(':').map(Number)` recovers the hour and minute of a clock text. */
  lemma ClockTextParses(c: Clock)
    requires c.hour < 100 && c.minute < 100
    ensures Split(ClockText(c), ':') == [TwoDigits(c.hour), TwoDigits(c.minute)]
    ensures forall i :: 0 <= i < 2 ==> IsDigit(TwoDigits(c.hour)[i]) && IsDigit(TwoDigits(c.minute)[i])
    ensures DigitsValue(TwoDigits(c.hour)) == c.hour && DigitsValue(TwoDigits(c.minute)) == c.minute
  {
    TwoDigitsChars(c.hour);
    TwoDigitsChars(c.minute);
    PadStartValue(c.hour, 2);
    PadStartValue(c.minute, 2);
    var pieces := [TwoDigits(c.hour), TwoDigits(c.minute)];
    assert Join(pieces, ':') == ClockText(c);
    SplitJoin(pieces, ':');
  }

  // ---------------------------------------------------------------------
  // 12-hour display

  /** `hour % 12 || 12` and the `PM` flag of `formatTime`. */
  function TwelveHour(hour: nat): (r: (nat, bool))
    ensures 1 <= r.0 <= 12
    ensures r.0 % 12 == hour % 12
    ensures r.1 <==> hour >= 12
  {
    (if hour % 12 == 0 then 12 else hour % 12, hour >= 12)
  }

  /** Reading a 12-hour display back: 12 AM is midnight, 12 PM is noon. */
  function From12Hour(display: nat, pm: bool): nat
  {
    display % 12 + if pm then 12 else 0
  }

  /** Over one day the 12-hour display loses nothing: it reads back as the
      hour it came from, so two different hours never display alike. */
  lemma TwelveHourRoundTrip(hour: nat)
    requires hour < 24
    ensures From12Hour(TwelveHour(hour).0, TwelveHour(hour).1) == hour
  {
  }

  lemma TwelveHourInjective(a: nat, b: nat)
    requires a < 24 && b < 24 && TwelveHour(a) == TwelveHour(b)
    ensures a == b
  {
    TwelveHourRoundTrip(a);
    TwelveHourRoundTrip(b);
  }

  /** `formatTime(time)`: the 12-hour hour, a colon, the minute text
      unchanged, and ` AM` or ` PM`. */
  function FormatTime(c: Clock): string
  {
    var suffix := if c.hour >= 12 then " PM" else " AM";
    NatToString(TwelveHour(c.hour).0) + ":" + TwoDigits(c.minute) + suffix
  }

  /** Where the hour, the colon, the minutes and the suffix sit in a
      formatted time. */
  lemma FormatTimeLayout(c: Clock)
    ensures var r := FormatTime(c);
            var d := NatToString(TwelveHour(c.hour).0);
            && |r| == |d| + |TwoDigits(c.minute)| + 4
            && r[..|d|] == d
            && r[|d|] == ':'
            && r[|d| + 1..|r| - 3] == TwoDigits(c.minute)
            && r[|r| - 3..] == (if c.hour >= 12 then " PM" else " AM")
  {
    var display := TwelveHour(c.hour).0;
    var d, m := NatToString(display), TwoDigits(c.minute);
    var suffix := if c.hour >= 12 then " PM" else " AM";
    Formatted(c, display, d, m, suffix);
    FourParts(FormatTime(c), d, m, suffix);
  }

  /** Where the pieces of `d:m` followed by a three-character suffix sit. */
  lemma FourParts(r: string, d: string, m: string, suffix: string)
    requires r == d + ":" + m + suffix && |suffix| == 3
    ensures && |r| == |d| + |m| + 4
            && r[..|d|] == d
            && r[|d|] == ':'
            && r[|d| + 1..|r| - 3] == m
            && r[|r| - 3..] == suffix
  {
    assert r[..|d|] == d;
    assert r[|d| + 1..|r| - 3] == m;
    assert r[|r| - 3..] == suffix;
  }

  /** Reading a formatted time back: the text before the colon and the
      `AM`/`PM` suffix give the 24-hour hour again, and the minutes follow
      the colon. */
  lemma FormatTimeReadsBack(c: Clock)
    requires ValidClock(c)
    ensures var r := FormatTime(c);
            var pieces := Split(r, ':');
            && |pieces| == 2 && |pieces[1]| >= 2
            && (forall i :: 0 <= i < |pieces[0]| ==> IsDigit(pieces[0][i]))
            && From12Hour(DigitsValue(pieces[0]), r[|r| - 2..] == "PM") == c.hour
            && pieces[1][..2] == TwoDigits(c.minute)
  {
    var r := FormatTime(c);
    var display := TwelveHour(c.hour).0;
    var d := NatToString(display);
    var m := TwoDigits(c.minute);
    var suffix := if c.hour >= 12 then " PM" else " AM";
    Formatted(c, display, d, m, suffix);
    TwoDigitsChars(c.minute);
    ReadBackParts(r, d, m, suffix);
    NatToStringRoundTrip(display);
    TwelveHourRoundTrip(c.hour);
  }

  /** Splitting `d:m` plus a colon-free three-character suffix at the colon,
      and the last two characters. */
  lemma ReadBackParts(r: string, d: string, m: string, suffix: string)
    requires r == d + ":" + m + suffix
    requires forall j :: 0 <= j < |d| ==> IsDigit(d[j])
    requires |m| == 2 && m[0] != ':' && m[1] != ':'
    requires suffix == " PM" || suffix == " AM"
    ensures var pieces := Split(r, ':');
            && |pieces| == 2 && pieces[0] == d
            && |pieces[1]| >= 2 && pieces[1][..2] == m
            && (r[|r| - 2..] == "PM" <==> suffix == " PM")
  {
    var tail := m + suffix;
    assert forall j :: 0 <= j < |tail| ==> tail[j] != ':';
    assert r == d + ":" + tail;
    SplitAtColon(d, tail);
    assert tail[..2] == m;
    assert r[|r| - 2..] == suffix[1..];
  }

  /** A colon-free head and tail joined by one colon split back apart. */
  lemma SplitAtColon(head: string, tail: string)
    requires forall j :: 0 <= j < |head| ==> IsDigit(head[j])
    requires forall j :: 0 <= j < |tail| ==> tail[j] != ':'
    ensures Split(head + ":" + tail, ':') == [head, tail]
  {
    var pieces := [head, tail];
    assert pieces[1..] == [tail];
    assert Join(pieces, ':') == head + ":" + tail;
    SplitJoin(pieces, ':');
  }

  /** Noon and midnight both show as 12. */
  lemma NoonAndMidnight()
    ensures FormatTime(Clock(0, 5)) == "12:05 AM"
    ensures FormatTime(Clock(12, 5)) == "12:05 PM"
    ensures FormatTime(Clock(14, 0)) == "2:00 PM"
  {
    Midnight();
    Noon();
    TwoPm();
  }

  lemma Midnight()
    ensures FormatTime(Clock(0, 5)) == "12:05 AM"
  {
    Twelve();
    FiveMinutes();
    Formatted(Clock(0, 5), 12, "12", "05", " AM");
  }

  lemma Noon()
    ensures FormatTime(Clock(12, 5)) == "12:05 PM"
  {
    Twelve();
    FiveMinutes();
    Formatted(Clock(12, 5), 12, "12", "05", " PM");
  }

  lemma TwoPm()
    ensures FormatTime(Clock(14, 0)) == "2:00 PM"
  {
    var two := NatToString(2);
    NoMinutes();
    Formatted(Clock(14, 0), 2, two, "00", " PM");
    assert two == "2";
  }

  lemma NoMinutes()
    ensures TwoDigits(0) == "00"
  {
    TwoDigitsChars(0);
  }

  lemma FiveMinutes()
    ensures TwoDigits(5) == "05"
  {
    TwoDigitsChars(5);
  }

  /** `FormatTime` with its pieces named. */
  lemma Formatted(c: Clock, display: nat, d: string, m: string, suffix: string)
    requires TwelveHour(c.hour).0 == display && NatToString(display) == d && TwoDigits(c.minute) == m
    requires suffix == if c.hour >= 12 then " PM" else " AM"
    ensures FormatTime(c) == d + ":" + m + suffix
  {
  }

  lemma Twelve()
    ensures NatToString(12) == "12"
  {
    assert NatToString(12) == NatToString(1) + [DigitChar(2)];
  }

  // ---------------------------------------------------------------------
  // The current appointment

  /** The end of an appointment, as computed for the highlight: start plus
      duration, split into hours and minutes, with no wrap past midnight. */
  function EndClock(a: Appointment): (r: Clock)
    ensures r.minute < 60
    ensures Minutes(r) == Minutes(a.time) + a.duration
  {
    var total := Minutes(a.time) + a.duration;
    Clock(total / 60, total % 60)
  }

  /** `isCurrentAppointment(appointment)` at the time `now`: the texts are
      compared as strings, `start <= now <= end`. */
  predicate IsCurrent(a: Appointment, now: Clock)
  {
    StrLe(ClockText(a.time), ClockText(now)) && StrLe(ClockText(now), ClockText(EndClock(a)))
  }

  /** `<` on two five-character texts with the same middle character. */
  lemma FiveCharLess(a: string, b: string)
    requires |a| == 5 && |b| == 5 && a[2] == b[2]
    ensures StrLess(a, b) <==>
              a[0] < b[0] || (a[0] == b[0] && (a[1] < b[1] || (a[1] == b[1] &&
              (a[3] < b[3] || (a[3] == b[3] && a[4] < b[4])))))
  {
    var a1, b1 := a[1..], b[1..];
    var a2, b2 := a1[1..], b1[1..];
    var a3, b3 := a2[1..], b2[1..];
    var a4, b4 := a3[1..], b3[1..];
    assert a4 == [a[4]] && b4 == [b[4]];
    assert StrLess(a4, b4) <==> a[4] < b[4] by {
      assert a4[1..] == [] && b4[1..] == [];
    }
    assert StrLess(a3, b3) <==> a[3] < b[3] || (a[3] == b[3] && StrLess(a4, b4));
    assert StrLess(a2, b2) <==> StrLess(a3, b3);
    assert StrLess(a1, b1) <==> a[1] < b[1] || (a[1] == b[1] && StrLess(a2, b2));
  }

  /** The characters of a clock text with two-digit parts. */
  lemma ClockTextChars(x: Clock)
    requires x.hour < 100 && x.minute < 100
    ensures var t := ClockText(x);
            && |t| == 5 && t[2] == ':'
            && t[0] as int - '0' as int == x.hour / 10 && t[1] as int - '0' as int == x.hour % 10
            && t[3] as int - '0' as int == x.minute / 10 && t[4] as int - '0' as int == x.minute % 10
  {
    TwoDigitsChars(x.hour);
    TwoDigitsChars(x.minute);
    var a, b := TwoDigits(x.hour), TwoDigits(x.minute);
    var t := ClockText(x);
    assert t == a + ":" + b;
    assert t[0] == a[0] && t[1] == a[1] && t[2] == ':' && t[3] == b[0] && t[4] == b[1];
  }

  /** Clock texts in two-digit hours compare as (hour, minute) pairs. */
  lemma ClockTextLex(x: Clock, y: Clock)
    requires x.hour < 100 && y.hour < 100 && x.minute < 100 && y.minute < 100
    ensures StrLess(ClockText(x), ClockText(y)) <==>
              x.hour < y.hour || (x.hour == y.hour && x.minute < y.minute)
  {
    var tx, ty := ClockText(x), ClockText(y);
    ClockTextChars(x);
    ClockTextChars(y);
    FiveCharLess(tx, ty);
    PairLess(tx[0], tx[1], ty[0], ty[1], x.hour, y.hour);
    PairLess(tx[3], tx[4], ty[3], ty[4], x.minute, y.minute);
  }

  /** Two digit characters in a row compare as the numbers they spell. */
  lemma PairLess(a0: char, a1: char, b0: char, b1: char, m: nat, n: nat)
    requires m < 100 && n < 100
    requires a0 as int - '0' as int == m / 10 && a1 as int - '0' as int == m % 10
    requires b0 as int - '0' as int == n / 10 && b1 as int - '0' as int == n % 10
    ensures (a0 < b0 || (a0 == b0 && a1 < b1)) <==> m < n
    ensures (a0 == b0 && a1 == b1) <==> m == n
  {
    DigitsOrder(m, n);
  }

  /** Different two-digit clocks have different texts. */
  lemma ClockTextInjective(x: Clock, y: Clock)
    requires x.hour < 100 && y.hour < 100 && x.minute < 100 && y.minute < 100
    ensures ClockText(x) == ClockText(y) <==> x == y
  {
    ClockTextChars(x);
    ClockTextChars(y);
    DigitsOrder(x.hour, y.hour);
    DigitsOrder(x.minute, y.minute);
    if ClockText(x) == ClockText(y) {
      var a, b := ClockText(x), ClockText(y);
      assert a[0] == b[0] && a[1] == b[1] && a[3] == b[3] && a[4] == b[4];
    }
  }

  /** Comparing two padded numbers digit by digit is comparing them. */
  lemma DigitsOrder(m: nat, n: nat)
    requires m < 100 && n < 100
    ensures m < n <==> m / 10 < n / 10 || (m / 10 == n / 10 && m % 10 < n % 10)
    ensures m == n <==> m / 10 == n / 10 && m % 10 == n % 10
  {
  }

  /** Two-digit clock texts compare as the clocks do. */
  lemma ClockTextOrder(x: Clock, y: Clock)
    requires x.hour < 100 && y.hour < 100 && x.minute < 60 && y.minute < 60
    ensures StrLe(ClockText(x), ClockText(y)) <==> Minutes(x) <= Minutes(y)
  {
    ClockTextLex(x, y);
    ClockTextInjective(x, y);
    if x.hour < y.hour {
      assert x.hour * 60 + 60 <= y.hour * 60;
    } else if x.hour > y.hour {
      assert y.hour * 60 + 60 <= x.hour * 60;
    }
  }

  /** An appointment of a valid day is current exactly while the clock is
      between its start and its end, both included, as long as the end
      stays within two-digit hours. */
  lemma IsCurrentMeansWithin(a: Appointment, now: Clock)
    requires ValidClock(a.time) && ValidClock(now)
    requires Minutes(a.time) + a.duration < 6000
    ensures IsCurrent(a, now) <==> Minutes(a.time) <= Minutes(now) <= Minutes(a.time) + a.duration
  {
    ClockTextOrder(a.time, now);
    ClockTextOrder(now, EndClock(a));
  }

  /** An appointment running past midnight ends at hour 24 or later, and at
      00:00 the next morning it is no longer current. */
  lemma NoWrapPastMidnight()
    ensures EndClock(Appointment(7, "Late", Clock(23, 30), 60, "upcoming")) == Clock(24, 30)
    ensures !IsCurrent(Appointment(7, "Late", Clock(23, 30), 60, "upcoming"), Clock(0, 0))
  {
    IsCurrentMeansWithin(Appointment(7, "Late", Clock(23, 30), 60, "upcoming"), Clock(0, 0));
  }

  // ---------------------------------------------------------------------
  // Quick actions and the summary

  datatype Action = StartSession | CallPatient | CompleteSession | AddNotes | Reschedule

  /** The quick-action row: start and call for an upcoming appointment,
      complete and notes for one in progress, each followed by reschedule;
      nothing otherwise. */
  function QuickActions(status: string): (r: seq<Action>)
    ensures |r| > 0 <==> status == "upcoming" || status == "in-progress"
    ensures |r| > 0 ==> |r| == 3 && r[2] == Reschedule
    ensures StartSession in r <==> status == "upcoming"
    ensures CompleteSession in r <==> status == "in-progress"
  {
    if status == "upcoming" then [StartSession, CallPatient, Reschedule]
    else if status == "in-progress" then [CompleteSession, AddNotes, Reschedule]
    else []
  }

  function HasStatus(s: string): Appointment -> bool
  {
    (a: Appointment) => a.status == s
  }

  datatype Summary = Summary(completed: nat, inProgress: nat, upcoming: nat)

  /** "Today's Summary": the number of appointments of each status. */
  function TodaySummary(today: seq<Appointment>): (r: Summary)
    ensures r.completed == |Filter(HasStatus("completed"), today)|
    ensures r.inProgress == |Filter(HasStatus("in-progress"), today)|
    ensures r.upcoming == |Filter(HasStatus("upcoming"), today)|
  {
    CountIsFilterLength(HasStatus("completed"), today);
    CountIsFilterLength(HasStatus("in-progress"), today);
    CountIsFilterLength(HasStatus("upcoming"), today);
    Summary(Count(HasStatus("completed"), today), Count(HasStatus("in-progress"), today),
            Count(HasStatus("upcoming"), today))
  }

  predicate KnownStatus(a: Appointment)
  {
    a.status == "completed" || a.status == "in-progress" || a.status == "upcoming"
  }

  /** When every status is one of the three, the summary accounts for every
      appointment exactly once. */
  lemma SummaryAddsUp(today: seq<Appointment>)
    requires forall i :: 0 <= i < |today| ==> KnownStatus(today[i])
    ensures var s := TodaySummary(today);
            s.completed + s.inProgress + s.upcoming == |today|
  {
    CountsAddUp(today);
    CountIsFilterLength(HasStatus("completed"), today);
    CountIsFilterLength(HasStatus("in-progress"), today);
    CountIsFilterLength(HasStatus("upcoming"), today);
  }

  lemma {:induction false} CountsAddUp(today: seq<Appointment>)
    requires forall i :: 0 <= i < |today| ==> KnownStatus(today[i])
    ensures Count(HasStatus("completed"), today) + Count(HasStatus("in-progress"), today)
            + Count(HasStatus("upcoming"), today) == |today|
  {
    if |today| > 0 {
      CountsAddUp(today[1..]);
      assert KnownStatus(today[0]);
    }
  }
}

=== FILE: seqs.dfy ===
/** Generic sequence operations shared by the model: order-preserving
    filtering, pointwise update, summation, and a stable insertion sort.
    JavaScript's `Array.prototype.filter`, `map`, `reduce` and the (stable)
    `sort` are all expressed through these. */
module Seqs {

  /** `r` can be obtained from `s` by deleting elements (order kept). */
  ghost predicate IsSubsequence<T>(r: seq<T>, s: seq<T>)
    decreases |s|
  {
    |r| == 0 || (|s| > 0 && ((r[0] == s[0] && IsSubsequence(r[1..], s[1..])) || IsSubsequence(r, s[1..])))
  }

  /** Every sequence is a subsequence of itself. */
  lemma {:induction false} SubsequenceRefl<T>(s: seq<T>)
    ensures IsSubsequence(s, s)
    decreases |s|
  {
    if |s| > 0 {
      SubsequenceRefl(s[1..]);
    }
  }

  /** The elements of `s` that satisfy `p`, in their original order. */
  function Filter<T>(p: T -> bool, s: seq<T>): (r: seq<T>)
    ensures |r| <= |s|
    ensures forall i :: 0 <= i < |r| ==> r[i] in s && p(r[i])
    ensures forall i :: 0 <= i < |s| && p(s[i]) ==> s[i] in r
    ensures IsSubsequence(r, s)
    ensures |r| == Count(p, s)
  {
    if |s| == 0 then []
    else if p(s[0]) then [s[0]] + Filter(p, s[1..])
    else Filter(p, s[1..])
  }

  /** Filtering distributes over concatenation: it keeps relative order. */
  lemma {:induction false} FilterConcat<T>(p: T -> bool, a: seq<T>, b: seq<T>)
    ensures Filter(p, a + b) == Filter(p, a) + Filter(p, b)
    decreases |a|
  {
    if |a| == 0 {
      assert a + b == b;
    } else {
      assert (a + b)[1..] == a[1..] + b;
      FilterConcat(p, a[1..], b);
    }
  }

  /** A predicate that holds everywhere on `s` removes nothing. */
  lemma {:induction false} FilterKeepsAll<T>(p: T -> bool, s: seq<T>)
    requires forall i :: 0 <= i < |s| ==> p(s[i])
    ensures Filter(p, s) == s
    decreases |s|
  {
    if |s| > 0 {
      FilterKeepsAll(p, s[1..]);
    }
  }

  /** Two predicates that agree on the elements of `s` filter it alike. */
  lemma {:induction false} FilterExt<T>(p: T -> bool, q: T -> bool, s: seq<T>)
    requires forall i :: 0 <= i < |s| ==> p(s[i]) == q(s[i])
    ensures Filter(p, s) == Filter(q, s)
    decreases |s|
  {
    if |s| > 0 {
      FilterExt(p, q, s[1..]);
    }
  }

  /** Filtering by `q` and then by `p` is filtering by any `r` that is
      their conjunction on the elements of `s`. */
  lemma {:induction false} FilterTwice<T>(p: T -> bool, q: T -> bool, r: T -> bool, s: seq<T>)
    requires forall i :: 0 <= i < |s| ==> r(s[i]) == (q(s[i]) && p(s[i]))
    ensures Filter(p, Filter(q, s)) == Filter(r, s)
    decreases |s|
  {
    if |s| > 0 {
      FilterTwice(p, q, r, s[1..]);
    }
  }

  /** Filtering twice is filtering once by the conjunction. */
  lemma {:induction false} FilterFilter<T>(p: T -> bool, q: T -> bool, s: seq<T>)
    ensures Filter(p, Filter(q, s)) == Filter(x => q(x) && p(x), s)
    decreases |s|
  {
    if |s| > 0 {
      FilterFilter(p, q, s[1..]);
    }
  }

  /** `findIndex`: the position of the first element satisfying `p`, or -1. */
  function FindIndex<T>(p: T -> bool, s: seq<T>): (i: int)
    ensures -1 <= i < |s|
    ensures i == -1 <==> forall j :: 0 <= j < |s| ==> !p(s[j])
    ensures 0 <= i ==> p(s[i]) && forall j :: 0 <= j < i ==> !p(s[j])
  {
    if |s| == 0 then -1
    else if p(s[0]) then 0
    else
      var k := FindIndex(p, s[1..]);
      if k == -1 then -1 else k + 1
  }

  /** Number of elements satisfying `p`. */
  function Count<T>(p: T -> bool, s: seq<T>): (n: nat)
    ensures n <= |s|
    ensures n == 0 <==> forall i :: 0 <= i < |s| ==> !p(s[i])
    ensures n == |s| <==> forall i :: 0 <= i < |s| ==> p(s[i])
  {
    if |s| == 0 then 0
    else (if p(s[0]) then 1 else 0) + Count(p, s[1..])
  }

  /** `Count` over five elements, spelled out. */
  lemma CountFive<T>(p: T -> bool, s: seq<T>)
    requires |s| == 5
    ensures Count(p, s) == (if p(s[0]) then 1 else 0) + (if p(s[1]) then 1 else 0) +
              (if p(s[2]) then 1 else 0) + (if p(s[3]) then 1 else 0) + (if p(s[4]) then 1 else 0)
  {
    assert s[1..][1..][1..][1..][1..] == [];
  }

  /** Counting is the length of the filtered sequence. */
  lemma {:induction false} CountIsFilterLength<T>(p: T -> bool, s: seq<T>)
    ensures Count(p, s) == |Filter(p, s)|
    decreases |s|
  {
    if |s| > 0 {
      CountIsFilterLength(p, s[1..]);
    }
  }

  /** Sum of `f` over the elements of `s` (a `reduce` with 0). */
  function Sum<T>(f: T -> int, s: seq<T>): int
  {
    if |s| == 0 then 0 else f(s[0]) + Sum(f, s[1..])
  }

  lemma {:induction false} SumConcat<T>(f: T -> int, a: seq<T>, b: seq<T>)
    ensures Sum(f, a + b) == Sum(f, a) + Sum(f, b)
    decreases |a|
  {
    if |a| == 0 {
      assert a + b == b;
    } else {
      assert (a + b)[1..] == a[1..] + b;
      SumConcat(f, a[1..], b);
    }
  }

  /** Sum of non-negative terms is non-negative. */
  lemma {:induction false} SumNonNegative<T>(f: T -> int, s: seq<T>)
    requires forall i :: 0 <= i < |s| ==> f(s[i]) >= 0
    ensures Sum(f, s) >= 0
    decreases |s|
  {
    if |s| > 0 {
      SumNonNegative(f, s[1..]);
    }
  }

  /** `map(x => p(x) ? f(x) : x)`: rewrite the matching elements only. */
  function UpdateWhere<T>(p: T -> bool, f: T -> T, s: seq<T>): (r: seq<T>)
    ensures |r| == |s|
    ensures forall i :: 0 <= i < |s| ==> r[i] == (if p(s[i]) then f(s[i]) else s[i])
  {
    if |s| == 0 then [] else [if p(s[0]) then f(s[0]) else s[0]] + UpdateWhere(p, f, s[1..])
  }

  /** The first `n` elements (`slice(0, n)` for `n >= 0`). */
  function Take<T>(s: seq<T>, n: nat): (r: seq<T>)
    ensures |r| == if n < |s| then n else |s|
    ensures r <= s
  {
    if n < |s| then s[..n] else s
  }

  /** The first `n` elements of a sorted sequence are a sorted part of it,
      and every element left out comes no earlier than each one taken. */
  lemma TakeSorted<T>(le: (T, T) -> bool, s: seq<T>, n: nat)
    requires Sorted(le, s)
    ensures Sorted(le, Take(s, n))
    ensures multiset(Take(s, n)) <= multiset(s)
    ensures forall i, x :: 0 <= i < |Take(s, n)| && x in multiset(s) - multiset(Take(s, n)) ==> le(Take(s, n)[i], x)
  {
    var t := Take(s, n);
    forall i, j | 0 <= i < j < |t|
      ensures le(t[i], t[j])
    {
      assert t[i] == s[i] && t[j] == s[j];
    }
    if n < |s| {
      var rest := s[n..];
      assert s == t + rest;
      assert multiset(s) == multiset(t) + multiset(rest);
      assert multiset(s) - multiset(t) == multiset(rest);
      forall i, x | 0 <= i < |t| && x in multiset(s) - multiset(t)
        ensures le(t[i], x)
      {
        assert x in rest;
        var j :| 0 <= j < |rest| && rest[j] == x;
        assert s[n + j] == x && t[i] == s[i];
      }
    } else {
      assert t == s;
    }
  }

  /** The last `n` elements (`slice(-n)` for `n > 0`). */
  function TakeLast<T>(s: seq<T>, n: nat): (r: seq<T>)
    ensures |r| == if n < |s| then n else |s|
    ensures forall i :: 0 <= i < |r| ==> r[i] == s[|s| - |r| + i]
  {
    if n < |s| then s[|s| - n..] else s
  }

  // ---------------------------------------------------------------------
  // Stable sorting

  ghost predicate TotalPreorder<T(!new)>(le: (T, T) -> bool)
  {
    && (forall a, b :: le(a, b) || le(b, a))
    && (forall a, b, c :: le(a, b) && le(b, c) ==> le(a, c))
  }

  ghost predicate Sorted<T>(le: (T, T) -> bool, s: seq<T>)
  {
    forall i, j :: 0 <= i < j < |s| ==> le(s[i], s[j])
  }

  /** Insert `x` after every element that may precede it: the position a
      stable sort gives to the element that came last. */
  function Insert<T>(le: (T, T) -> bool, x: T, s: seq<T>): seq<T>
  {
    if |s| == 0 then [x]
    else if le(s[0], x) then [s[0]] + Insert(le, x, s[1..])
    else [x] + s
  }

  /** Stable insertion sort: what a stable `sort` with comparator `le` yields. */
  function SortBy<T>(le: (T, T) -> bool, s: seq<T>): seq<T>
  {
    if |s| == 0 then [] else Insert(le, s[|s| - 1], SortBy(le, s[..|s| - 1]))
  }

  lemma {:induction false} InsertPermutes<T>(le: (T, T) -> bool, x: T, s: seq<T>)
    ensures multiset(Insert(le, x, s)) == multiset(s) + multiset{x}
    decreases |s|
  {
    if |s| > 0 && le(s[0], x) {
      InsertPermutes(le, x, s[1..]);
      assert s == [s[0]] + s[1..];
    }
  }

  lemma {:induction false} InsertLength<T>(le: (T, T) -> bool, x: T, s: seq<T>)
    ensures |Insert(le, x, s)| == |s| + 1
    decreases |s|
  {
    if |s| > 0 && le(s[0], x) {
      InsertLength(le, x, s[1..]);
    }
  }

  /** Every element of the insertion is `x` or an element of `s`. */
  lemma InsertElements<T>(le: (T, T) -> bool, x: T, s: seq<T>, j: nat)
    requires j < |Insert(le, x, s)|
    ensures Insert(le, x, s)[j] == x || Insert(le, x, s)[j] in s
  {
    var r := Insert(le, x, s);
    InsertPermutes(le, x, s);
    assert r[j] in multiset(r);
  }

  /** In a sorted sequence the head may precede every later element. */
  lemma HeadPrecedes<T>(le: (T, T) -> bool, s: seq<T>, y: T)
    requires Sorted(le, s) && |s| > 0 && y in s[1..]
    ensures le(s[0], y)
  {
    var k :| 0 <= k < |s[1..]| && s[1..][k] == y;
    assert s[k + 1] == y;
  }

  /** Putting an element that may precede all of a sorted sequence in front
      keeps it sorted. */
  lemma ConsSorted<T>(le: (T, T) -> bool, a: T, r: seq<T>)
    requires Sorted(le, r)
    requires forall j :: 0 <= j < |r| ==> le(a, r[j])
    ensures Sorted(le, [a] + r)
  {
    var t := [a] + r;
    forall i, j | 0 <= i < j < |t|
      ensures le(t[i], t[j])
    {
      assert t[j] == r[j - 1];
      if i > 0 {
        assert t[i] == r[i - 1];
      }
    }
  }

  lemma {:induction false} InsertSorted<T(!new)>(le: (T, T) -> bool, x: T, s: seq<T>)
    requires TotalPreorder(le)
    requires Sorted(le, s)
    ensures Sorted(le, Insert(le, x, s))
    decreases |s|
  {
    if |s| == 0 {
    } else if le(s[0], x) {
      var tail := s[1..];
      assert Sorted(le, tail) by {
        forall i, j | 0 <= i < j < |tail|
          ensures le(tail[i], tail[j])
        {
          assert tail[i] == s[i + 1] && tail[j] == s[j + 1];
        }
      }
      InsertSorted(le, x, tail);
      var r := Insert(le, x, tail);
      forall j | 0 <= j < |r|
        ensures le(s[0], r[j])
      {
        InsertElements(le, x, tail, j);
        if r[j] != x {
          HeadPrecedes(le, s, r[j]);
        }
      }
      ConsSorted(le, s[0], r);
      assert Insert(le, x, s) == [s[0]] + r;
    } else {
      forall j | 0 <= j < |s|
        ensures le(x, s[j])
      {
        assert le(s[0], s[j]) || j == 0;
      }
      ConsSorted(le, x, s);
    }
  }

  /** Sorting orders the elements and permutes them. */
  lemma {:induction false} SortBySortsAndPermutes<T(!new)>(le: (T, T) -> bool, s: seq<T>)
    requires TotalPreorder(le)
    ensures Sorted(le, SortBy(le, s))
    ensures multiset(SortBy(le, s)) == multiset(s)
    ensures |SortBy(le, s)| == |s|
    decreases |s|
  {
    if |s| > 0 {
      var init := s[..|s| - 1];
      var x := s[|s| - 1];
      var sorted := SortBy(le, init);
      assert SortBy(le, s) == Insert(le, x, sorted);
      SortBySortsAndPermutes(le, init);
      InsertSorted(le, x, sorted);
      InsertPermutes(le, x, sorted);
      InsertLength(le, x, sorted);
      assert s == init + [x];
      assert multiset(s) == multiset(init) + multiset{x};
    }
  }
}

=== FILE: text.dfy ===
/** String helpers with JavaScript's meaning, restricted to what the model
    needs: `toLowerCase`/`toUpperCase` over ASCII letters, `includes`,
    `split` on one character, `trim`, and decimal printing with `padStart`. */
module Text {

  // ---------------------------------------------------------------------
  // Case

  function LowerChar(c: char): char
  {
    if 'A' <= c <= 'Z' then (c as int + 32) as char else c
  }

  function UpperChar(c: char): char
  {
    if 'a' <= c <= 'z' then (c as int - 32) as char else c
  }

  /** `toLowerCase()`, ASCII letters only. */
  function Lower(s: string): (r: string)
    ensures |r| == |s|
    ensures forall i :: 0 <= i < |s| ==> r[i] == LowerChar(s[i])
  {
    if |s| == 0 then "" else [LowerChar(s[0])] + Lower(s[1..])
  }

  /** `toUpperCase()`, ASCII letters only. */
  function Upper(s: string): (r: string)
    ensures |r| == |s|
    ensures forall i :: 0 <= i < |s| ==> r[i] == UpperChar(s[i])
  {
    if |s| == 0 then "" else [UpperChar(s[0])] + Upper(s[1..])
  }

  /** Lower-casing twice is lower-casing once. */
  lemma LowerIdempotent(s: string)
    ensures Lower(Lower(s)) == Lower(s)
  {
    assert forall i :: 0 <= i < |s| ==> LowerChar(LowerChar(s[i])) == LowerChar(s[i]);
  }

  // ---------------------------------------------------------------------
  // Substring search

  /** `needle` occurs in `hay` starting at position `i`. */
  ghost predicate OccursAt(hay: string, needle: string, i: int)
  {
    0 <= i && i + |needle| <= |hay| && hay[i..i + |needle|] == needle
  }

  /** `hay.includes(needle)`. */
  function Contains(hay: string, needle: string): (b: bool)
    ensures b <==> exists i :: OccursAt(hay, needle, i)
  {
    ContainsFrom(hay, needle, 0)
  }

  /** Some occurrence of `needle` starts at or after position `k`. */
  function ContainsFrom(hay: string, needle: string, k: nat): (b: bool)
    ensures b <==> exists i :: k <= i && OccursAt(hay, needle, i)
    decreases |hay| - k
  {
    if k + |needle| > |hay| then false
    else if hay[k..k + |needle|] == needle then
      assert OccursAt(hay, needle, k);
      true
    else ContainsFrom(hay, needle, k + 1)
  }

  /** The empty string occurs in every string, as in JavaScript. */
  lemma EmptyOccursEverywhere(hay: string)
    ensures Contains(hay, "")
  {
    assert OccursAt(hay, "", 0);
  }

  /** A needle whose first character never appears in `hay` does not occur
      in it. */
  lemma FirstCharAbsent(hay: string, needle: string)
    requires |needle| > 0
    requires forall j :: 0 <= j < |hay| ==> hay[j] != needle[0]
    ensures !Contains(hay, needle)
  {
    forall i
      ensures !OccursAt(hay, needle, i)
    {
      if 0 <= i && i + |needle| <= |hay| {
        assert hay[i..i + |needle|][0] == hay[i];
      }
    }
  }

  /** `hay.toLowerCase().includes(needle.toLowerCase())`. */
  function ContainsIgnoreCase(hay: string, needle: string): bool
  {
    Contains(Lower(hay), Lower(needle))
  }

  /** Case-insensitive search ignores the case of both arguments. */
  lemma ContainsIgnoreCaseIsCaseBlind(hay: string, needle: string)
    ensures ContainsIgnoreCase(Lower(hay), needle) == ContainsIgnoreCase(hay, needle)
    ensures ContainsIgnoreCase(hay, Lower(needle)) == ContainsIgnoreCase(hay, needle)
  {
    LowerIdempotent(hay);
    LowerIdempotent(needle);
  }

  // ---------------------------------------------------------------------
  // Whitespace and trim

  /** The characters JavaScript's `trim` removes (WhiteSpace and LineTerminator). */
  predicate IsJsSpace(c: char)
  {
    c == ' ' || c == '\t' || c == '\n' || c == '\r' || c == '\U{000B}' || c == '\U{000C}'
    || c == '\U{00A0}' || c == '\U{1680}' || ('\U{2000}' <= c <= '\U{200A}')
    || c == '\U{2028}' || c == '\U{2029}' || c == '\U{202F}' || c == '\U{205F}'
    || c == '\U{3000}' || c == '\U{FEFF}'
  }

  predicate IsBlank(s: string)
  {
    forall i :: 0 <= i < |s| ==> IsJsSpace(s[i])
  }

  /** Lower-casing neither creates nor removes whitespace. */
  lemma LowerKeepsBlankness(s: string)
    ensures IsBlank(Lower(s)) <==> IsBlank(s)
  {
    var l := Lower(s);
    if IsBlank(l) {
      forall i | 0 <= i < |s| ensures IsJsSpace(s[i]) {
        assert IsJsSpace(l[i]);
      }
    }
  }

  /** Index of the first non-space character at or after `k`. */
  function SkipSpaces(s: string, k: nat): (j: nat)
    requires k <= |s|
    ensures k <= j <= |s|
    ensures forall i :: k <= i < j ==> IsJsSpace(s[i])
    ensures j < |s| ==> !IsJsSpace(s[j])
    decreases |s| - k
  {
    if k < |s| && IsJsSpace(s[k]) then SkipSpaces(s, k + 1) else k
  }

  /** Index just past the last non-space character in `s[lo..e]`. */
  function SkipSpacesBack(s: string, lo: nat, e: nat): (j: nat)
    requires lo <= e <= |s|
    ensures lo <= j <= e
    ensures forall i :: j <= i < e ==> IsJsSpace(s[i])
    ensures j > lo ==> !IsJsSpace(s[j - 1])
    decreases e
  {
    if e > lo && IsJsSpace(s[e - 1]) then SkipSpacesBack(s, lo, e - 1) else e
  }

  /** `r` is `s[k..k + |r|]` and everything outside that slice is whitespace. */
  ghost predicate TrimmedAt(s: string, r: string, k: int)
  {
    && 0 <= k <= |s| - |r|
    && s[k..k + |r|] == r
    && (forall i :: 0 <= i < k ==> IsJsSpace(s[i]))
    && (forall i :: k + |r| <= i < |s| ==> IsJsSpace(s[i]))
  }

  /** `s.trim()`: a contiguous middle part of `s` with no space at either end,
      everything cut off being whitespace. */
  function Trim(s: string): (r: string)
    ensures |r| <= |s|
    ensures exists k :: TrimmedAt(s, r, k)
    ensures |r| > 0 ==> !IsJsSpace(r[0]) && !IsJsSpace(r[|r| - 1])
  {
    var a := SkipSpaces(s, 0);
    var b := SkipSpacesBack(s, a, |s|);
    assert TrimmedAt(s, s[a..b], a);
    s[a..b]
  }

  /** The trimmed text is empty exactly when the text is all whitespace. */
  lemma TrimEmptyIffBlank(s: string)
    ensures |Trim(s)| == 0 <==> IsBlank(s)
  {
    var r := Trim(s);
    var k :| TrimmedAt(s, r, k);
    if |r| > 0 {
      assert s[k] == r[0];
    }
  }

  // ---------------------------------------------------------------------
  // Split and join

  /** `pieces.join([sep])`. */
  function Join(pieces: seq<string>, sep: char): string
  {
    if |pieces| == 0 then ""
    else if |pieces| == 1 then pieces[0]
    else pieces[0] + [sep] + Join(pieces[1..], sep)
  }

  /** `s.split(sep)` for a one-character separator: always at least one piece,
      no piece contains the separator, and joining restores `s`. */
  function Split(s: string, sep: char): (pieces: seq<string>)
    ensures |pieces| >= 1
    ensures forall i, j :: 0 <= i < |pieces| && 0 <= j < |pieces[i]| ==> pieces[i][j] != sep
    ensures Join(pieces, sep) == s
    decreases |s|
  {
    if |s| == 0 then [""]
    else
      var rest := Split(s[1..], sep);
      if s[0] == sep then
        assert s == [sep] + s[1..];
        [""] + rest
      else
        assert s == [s[0]] + s[1..];
        [[s[0]] + rest[0]] + rest[1..]
  }

  /** Splitting a joined sequence of separator-free pieces gives the pieces
      back: `Split` and `Join` are inverse. */
  lemma {:induction false} SplitJoin(pieces: seq<string>, sep: char)
    requires |pieces| >= 1
    requires forall i, j :: 0 <= i < |pieces| && 0 <= j < |pieces[i]| ==> pieces[i][j] != sep
    ensures Split(Join(pieces, sep), sep) == pieces
    decreases |pieces|, |pieces[0]|
  {
    var p0 := pieces[0];
    if |p0| == 0 {
      if |pieces| == 1 {
      } else {
        var tail := Join(pieces[1..], sep);
        assert Join(pieces, sep) == [sep] + tail;
        SplitJoin(pieces[1..], sep);
        assert ([sep] + tail)[1..] == tail;
      }
    } else {
      var shorter := [p0[1..]] + pieces[1..];
      assert shorter[1..] == pieces[1..];
      assert Join(pieces, sep) == [p0[0]] + Join(shorter, sep) by {
        if |pieces| > 1 {
          assert p0 == [p0[0]] + p0[1..];
        } else {
          assert p0 == [p0[0]] + p0[1..];
        }
      }
      SplitJoin(shorter, sep);
      assert ([p0[0]] + Join(shorter, sep))[1..] == Join(shorter, sep);
      assert [p0[0]] + p0[1..] == p0;
      assert [p0] + pieces[1..] == pieces;
    }
  }

  // ---------------------------------------------------------------------
  // Decimal numbers

  function DigitChar(d: nat): (c: char)
    requires d < 10
    ensures '0' <= c <= '9' && c as int - '0' as int == d
  {
    ('0' as int + d) as char
  }

  predicate IsDigit(c: char)
  {
    '0' <= c <= '9'
  }

  /** `String(n)` for a non-negative integer. */
  function NatToString(n: nat): (s: string)
    ensures |s| >= 1
    ensures forall i :: 0 <= i < |s| ==> IsDigit(s[i])
    ensures |s| > 1 ==> s[0] != '0'
  {
    if n < 10 then [DigitChar(n)] else NatToString(n / 10) + [DigitChar(n % 10)]
  }

  /** Reads a string of decimal digits (the inverse of `NatToString`). */
  function DigitsValue(s: string): nat
    requires forall i :: 0 <= i < |s| ==> IsDigit(s[i])
  {
    if |s| == 0 then 0
    else
      assert IsDigit(s[|s| - 1]);
      10 * DigitsValue(s[..|s| - 1]) + (s[|s| - 1] as int - '0' as int)
  }

  /** Printing a number and reading it back gives the number. */
  lemma {:induction false} NatToStringRoundTrip(n: nat)
    ensures DigitsValue(NatToString(n)) == n
  {
    if n >= 10 {
      NatToStringRoundTrip(n / 10);
      var s := NatToString(n);
      assert s[..|s| - 1] == NatToString(n / 10);
    }
  }

  /** A string of zeros reads as 0. */
  lemma {:induction false} ZerosValue(z: string)
    requires forall i :: 0 <= i < |z| ==> z[i] == '0'
    ensures DigitsValue(z) == 0
    decreases |z|
  {
    if |z| > 0 {
      ZerosValue(z[..|z| - 1]);
    }
  }

  /** Leading zeros do not change the value read. */
  lemma {:induction false} LeadingZerosValue(z: string, s: string)
    requires forall i :: 0 <= i < |z| ==> z[i] == '0'
    requires forall i :: 0 <= i < |s| ==> IsDigit(s[i])
    ensures DigitsValue(z + s) == DigitsValue(s)
    decreases |s|
  {
    if |s| == 0 {
      assert z + s == z;
      ZerosValue(z);
    } else {
      assert (z + s)[..|z + s| - 1] == z + s[..|s| - 1];
      LeadingZerosValue(z, s[..|s| - 1]);
    }
  }

  /** Zero-padding a printed number keeps its value. */
  lemma PadStartValue(n: nat, width: nat)
    ensures forall i :: 0 <= i < |PadStart(NatToString(n), width, '0')| ==> IsDigit(PadStart(NatToString(n), width, '0')[i])
    ensures DigitsValue(PadStart(NatToString(n), width, '0')) == n
  {
    var s := NatToString(n);
    var r := PadStart(s, width, '0');
    NatToStringRoundTrip(n);
    if |s| < width {
      var z := seq(width - |s|, _ => '0');
      assert r == z + s;
      LeadingZerosValue(z, s);
    }
  }

  /** Numbers below 1000 print in at most three digits. */
  lemma NatToStringShort(n: nat)
    requires n < 1000
    ensures |NatToString(n)| <= 3
  {
    if n >= 10 {
      assert n / 10 < 100;
      if n / 10 >= 10 {
        assert n / 10 / 10 < 10;
        assert |NatToString(n / 10 / 10)| == 1;
        assert |NatToString(n / 10)| == 2;
      } else {
        assert |NatToString(n / 10)| == 1;
      }
    }
  }

  /** `s.padStart(width, c)`. */
  function PadStart(s: string, width: nat, c: char): (r: string)
    ensures |r| == if |s| < width then width else |s|
    ensures r[|r| - |s|..] == s
    ensures forall i :: 0 <= i < |r| - |s| ==> r[i] == c
  {
    if |s| < width then seq(width - |s|, _ => c) + s else s
  }

  /** `String(n).padStart(2, '0')`. */
  function TwoDigits(n: nat): string
  {
    PadStart(NatToString(n), 2, '0')
  }

  /** A number below 100, padded to two places, is its tens digit then its
      units digit. */
  lemma TwoDigitsChars(n: nat)
    requires n < 100
    ensures TwoDigits(n) == [DigitChar(n / 10), DigitChar(n % 10)]
  {
    if n >= 10 {
      assert NatToString(n / 10) == [DigitChar(n / 10)];
    }
  }

  // ---------------------------------------------------------------------
  // Ordering of strings

  /** JavaScript's `<` on strings: code-unit lexicographic order. */
  predicate StrLess(a: string, b: string)
  {
    if |a| == 0 then |b| > 0
    else if |b| == 0 then false
    else if a[0] != b[0] then a[0] < b[0]
    else StrLess(a[1..], b[1..])
  }

  predicate StrLe(a: string, b: string)
  {
    a == b || StrLess(a, b)
  }

  lemma {:induction false} StrLessIrreflexive(a: string)
    ensures !StrLess(a, a)
  {
    if |a| > 0 { StrLessIrreflexive(a[1..]); }
  }

  lemma {:induction false} StrLessTrichotomy(a: string, b: string)
    ensures StrLess(a, b) || a == b || StrLess(b, a)
  {
    if |a| > 0 && |b| > 0 && a[0] == b[0] {
      StrLessTrichotomy(a[1..], b[1..]);
      if a[1..] == b[1..] {
        assert a == [a[0]] + a[1..];
        assert b == [b[0]] + b[1..];
      }
    }
  }

  lemma {:induction false} StrLessTransitive(a: string, b: string, c: string)
    requires StrLess(a, b) && StrLess(b, c)
    ensures StrLess(a, c)
  {
    if |a| > 0 && |b| > 0 && |c| > 0 && a[0] == b[0] && b[0] == c[0] {
      StrLessTransitive(a[1..], b[1..], c[1..]);
    }
  }

  /** `StrLe` is a total preorder, so it can drive a stable sort. */
  lemma StrLeTotalPreorder()
    ensures forall a, b :: StrLe(a, b) || StrLe(b, a)
    ensures forall a, b, c :: StrLe(a, b) && StrLe(b, c) ==> StrLe(a, c)
  {
    forall a, b ensures StrLe(a, b) || StrLe(b, a) { StrLessTrichotomy(a, b); }
    forall a, b, c | StrLe(a, b) && StrLe(b, c) ensures StrLe(a, c) {
      if a != b && b != c { StrLessTransitive(a, b, c); }
    }
  }
}

=== FILE: treatment_history.dfy ===
/** The patient's treatment history page: completed appointments from the
    hook and the history fixture, searched, filtered by treatment type and
    listed newest first; the display names, the star rating and the CSV
    export. A missing practitioner makes the page throw, which the model
    reports as `None`. */
module TreatmentHistory {
  import opened Wrappers
  import opened Seqs
  import opened Text

  /** One past appointment. `dateText` is the date as stored and `day` the
      day number it parses to; `practitioner` is the practitioner's full
      name. */
  datatype Item = Item(
    id: int,
    dateText: string,
    day: int,
    treatmentType: string,
    status: string,
    practitioner: Option<string>,
    notes: Option<string>,
    rating: Option<nat>)

  predicate IsCompleted(x: Item)
  {
    x.status == "completed"
  }

  /** The search test once the practitioner is known. */
  predicate Matches(x: Item, term: string)
    requires x.practitioner.Some?
  {
    || ContainsIgnoreCase(x.treatmentType, term)
    || ContainsIgnoreCase(x.practitioner.value, term)
    || (x.notes.Some? && ContainsIgnoreCase(x.notes.value, term))
  }

  predicate TypePasses(x: Item, typeFilter: string)
  {
    typeFilter == "all" || x.treatmentType == typeFilter
  }

  /** Where an item without a practitioner makes the page throw: the search
      reads the name unless the treatment type already matched, and the
      list reads it for every item it shows. */
  predicate Throws(x: Item, term: string, typeFilter: string)
  {
    x.practitioner.None? &&
    ((term != "" && !ContainsIgnoreCase(x.treatmentType, term)) || TypePasses(x, typeFilter))
  }

  /** An item is listed when it is completed, passes the search (for a
      non-empty term) and the type filter. */
  predicate Listed(x: Item, term: string, typeFilter: string)
    requires x.practitioner.Some?
  {
    IsCompleted(x) && (term == "" || Matches(x, term)) && TypePasses(x, typeFilter)
  }

  function Searched(term: string): Item -> bool
  {
    (x: Item) => x.practitioner.Some? && Matches(x, term)
  }

  function TypeIs(typeFilter: string): Item -> bool
  {
    (x: Item) => x.treatmentType == typeFilter
  }

  function Completed(): Item -> bool
  {
    (x: Item) => IsCompleted(x)
  }

  /** An item the page lists: named, and passing the three tests. */
  function Shown(term: string, typeFilter: string): Item -> bool
  {
    (x: Item) => x.practitioner.Some? && Listed(x, term, typeFilter)
  }

  /** Some completed item makes the page throw. */
  predicate AnyThrows(completed: seq<Item>, term: string, typeFilter: string)
  {
    exists i :: 0 <= i < |completed| && Throws(completed[i], term, typeFilter)
  }

  predicate Newer(a: Item, b: Item)
  {
    a.day >= b.day
  }

  lemma NewerTotalPreorder()
    ensures TotalPreorder(Newer)
  {
  }

  /** The search and the type filter over the completed items, once nothing
      throws. */
  function Narrowed(completed: seq<Item>, term: string, typeFilter: string): (r: seq<Item>)
    requires forall i :: 0 <= i < |completed| ==> IsCompleted(completed[i])
    requires !AnyThrows(completed, term, typeFilter)
    ensures forall i :: 0 <= i < |r| ==>
              r[i] in completed && r[i].practitioner.Some? && Listed(r[i], term, typeFilter)
    ensures forall i :: 0 <= i < |completed| ==>
              (completed[i].practitioner.Some? && Listed(completed[i], term, typeFilter) ==> completed[i] in r)
    ensures r == Filter(Shown(term, typeFilter), completed)
  {
    var searched := if term != "" then Filter(Searched(term), completed) else completed;
    NoThrowMeansNamed(completed, term, typeFilter);
    NarrowedIsShown(completed, term, typeFilter);
    if typeFilter != "all" then Filter(TypeIs(typeFilter), searched) else searched
  }

  /** The search and then the type filter keep exactly the shown items, in
      order. */
  lemma NarrowedIsShown(completed: seq<Item>, term: string, typeFilter: string)
    requires forall i :: 0 <= i < |completed| ==> IsCompleted(completed[i])
    requires !AnyThrows(completed, term, typeFilter)
    ensures var searched := if term != "" then Filter(Searched(term), completed) else completed;
            (if typeFilter != "all" then Filter(TypeIs(typeFilter), searched) else searched)
            == Filter(Shown(term, typeFilter), completed)
  {
    var shown := Shown(term, typeFilter);
    if term != "" {
      if typeFilter != "all" {
        forall i | 0 <= i < |completed|
          ensures shown(completed[i]) == (Searched(term)(completed[i]) && TypeIs(typeFilter)(completed[i]))
        {
          ShownCase(completed[i], term, typeFilter);
        }
        FilterTwice(TypeIs(typeFilter), Searched(term), shown, completed);
      } else {
        forall i | 0 <= i < |completed|
          ensures Searched(term)(completed[i]) == shown(completed[i])
        {
          ShownCase(completed[i], term, typeFilter);
        }
        FilterExt(Searched(term), shown, completed);
      }
    } else {
      forall i | 0 <= i < |completed|
        ensures shown(completed[i]) == TypePasses(completed[i], typeFilter)
      {
        assert !Throws(completed[i], term, typeFilter);
        ShownCase(completed[i], term, typeFilter);
      }
      if typeFilter != "all" {
        FilterExt(TypeIs(typeFilter), shown, completed);
      } else {
        FilterKeepsAll(shown, completed);
      }
    }
  }

  /** `Shown` for one completed item that does not throw, case by case. */
  lemma ShownCase(x: Item, term: string, typeFilter: string)
    requires IsCompleted(x) && !Throws(x, term, typeFilter)
    ensures term != "" && typeFilter != "all" ==>
              Shown(term, typeFilter)(x) == (Searched(term)(x) && TypeIs(typeFilter)(x))
    ensures term != "" && typeFilter == "all" ==> Shown(term, typeFilter)(x) == Searched(term)(x)
    ensures term == "" ==> Shown(term, typeFilter)(x) == TypePasses(x, typeFilter)
  {
  }

  /** Sorting newest first keeps the same items. */
  function Newest(items: seq<Item>): (r: seq<Item>)
    ensures forall k :: 0 <= k < |r| ==> r[k] in items
    ensures forall k :: 0 <= k < |items| ==> items[k] in r
    ensures forall i, j :: 0 <= i < j < |r| ==> r[i].day >= r[j].day
    ensures multiset(r) == multiset(items)
  {
    NewerTotalPreorder();
    SortBySortsAndPermutes(Newer, items);
    var sorted := SortBy(Newer, items);
    forall k | 0 <= k < |sorted|
      ensures sorted[k] in items
    {
      assert sorted[k] in multiset(items);
    }
    forall k | 0 <= k < |items|
      ensures items[k] in sorted
    {
      assert items[k] in multiset(sorted);
    }
    sorted
  }

  /** The effect that fills `filteredAppointments`: the completed items of
      the hook's list followed by the fixture, searched, filtered and sorted
      newest first (stably). */
  function History(hook: seq<Item>, fixture: seq<Item>, term: string, typeFilter: string): (r: Option<seq<Item>>)
    ensures var completed := Filter(Completed(), hook + fixture);
            r.None? <==> AnyThrows(completed, term, typeFilter)
    ensures r.Some? ==> forall i :: 0 <= i < |r.value| ==>
              r.value[i] in hook + fixture && r.value[i].practitioner.Some?
              && Listed(r.value[i], term, typeFilter)
    ensures r.Some? ==> forall i :: 0 <= i < |hook + fixture| ==>
              var x := (hook + fixture)[i];
              (x.practitioner.Some? && Listed(x, term, typeFilter) ==> x in r.value)
    ensures r.Some? ==> forall i, j :: 0 <= i < j < |r.value| ==> r.value[i].day >= r.value[j].day
    ensures r.Some? ==>
              multiset(r.value) == multiset(Filter(Shown(term, typeFilter), Filter(Completed(), hook + fixture)))
  {
    var all := hook + fixture;
    var completed := Filter(Completed(), all);
    if AnyThrows(completed, term, typeFilter) then None
    else
      var r := Newest(Narrowed(completed, term, typeFilter));
      assert forall i :: 0 <= i < |all| && IsCompleted(all[i]) ==> all[i] in completed;
      Some(r)
  }

  /** When nothing throws, every item the type filter lets through has a
      practitioner, and so does every item a non-empty search keeps. */
  lemma NoThrowMeansNamed(completed: seq<Item>, term: string, typeFilter: string)
    requires forall i :: 0 <= i < |completed| ==> !Throws(completed[i], term, typeFilter)
    ensures forall i :: 0 <= i < |completed| && TypePasses(completed[i], typeFilter) ==>
              completed[i].practitioner.Some?
  {
  }

  /** With the fixture alone (every item completed and named), an empty
      search and "all", every fixture item is listed. */
  lemma FixtureAllListed(fixture: seq<Item>)
    requires forall i :: 0 <= i < |fixture| ==> IsCompleted(fixture[i]) && fixture[i].practitioner.Some?
    ensures History([], fixture, "", "all").Some?
    ensures forall i :: 0 <= i < |fixture| ==> fixture[i] in History([], fixture, "", "all").value
  {
    assert [] + fixture == fixture;
    FilterKeepsAll(Completed(), fixture);
  }

  // ---------------------------------------------------------------------
  // Names, stars, export

  /** `getTreatmentName(type)`: the display name of a known id, any other
      value unchanged. */
  function TreatmentName(t: string): (r: string)
    ensures t !in {"abhyanga", "shirodhara", "swedana", "consultation", "nasya", "basti"} ==> r == t
  {
    match t
    case "abhyanga" => "Abhyanga"
    case "shirodhara" => "Shirodhara"
    case "swedana" => "Swedana"
    case "consultation" => "Consultation"
    case "nasya" => "Nasya"
    case "basti" => "Basti"
    case _ => t
  }

  /** A display name is not an id, so naming twice is naming once. */
  lemma TreatmentNameIdempotent(t: string)
    ensures TreatmentName(TreatmentName(t)) == TreatmentName(t)
  {
  }

  /** `renderStars(rating)`: five stars, the first `rating` of them filled. */
  function Stars(rating: int): (r: seq<bool>)
    ensures |r| == 5
    ensures forall i :: 0 <= i < 5 ==> (r[i] <==> i < rating)
  {
    seq(5, i => i < rating)
  }

  function IsFilled(b: bool): bool { b }

  /** The number of filled stars is the rating cut to 0..5. */
  lemma FilledStars(rating: int)
    ensures Count(IsFilled, Stars(rating)) == if rating < 0 then 0 else if rating > 5 then 5 else rating
  {
    var s := Stars(rating);
    var s4 := s[4..];
    var s3 := s[3..];
    var s2 := s[2..];
    var s1 := s[1..];
    assert s4[1..] == [];
    assert Count(IsFilled, s4) == (if 4 < rating then 1 else 0);
    assert s3[1..] == s4;
    assert Count(IsFilled, s3) == (if 3 < rating then 1 else 0) + Count(IsFilled, s4);
    assert s2[1..] == s3;
    assert Count(IsFilled, s2) == (if 2 < rating then 1 else 0) + Count(IsFilled, s3);
    assert s1[1..] == s2;
    assert Count(IsFilled, s1) == (if 1 < rating then 1 else 0) + Count(IsFilled, s2);
    assert s[1..] == s1;
  }

  /** `feedback?.rating || 'N/A'`: a missing or zero rating reads "N/A". */
  function RatingText(rating: Option<nat>): (r: string)
    ensures r == "N/A" <==> rating.None? || rating.value == 0
    ensures rating.Some? && rating.value > 0 ==>
              (forall i :: 0 <= i < |r| ==> IsDigit(r[i])) && DigitsValue(r) == rating.value
  {
    if rating.Some? && rating.value != 0 then
      NatToStringRoundTrip(rating.value);
      assert NatToString(rating.value)[0] != 'N';
      NatToString(rating.value)
    else "N/A"
  }

  const CsvHeader := "Date,Treatment,Practitioner,Rating"

  /** One CSV row: date, display name, practitioner, rating. */
  function CsvRow(x: Item): string
    requires x.practitioner.Some?
  {
    x.dateText + "," + TreatmentName(x.treatmentType) + "," + x.practitioner.value + "," + RatingText(x.rating)
  }

  predicate NoNewline(s: string)
  {
    forall j :: 0 <= j < |s| ==> s[j] != '\n'
  }

  function CsvRows(items: seq<Item>): (rows: seq<string>)
    requires forall i :: 0 <= i < |items| ==> items[i].practitioner.Some?
    ensures |rows| == |items|
    ensures forall i :: 0 <= i < |items| ==> rows[i] == CsvRow(items[i])
  {
    seq(|items|, i requires 0 <= i < |items| => CsvRow(items[i]))
  }

  /** `exportHistory()`: the header, a newline, and one row per listed item
      joined by newlines. */
  function Export(items: seq<Item>): (r: string)
    requires forall i :: 0 <= i < |items| ==> items[i].practitioner.Some?
  {
    CsvHeader + "\n" + Join(CsvRows(items), '\n')
  }

  /** Read back line by line, the export is the header and one row per item
      (an empty list leaves one empty line), as long as no field holds a
      newline. */
  lemma ExportLines(items: seq<Item>)
    requires forall i :: 0 <= i < |items| ==> items[i].practitioner.Some? && NoNewline(CsvRow(items[i]))
    ensures var lines := Split(Export(items), '\n');
            && |lines| == (if |items| == 0 then 2 else |items| + 1)
            && lines[0] == CsvHeader
            && forall i :: 0 <= i < |items| ==> lines[i + 1] == CsvRow(items[i])
  {
    var rows := CsvRows(items);
    var body := if |items| == 0 then [""] else rows;
    assert Join(body, '\n') == Join(rows, '\n');
    var pieces := [CsvHeader] + body;
    assert pieces[1..] == body;
    assert Join(pieces, '\n') == CsvHeader + ['\n'] + Join(body, '\n');
    assert Join(pieces, '\n') == Export(items);
    HeaderHasNoNewline();
    assert forall i :: 0 <= i < |pieces| ==> NoNewline(pieces[i]) by {
      forall i | 0 <= i < |pieces|
        ensures NoNewline(pieces[i])
      {
        if i > 0 {
          assert pieces[i] == body[i - 1];
        }
      }
    }
    SplitJoin(pieces, '\n');
  }

  lemma HeaderHasNoNewline()
    ensures NoNewline(CsvHeader)
  {
  }
}

=== FILE: treatment_planner.dfy ===
/** The practitioner's treatment planner: the list of treatment plans with
    search and status filter, adding a plan, adding a session to a plan and
    changing a session's status. Dates stay strings. */
module TreatmentPlanner {
  import opened Wrappers
  import opened Seqs
  import opened Text

  datatype Session = Session(id: int, date: string, kind: string, duration: nat, status: string, notes: string)

  datatype Plan = Plan(
    id: nat,
    patientId: string,
    patientName: string,
    treatmentType: string,
    startDate: string,
    endDate: string,
    status: string,
    progress: int,
    sessions: seq<Session>,
    notes: string)

  /** The "new treatment" form. */
  datatype Form = Form(
    patientId: string,
    patientName: string,
    treatmentType: string,
    startDate: string,
    endDate: string,
    notes: string,
    status: string)

  /** The form's initial state, also what it is reset to after an add. */
  const EmptyForm := Form("", "", "", "", "", "", "planned")

  // ---------------------------------------------------------------------
  // Search and filter

  predicate MatchesSearch(p: Plan, term: string)
  {
    ContainsIgnoreCase(p.patientName, term) || ContainsIgnoreCase(p.treatmentType, term)
  }

  function StatusPasses(statusFilter: string): Plan -> bool
  {
    (p: Plan) => statusFilter == "all" || p.status == statusFilter
  }

  function Shown(term: string, statusFilter: string): Plan -> bool
  {
    (p: Plan) => MatchesSearch(p, term) && (statusFilter == "all" || p.status == statusFilter)
  }

  /** `filteredTreatments`: the plans whose patient name or treatment type
      contains the search term (ignoring case) and whose status passes the
      filter, in list order. */
  function Visible(plans: seq<Plan>, term: string, statusFilter: string): (r: seq<Plan>)
    ensures IsSubsequence(r, plans)
    ensures forall i :: 0 <= i < |r| ==>
              MatchesSearch(r[i], term) && (statusFilter == "all" || r[i].status == statusFilter)
    ensures forall i :: 0 <= i < |plans| && MatchesSearch(plans[i], term)
                          && (statusFilter == "all" || plans[i].status == statusFilter) ==>
              plans[i] in r
  {
    Filter(Shown(term, statusFilter), plans)
  }

  /** With an empty search and the "all" filter every plan is listed. */
  lemma NoFilterShowsAll(plans: seq<Plan>)
    ensures Visible(plans, "", "all") == plans
  {
    forall i | 0 <= i < |plans|
      ensures MatchesSearch(plans[i], "")
    {
      assert Lower("") == "";
      EmptyOccursEverywhere(Lower(plans[i].patientName));
    }
    FilterKeepsAll(Shown("", "all"), plans);
  }

  /** Applying the status filter on top of the search result is the same as
      searching with the filter. */
  lemma FilterComposes(plans: seq<Plan>, term: string, statusFilter: string)
    ensures Visible(plans, term, statusFilter) ==
            Filter(StatusPasses(statusFilter), Visible(plans, term, "all"))
  {
    FilterTwice(StatusPasses(statusFilter), Shown(term, "all"), Shown(term, statusFilter), plans);
  }

  // ---------------------------------------------------------------------
  // Changes

  /** Plan ids are 1, 2, ... in list order, as in the fixture. */
  predicate IdsArePositions(plans: seq<Plan>)
  {
    forall i :: 0 <= i < |plans| ==> plans[i].id == i + 1
  }

  /** `handleAddTreatment()`: the form becomes a new last plan with id
      `length + 1`, progress 0 and no sessions, and the form is reset. */
  function AddPlan(plans: seq<Plan>, form: Form): (r: (seq<Plan>, Form))
    ensures |r.0| == |plans| + 1 && r.0[..|plans|] == plans
    ensures var p := r.0[|plans|];
            && p.id == |plans| + 1 && p.progress == 0 && p.sessions == []
            && p.patientId == form.patientId && p.patientName == form.patientName
            && p.treatmentType == form.treatmentType && p.status == form.status
            && p.startDate == form.startDate && p.endDate == form.endDate && p.notes == form.notes
    ensures r.1 == EmptyForm
  {
    var p := Plan(|plans| + 1, form.patientId, form.patientName, form.treatmentType,
                  form.startDate, form.endDate, form.status, 0, [], form.notes);
    assert (plans + [p])[..|plans|] == plans;
    (plans + [p], EmptyForm)
  }

  /** Adding keeps the ids the positions, so a new plan's id is fresh. */
  lemma AddKeepsIds(plans: seq<Plan>, form: Form)
    requires IdsArePositions(plans)
    ensures IdsArePositions(AddPlan(plans, form).0)
    ensures forall i :: 0 <= i < |plans| ==> plans[i].id != AddPlan(plans, form).0[|plans|].id
  {
  }

  /** A plan added from the reset form is "planned". */
  lemma ResetFormPlansPlanned(plans: seq<Plan>, form: Form)
    ensures var (once, reset) := AddPlan(plans, form);
            AddPlan(once, reset).0[|plans| + 1].status == "planned"
  {
  }

  /** `addSessionToTreatment(treatmentId, session)`: the plans with that id
      get the session appended, with the fresh id `freshId`; the other plans
      are unchanged. */
  function AddSession(plans: seq<Plan>, planId: nat, s: Session, freshId: int): (r: seq<Plan>)
    ensures |r| == |plans|
    ensures forall i :: 0 <= i < |plans| ==>
              if plans[i].id == planId
              then r[i] == plans[i].(sessions := plans[i].sessions + [s.(id := freshId)])
              else r[i] == plans[i]
  {
    UpdateWhere((p: Plan) => p.id == planId,
                (p: Plan) => p.(sessions := p.sessions + [s.(id := freshId)]), plans)
  }

  function SessionCount(p: Plan): int
  {
    |p.sessions|
  }

  function HasId(id: nat): Plan -> bool
  {
    (p: Plan) => p.id == id
  }

  /** Adding a session adds one session per plan with that id. */
  lemma {:induction false} AddSessionSum(plans: seq<Plan>, planId: nat, s: Session, freshId: int)
    ensures Sum(SessionCount, AddSession(plans, planId, s, freshId))
            == Sum(SessionCount, plans) + Count(HasId(planId), plans)
  {
    if |plans| > 0 {
      AddSessionSum(plans[1..], planId, s, freshId);
      assert AddSession(plans, planId, s, freshId)[1..] == AddSession(plans[1..], planId, s, freshId);
    }
  }

  /** Ids counting up from `base` name each plan once. */
  lemma {:induction false} IdOccursOnce(plans: seq<Plan>, base: nat, id: nat)
    requires forall i :: 0 <= i < |plans| ==> plans[i].id == base + i
    ensures Count(HasId(id), plans) == if base <= id < base + |plans| then 1 else 0
  {
    if |plans| > 0 {
      IdOccursOnce(plans[1..], base + 1, id);
    }
  }

  /** With the ids the positions, adding a session to an existing plan adds
      exactly one session overall and leaves the ids alone. */
  lemma AddSessionCount(plans: seq<Plan>, planId: nat, s: Session, freshId: int)
    requires IdsArePositions(plans) && 1 <= planId <= |plans|
    ensures Sum(SessionCount, AddSession(plans, planId, s, freshId)) == Sum(SessionCount, plans) + 1
    ensures IdsArePositions(AddSession(plans, planId, s, freshId))
  {
    AddSessionSum(plans, planId, s, freshId);
    IdOccursOnce(plans, 1, planId);
  }

  function SetStatus(sessions: seq<Session>, sessionId: int, status: string): (r: seq<Session>)
    ensures |r| == |sessions|
    ensures forall j :: 0 <= j < |sessions| ==>
              r[j] == if sessions[j].id == sessionId then sessions[j].(status := status) else sessions[j]
  {
    UpdateWhere((x: Session) => x.id == sessionId, (x: Session) => x.(status := status), sessions)
  }

  /** `updateSessionStatus(treatmentId, sessionId, status)`: in the plans
      with that id, the sessions with that id take the new status; nothing
      else changes. */
  function UpdateSessionStatus(plans: seq<Plan>, planId: nat, sessionId: int, status: string): (r: seq<Plan>)
    ensures |r| == |plans|
    ensures forall i :: 0 <= i < |plans| ==>
              && |r[i].sessions| == |plans[i].sessions|
              && r[i] == plans[i].(sessions := r[i].sessions)
              && forall j :: 0 <= j < |plans[i].sessions| ==>
                   r[i].sessions[j] ==
                     if plans[i].id == planId && plans[i].sessions[j].id == sessionId
                     then plans[i].sessions[j].(status := status)
                     else plans[i].sessions[j]
  {
    UpdateWhere((p: Plan) => p.id == planId,
                (p: Plan) => p.(sessions := SetStatus(p.sessions, sessionId, status)), plans)
  }

  /** Setting the same status twice is setting it once. */
  lemma UpdateSessionStatusIdempotent(plans: seq<Plan>, planId: nat, sessionId: int, status: string)
    ensures UpdateSessionStatus(UpdateSessionStatus(plans, planId, sessionId, status), planId, sessionId, status)
            == UpdateSessionStatus(plans, planId, sessionId, status)
  {
    var once := UpdateSessionStatus(plans, planId, sessionId, status);
    var twice := UpdateSessionStatus(once, planId, sessionId, status);
    forall i | 0 <= i < |plans|
      ensures twice[i] == once[i]
    {
      assert twice[i].sessions == once[i].sessions;
    }
  }

  // ---------------------------------------------------------------------
  // Display

  datatype Colour = Green | Yellow | Blue

  /** `getProgressColor(progress)`. */
  function ProgressColour(progress: int): (c: Colour)
    ensures c == Green <==> progress >= 80
    ensures c == Yellow <==> 50 <= progress < 80
    ensures c == Blue <==> progress < 50
  {
    if progress >= 80 then Green else if progress >= 50 then Yellow else Blue
  }

  /** More progress never gives a "lower" colour. */
  lemma ProgressColourMonotone(a: int, b: int)
    requires a <= b
    ensures ProgressColour(a) == Green ==> ProgressColour(b) == Green
    ensures ProgressColour(b) == Blue ==> ProgressColour(a) == Blue
  {
  }

  /** A plan card: the first three sessions and the count for
      "+n more sessions". */
  function SessionPreview(p: Plan): (r: (seq<Session>, Option<nat>))
    ensures r.0 <= p.sessions && |r.0| == if |p.sessions| < 3 then |p.sessions| else 3
    ensures r.1.Some? <==> |p.sessions| > 3
    ensures |r.0| + (if r.1.Some? then r.1.value else 0) == |p.sessions|
  {
    (Take(p.sessions, 3), if |p.sessions| > 3 then Some(|p.sessions| - 3) else None)
  }
}

=== FILE: treatment_routes.dfy ===
/** The treatments routes: the treatment list enriched with each type's
    doctor pool, the doctors of one type, and lookup by id. */
module TreatmentRoutes {
  import opened Wrappers
  import opened Registry
  import opened Seqs

  /** A treatment course; `kind` is the record's `type`. Start and end dates
      are only passed through, so they stay text. */
  datatype Treatment = Treatment(
    id: int,
    patientId: string,
    kind: string,
    startDate: string,
    endDate: string,
    status: string,
    sessions: nat,
    completedSessions: nat)

  /** `{...treatment, doctors}`. */
  datatype Enriched = Enriched(treatment: Treatment, doctors: seq<DoctorProfile>)

  /** The reply of `GET /treatments/type/:type/doctors`. */
  datatype TypeDoctors = TypeDoctors(kind: string, doctors: seq<DoctorProfile>)

  const MockTreatments: seq<Treatment> := [
    Treatment(1, "P001", "Panchakarma", "2024-01-15", "2024-02-15", "Active", 12, 8),
    Treatment(2, "P002", "Abhyanga", "2024-01-10", "2024-01-25", "Completed", 10, 10)
  ]

  function Enrich(t: Treatment): (e: Enriched)
    ensures e.treatment == t
    ensures t.kind !in Keys(TreatmentTable) ==> e.doctors == []
  {
    UnknownKindHasNoDoctors(t.kind);
    Enriched(t, TreatmentPool(t.kind))
  }

  /** `GET /treatments`: every treatment, in order, unchanged, with its
      type's doctors attached. */
  function ListTreatments(list: seq<Treatment>): (r: seq<Enriched>)
    ensures |r| == |list|
    ensures forall i :: 0 <= i < |r| ==> r[i].treatment == list[i]
    ensures forall i :: 0 <= i < |r| ==> r[i].doctors == TreatmentPool(list[i].kind)
  {
    seq(|list|, i requires 0 <= i < |list| => Enrich(list[i]))
  }

  /** `GET /treatments/doctors`: the whole type-to-doctors table, six
      distinct types with three distinct doctors each. */
  function AllMappings(): (r: Table<DoctorProfile>)
    ensures Keys(r) == ["Panchakarma", "Abhyanga", "Shirodhara", "Udvartana", "Nasya", "Basti"]
    ensures DistinctStrings(Keys(r))
    ensures forall i :: 0 <= i < |r| ==> |r[i].1| == 3 && DistinctIds(ProfileDoctors(r[i].1))
  {
    TreatmentTableShape();
    TreatmentTable
  }

  /** Every entry of the full table is what the by-type route answers for
      its type. */
  lemma MappingsAgreeWithTypeRoute(i: int)
    requires 0 <= i < |AllMappings()|
    ensures DoctorsByType(AllMappings()[i].0) == Ok(TypeDoctors(AllMappings()[i].0, AllMappings()[i].1))
  {
    var table := AllMappings();
    assert Keys(table)[i] == table[i].0;
    var j := LookupListed(table, table[i].0);
    assert Keys(table)[j] == table[j].0;
    assert i == j;
  }

  /** `GET /treatments/type/:type/doctors`: 404 exactly when the type has
      no doctors. */
  function DoctorsByType(kind: string): (r: Response<TypeDoctors>)
    ensures r.Ok? || r.NotFound?
    ensures r.NotFound? <==> TreatmentPool(kind) == []
    ensures r.Ok? ==> r.value.kind == kind && r.value.doctors == TreatmentPool(kind)
  {
    var doctors := TreatmentPool(kind);
    if |doctors| == 0 then NotFound("No doctors found for this treatment type")
    else Ok(TypeDoctors(kind, doctors))
  }

  lemma UnknownKindHasNoDoctors(kind: string)
    ensures kind !in Keys(TreatmentTable) ==> TreatmentPool(kind) == []
  {
    LookupSpec(TreatmentTable, kind);
    assert forall i :: 0 <= i < |TreatmentTable| ==> TreatmentTable[i].0 == Keys(TreatmentTable)[i];
  }

  /** The type route answers 404 exactly for the types the registry does
      not list; a listed type gets its three doctors. */
  lemma DoctorsByTypeNotFoundIffUnknown(kind: string)
    ensures DoctorsByType(kind).NotFound? <==> kind !in Keys(TreatmentTable)
    ensures kind in Keys(TreatmentTable) ==> |DoctorsByType(kind).value.doctors| == 3
  {
    TreatmentTableShape();
    UnknownKindHasNoDoctors(kind);
    if kind in Keys(TreatmentTable) {
      var i := LookupListed(TreatmentTable, kind);
      assert |TreatmentTable[i].1| == 3;
    }
  }

  /** `GET /treatments/:id`: the first treatment with id `parseInt(id)`,
      enriched; `None` stands for NaN. */
  function GetTreatment(list: seq<Treatment>, id: Option<int>): (r: Response<Enriched>)
    ensures r.Ok? || r.NotFound?
    ensures r.Ok? <==> id.Some? && exists i :: 0 <= i < |list| && list[i].id == id.value
    ensures r.Ok? ==> r.value.treatment.id == id.value && r.value.doctors == TreatmentPool(r.value.treatment.kind)
    ensures r.Ok? ==> exists i :: 0 <= i < |list| && list[i] == r.value.treatment && forall j :: 0 <= j < i ==> list[j].id != id.value
  {
    if id.None? then NotFound("Treatment not found")
    else
      var k := FindIndex((t: Treatment) => t.id == id.value, list);
      if k < 0 then NotFound("Treatment not found") else Ok(Enrich(list[k]))
  }

  /** The list route and the id route agree on every treatment whose id is unique. */
  lemma GetAgreesWithList(list: seq<Treatment>, i: int)
    requires 0 <= i < |list|
    requires forall j :: 0 <= j < |list| && j != i ==> list[j].id != list[i].id
    ensures GetTreatment(list, Some(list[i].id)) == Ok(ListTreatments(list)[i])
  {
    var r := GetTreatment(list, Some(list[i].id));
    var k :| 0 <= k < |list| && list[k] == r.value.treatment && forall j :: 0 <= j < k ==> list[j].id != list[i].id;
    assert k == i;
  }
}

=== FILE: use_appointments.dfy ===
/** The patient-side appointment hook: the booking payload sent to the
    server, the normalised record kept on the client, cancel, reschedule,
    and the upcoming / date-range / today queries.

    Client dates are day ordinals; "now" and the date-range bounds are
    milliseconds, compared with the midnight (UTC) of each day as
    `new Date('YYYY-MM-DD')` gives it. */
module ClientAppointments {
  import opened Wrappers
  import opened Seqs
  import opened Registry
  import A = Appointments

  const MsPerDay: int := 86400000

  /** `{id, fullName}` of the practitioner shown with an appointment. */
  datatype Practitioner = Practitioner(id: string, fullName: string)

  /** An appointment as the client keeps it. */
  datatype ClientAppointment = ClientAppointment(
    id: int,
    scheduledDate: int,
    scheduledTime: string,
    duration: int,
    treatmentType: string,
    status: string,
    practitioner: Option<Practitioner>,
    notes: string)

  /** The signed-in user; "" stands for a missing field. */
  datatype User = User(id: string, name: string, fullName: string)

  /** The booking form's data. */
  datatype BookingForm = BookingForm(
    scheduledDate: Option<int>,
    scheduledTime: string,
    treatmentType: string,
    practitionerId: string,
    duration: int,
    notes: string)

  /** Midnight of the day, in milliseconds. */
  function DayStart(day: int): int
  {
    day * MsPerDay
  }

  // ---------------------------------------------------------------------
  // Booking

  /** `mapTreatmentType`: UI treatment id to the server's treatment type. */
  function MapTreatmentType(uiId: string): (t: string)
    ensures uiId == "panchakarma" || uiId == "nasya" || uiId == "basti" ==> t == "Panchakarma"
    ensures uiId == "abhyanga" ==> t == "Abhyanga"
    ensures uiId == "shirodhara" ==> t == "Shirodhara"
    ensures uiId == "swedana" ==> t == "Udvartana"
    ensures !(uiId in UiTreatmentIds) ==> t == uiId
  {
    match uiId
    case "panchakarma" => "Panchakarma"
    case "abhyanga" => "Abhyanga"
    case "shirodhara" => "Shirodhara"
    case "swedana" => "Udvartana"
    case "nasya" => "Panchakarma"
    case "basti" => "Panchakarma"
    case _ => uiId
  }

  const UiTreatmentIds: seq<string> := ["panchakarma", "abhyanga", "shirodhara", "swedana", "nasya", "basti"]

  /** Every UI treatment id lands on a type the booking registry knows, so
      booking from the UI always gets a doctor. */
  lemma MappedTypesAreBookable(uiId: string)
    requires uiId in UiTreatmentIds
    ensures MapTreatmentType(uiId) in Keys(BookingTable)
    ensures |BookingPool(MapTreatmentType(uiId))| == 3
  {
    BookingTableShape();
    var t := MapTreatmentType(uiId);
    var i := LookupListed(BookingTable, t);
  }

  /** Mapping is idempotent: a server type is passed through unchanged. */
  lemma MapTreatmentTypeIdempotent(uiId: string)
    ensures MapTreatmentType(MapTreatmentType(uiId)) == MapTreatmentType(uiId)
  {
  }

  /** The request body built by `bookAppointment`. */
  function Payload(user: Option<User>, form: BookingForm): (req: A.BookingRequest)
    ensures req.patientId != "" && req.patientName != ""
    ensures user.Some? && user.value.id != "" ==> req.patientId == user.value.id
    ensures (user.None? || user.value.id == "") ==> req.patientId == "P_TEMP"
    ensures req.patientName == (if user.Some? && user.value.name != "" then user.value.name
                                else if user.Some? && user.value.fullName != "" then user.value.fullName
                                else "Patient")
    ensures req.date == form.scheduledDate && req.time == form.scheduledTime
    ensures req.visitType == form.treatmentType
    ensures req.treatmentType == MapTreatmentType(form.treatmentType)
    ensures req.doctorId == form.practitionerId
  {
    var patientId := if user.Some? && user.value.id != "" then user.value.id else "P_TEMP";
    var patientName := if user.Some? && user.value.name != "" then user.value.name
                       else if user.Some? && user.value.fullName != "" then user.value.fullName
                       else "Patient";
    A.BookingRequest(patientId, patientName, form.scheduledDate, form.scheduledTime,
                     form.treatmentType, MapTreatmentType(form.treatmentType), form.practitionerId)
  }

  /** The client record made from the server's appointment. */
  function Normalize(created: A.Appointment, form: BookingForm): (a: ClientAppointment)
    ensures a.id == created.id && a.scheduledDate == created.date && a.scheduledTime == created.time
    ensures a.status == created.status
    ensures a.practitioner.None? <==> created.doctor.None?
    ensures created.doctor.Some? ==> a.practitioner == Some(Practitioner(created.doctor.value.id, created.doctor.value.name))
    ensures a.duration == form.duration && a.treatmentType == form.treatmentType && a.notes == form.notes
  {
    ClientAppointment(created.id, created.date, created.time, form.duration, form.treatmentType, created.status,
                      if created.doctor.Some? then Some(Practitioner(created.doctor.value.id, created.doctor.value.name)) else None,
                      form.notes)
  }

  /** The list after a successful booking: the new record at the end. */
  function AddBooked(list: seq<ClientAppointment>, a: ClientAppointment): (r: seq<ClientAppointment>)
    ensures |r| == |list| + 1 && r[..|list|] == list && r[|list|] == a
  {
    list + [a]
  }

  /** End to end: a form with date, time and treatment filled in is always
      accepted by the server (the payload never lacks patient id or name),
      and the client record is scheduled on the chosen day with the
      practitioner the server assigned. */
  lemma BookingFromForm(store: A.Store, user: Option<User>, form: BookingForm, freshId: int)
    requires form.scheduledDate.Some? && form.scheduledTime != "" && form.treatmentType != ""
    ensures var req := Payload(user, form);
            var out := A.Book(store, req, freshId);
            && out.0.Ok?
            && var a := Normalize(out.0.value, form);
               && Some(a.scheduledDate) == form.scheduledDate
               && a.status == "scheduled"
               && (a.practitioner.Some? <==> A.Assign(req.treatmentType, req.doctorId).Some?)
  {
    var req := Payload(user, form);
    assert MapTreatmentType(form.treatmentType) != "";
  }

  /** A UI treatment always reaches a practitioner from its mapped pool. */
  lemma UiBookingGetsPractitioner(store: A.Store, user: Option<User>, form: BookingForm, freshId: int)
    requires form.scheduledDate.Some? && form.scheduledTime != ""
    requires form.treatmentType in UiTreatmentIds
    ensures var out := A.Book(store, Payload(user, form), freshId);
            out.0.Ok? && Normalize(out.0.value, form).practitioner.Some?
  {
    MappedTypesAreBookable(form.treatmentType);
    BookingFromForm(store, user, form, freshId);
  }

  // ---------------------------------------------------------------------
  // Cancel and reschedule

  /** `cancelAppointment`: every record with that id becomes cancelled. */
  function Cancel(list: seq<ClientAppointment>, id: int): (r: seq<ClientAppointment>)
    ensures |r| == |list|
    ensures forall i :: 0 <= i < |list| ==>
              r[i] == (if list[i].id == id then list[i].(status := "cancelled") else list[i])
  {
    UpdateWhere((a: ClientAppointment) => a.id == id, (a: ClientAppointment) => a.(status := "cancelled"), list)
  }

  /** Cancelling twice is cancelling once. */
  lemma CancelIdempotent(list: seq<ClientAppointment>, id: int)
    ensures Cancel(Cancel(list, id), id) == Cancel(list, id)
  {
  }

  /** `rescheduleAppointment`: the matching records get the new date and
      time where given, and status pending. */
  function Reschedule(list: seq<ClientAppointment>, id: int, newDate: Option<int>, newTime: string): (r: seq<ClientAppointment>)
    ensures |r| == |list|
    ensures forall i :: 0 <= i < |list| && list[i].id != id ==> r[i] == list[i]
    ensures forall i :: 0 <= i < |list| && list[i].id == id ==>
              && r[i].status == "pending"
              && r[i].scheduledDate == (if newDate.Some? then newDate.value else list[i].scheduledDate)
              && r[i].scheduledTime == (if newTime != "" then newTime else list[i].scheduledTime)
              && r[i] == list[i].(status := "pending", scheduledDate := r[i].scheduledDate, scheduledTime := r[i].scheduledTime)
  {
    UpdateWhere((a: ClientAppointment) => a.id == id,
                (a: ClientAppointment) => a.(scheduledDate := if newDate.Some? then newDate.value else a.scheduledDate,
                                             scheduledTime := if newTime != "" then newTime else a.scheduledTime,
                                             status := "pending"),
                list)
  }

  /** A reschedule without new values only sets the status. */
  lemma RescheduleWithoutValues(list: seq<ClientAppointment>, id: int)
    ensures Reschedule(list, id, None, "") ==
            UpdateWhere((a: ClientAppointment) => a.id == id, (a: ClientAppointment) => a.(status := "pending"), list)
  {
    var r := Reschedule(list, id, None, "");
    var u := UpdateWhere((a: ClientAppointment) => a.id == id, (a: ClientAppointment) => a.(status := "pending"), list);
    assert forall i :: 0 <= i < |list| ==> r[i] == u[i];
  }

  // ---------------------------------------------------------------------
  // Queries

  predicate ByDate(a: ClientAppointment, b: ClientAppointment)
  {
    a.scheduledDate <= b.scheduledDate
  }

  lemma ByDateTotalPreorder()
    ensures TotalPreorder(ByDate)
  {
  }

  predicate IsUpcoming(a: ClientAppointment, now: int)
  {
    DayStart(a.scheduledDate) >= now && a.status != "cancelled"
  }

  function UpcomingAt(now: int): ClientAppointment -> bool
  {
    (a: ClientAppointment) => IsUpcoming(a, now)
  }

  /** The `limit` a caller that passes none gets. */
  const DefaultUpcomingLimit: nat := 5

  /** `getUpcomingAppointments(limit)`: not cancelled, from today on,
      earliest first, at most `limit`. */
  function Upcoming(list: seq<ClientAppointment>, now: int, limit: nat): (r: seq<ClientAppointment>)
    ensures |r| <= limit
    ensures forall i :: 0 <= i < |r| ==> r[i] in list && IsUpcoming(r[i], now)
    ensures Sorted(ByDate, r)
    ensures |r| == if Count(UpcomingAt(now), list) < limit then Count(UpcomingAt(now), list) else limit
    ensures multiset(r) <= multiset(Filter(UpcomingAt(now), list))
    ensures forall i, x :: 0 <= i < |r| && x in multiset(Filter(UpcomingAt(now), list)) - multiset(r) ==>
              r[i].scheduledDate <= x.scheduledDate
  {
    var kept := Filter(UpcomingAt(now), list);
    ByDateTotalPreorder();
    SortBySortsAndPermutes(ByDate, kept);
    var sorted := SortBy(ByDate, kept);
    SortedKeepsKept(kept, sorted, list, now);
    TakeSorted(ByDate, sorted, limit);
    Take(sorted, limit)
  }

  /** Under the limit nothing is cut: every upcoming appointment is shown,
      each as often as it is in the list. */
  lemma UpcomingUnderLimit(list: seq<ClientAppointment>, now: int, limit: nat)
    requires Count(UpcomingAt(now), list) <= limit
    ensures multiset(Upcoming(list, now, limit)) == multiset(Filter(UpcomingAt(now), list))
  {
    var kept := Filter(UpcomingAt(now), list);
    ByDateTotalPreorder();
    SortBySortsAndPermutes(ByDate, kept);
    assert Upcoming(list, now, limit) == SortBy(ByDate, kept);
  }

  /** A permutation of the kept appointments holds only upcoming ones from
      the list. */
  lemma SortedKeepsKept(kept: seq<ClientAppointment>, sorted: seq<ClientAppointment>, list: seq<ClientAppointment>, now: int)
    requires kept == Filter(UpcomingAt(now), list)
    requires multiset(sorted) == multiset(kept)
    ensures forall i :: 0 <= i < |sorted| ==> sorted[i] in list && IsUpcoming(sorted[i], now)
  {
    forall i | 0 <= i < |sorted|
      ensures sorted[i] in list && IsUpcoming(sorted[i], now)
    {
      assert sorted[i] in multiset(kept);
      var j :| 0 <= j < |kept| && kept[j] == sorted[i];
    }
  }

  /** `getAppointmentsByDateRange(start, end)`: inclusive at both ends, in
      list order. */
  function InDateRange(list: seq<ClientAppointment>, start: int, end: int): (r: seq<ClientAppointment>)
    ensures IsSubsequence(r, list)
    ensures forall i :: 0 <= i < |r| ==> start <= DayStart(r[i].scheduledDate) <= end
    ensures forall i :: 0 <= i < |list| && start <= DayStart(list[i].scheduledDate) <= end ==> list[i] in r
  {
    Filter((a: ClientAppointment) => start <= DayStart(a.scheduledDate) <= end, list)
  }

  /** A range from a day's midnight to that same midnight returns that
      day's appointments. */
  lemma OneDayRange(list: seq<ClientAppointment>, day: int)
    ensures InDateRange(list, DayStart(day), DayStart(day)) ==
            Filter((a: ClientAppointment) => a.scheduledDate == day, list)
  {
    FilterExt((a: ClientAppointment) => DayStart(day) <= DayStart(a.scheduledDate) <= DayStart(day),
              (a: ClientAppointment) => a.scheduledDate == day, list);
  }

  /** `getTodaysAppointments`: today's, not cancelled, in list order;
      `today` is the UTC day of the clock. */
  function Todays(list: seq<ClientAppointment>, today: int): (r: seq<ClientAppointment>)
    ensures IsSubsequence(r, list)
    ensures forall i :: 0 <= i < |r| ==> r[i].scheduledDate == today && r[i].status != "cancelled"
    ensures forall i :: 0 <= i < |list| && list[i].scheduledDate == today && list[i].status != "cancelled" ==> list[i] in r
  {
    Filter((a: ClientAppointment) => a.scheduledDate == today && a.status != "cancelled", list)
  }

  /** A cancelled appointment drops out of today's list. */
  lemma CancelledLeavesToday(list: seq<ClientAppointment>, id: int, today: int)
    ensures forall i :: 0 <= i < |Todays(Cancel(list, id), today)| ==> Todays(Cancel(list, id), today)[i].id != id
  {
  }
}

=== FILE: use_notifications.dfy ===
/** The patient-side notification hook: the list, the unread counter kept
    beside it, and the operations that update both. Times are milliseconds
    since the epoch; the fresh id and "now" of a new notification are
    parameters. */
module ClientNotifications {
  import opened Wrappers
  import opened Seqs

  /** A notification as the hook keeps it; `kind` is the record's `type`. */
  datatype Notice = Notice(
    id: int,
    title: string,
    message: string,
    kind: string,
    isRead: bool,
    createdAt: int,
    actionUrl: string)

  /** The hook's state: the list and the separately kept unread counter. */
  datatype State = State(notifications: seq<Notice>, unreadCount: int)

  predicate IsUnread(n: Notice)
  {
    !n.isRead
  }

  function HasId(id: int): Notice -> bool
  {
    (n: Notice) => n.id == id
  }

  function LacksId(id: int): Notice -> bool
  {
    (n: Notice) => n.id != id
  }

  /** The counter agrees with the list. */
  predicate Consistent(s: State)
  {
    s.unreadCount == Count(IsUnread, s.notifications)
  }

  predicate DistinctIds(list: seq<Notice>)
  {
    forall i, j :: 0 <= i < j < |list| ==> list[i].id != list[j].id
  }

  /** The six development notifications. */
  const MockNotifications: seq<Notice> := [
    Notice(1, "Appointment Reminder", "Your Abhyanga session is scheduled for tomorrow at 10:00 AM",
           "appointment", false, 1736877600000, "/appointments/1"),
    Notice(2, "Treatment Progress", "Congratulations! You have completed 65% of your Panchakarma treatment",
           "success", false, 1736856000000, "/progress"),
    Notice(3, "Dietary Guidelines", "New dietary recommendations have been added to your treatment plan",
           "info", true, 1736782200000, "/diet-plan"),
    Notice(4, "Preparation Reminder", "Please avoid heavy meals 2 hours before your Shirodhara session",
           "reminder", false, 1736758800000, "/appointments/2"),
    Notice(5, "Milestone Achievement", "You have reached the midpoint of your treatment journey!",
           "success", true, 1736700300000, "/milestones"),
    Notice(6, "Session Feedback", "Please provide feedback for your recent Abhyanga session",
           "info", true, 1736625600000, "/feedback/1")
  ]

  /** `fetchNotifications`: the loaded list, with the counter set to the
      number of unread entries. */
  function Fetch(list: seq<Notice>): (s: State)
    ensures s.notifications == list
    ensures Consistent(s)
    ensures s.unreadCount == |Filter(IsUnread, list)|
  {
    CountIsFilterLength(IsUnread, list);
    State(list, Count(IsUnread, list))
  }

  /** Loading the development list counts three unread notifications. */
  lemma MockFetchCountsThree()
    ensures Fetch(MockNotifications).unreadCount == 3
  {
    var m := MockNotifications;
    assert m[1..][1..][1..][1..][1..][1..] == [];
  }

  /** `markAsRead(id)`: the entries with that id become read; the counter
      drops by one but never below zero, whether or not anything changed. */
  function MarkAsRead(s: State, id: int): (r: State)
    ensures |r.notifications| == |s.notifications|
    ensures forall i :: 0 <= i < |s.notifications| ==>
              r.notifications[i] == (if s.notifications[i].id == id then s.notifications[i].(isRead := true)
                                     else s.notifications[i])
    ensures r.unreadCount == if s.unreadCount - 1 < 0 then 0 else s.unreadCount - 1
  {
    var list := UpdateWhere(HasId(id), (n: Notice) => n.(isRead := true), s.notifications);
    State(list, if s.unreadCount - 1 < 0 then 0 else s.unreadCount - 1)
  }

  /** Marking an unread notification with a unique id keeps the counter
      consistent. */
  lemma MarkUnreadKeepsConsistent(s: State, k: int)
    requires Consistent(s) && DistinctIds(s.notifications)
    requires 0 <= k < |s.notifications| && !s.notifications[k].isRead
    ensures Consistent(MarkAsRead(s, s.notifications[k].id))
  {
    var id := s.notifications[k].id;
    var r := MarkAsRead(s, id);
    CountAfterMark(s.notifications, r.notifications, id, k);
  }

  /** Marking an already-read notification still lowers the counter, so
      the counter then falls below the number of unread entries. */
  lemma MarkReadTwiceUndercounts(s: State, k: int)
    requires Consistent(s) && s.unreadCount > 0
    requires 0 <= k < |s.notifications| && s.notifications[k].isRead
    requires DistinctIds(s.notifications)
    ensures MarkAsRead(s, s.notifications[k].id).unreadCount < Count(IsUnread, MarkAsRead(s, s.notifications[k].id).notifications)
  {
    var id := s.notifications[k].id;
    var r := MarkAsRead(s, id);
    assert forall i :: 0 <= i < |s.notifications| ==> r.notifications[i].isRead == s.notifications[i].isRead;
    CountSamePattern(s.notifications, r.notifications);
  }

  /** Two lists of equal length with the same read flags count alike. */
  lemma {:induction false} CountSamePattern(a: seq<Notice>, b: seq<Notice>)
    requires |a| == |b|
    requires forall i :: 0 <= i < |a| ==> a[i].isRead == b[i].isRead
    ensures Count(IsUnread, a) == Count(IsUnread, b)
    decreases |a|
  {
    if |a| > 0 {
      CountSamePattern(a[1..], b[1..]);
    }
  }

  /** Setting the read flag of exactly entry `k` (unread before) removes one
      unread entry. */
  lemma {:induction false} CountAfterMark(a: seq<Notice>, b: seq<Notice>, id: int, k: int)
    requires |a| == |b| && 0 <= k < |a|
    requires !a[k].isRead && b[k].isRead
    requires forall i :: 0 <= i < |a| && i != k ==> a[i].isRead == b[i].isRead
    ensures Count(IsUnread, b) == Count(IsUnread, a) - 1
    decreases |a|
  {
    if k == 0 {
      CountSamePattern(a[1..], b[1..]);
    } else {
      CountAfterMark(a[1..], b[1..], id, k - 1);
    }
  }

  /** `markAllAsRead`: every entry read, the counter zero. */
  function MarkAllAsRead(s: State): (r: State)
    ensures |r.notifications| == |s.notifications|
    ensures forall i :: 0 <= i < |s.notifications| ==> r.notifications[i] == s.notifications[i].(isRead := true)
    ensures r.unreadCount == 0
  {
    State(UpdateWhere((n: Notice) => true, (n: Notice) => n.(isRead := true), s.notifications), 0)
  }

  /** After marking all, the counter is consistent whatever it was before. */
  lemma MarkAllConsistent(s: State)
    ensures Consistent(MarkAllAsRead(s))
    ensures Filter(IsUnread, MarkAllAsRead(s).notifications) == []
  {
    var r := MarkAllAsRead(s);
    CountIsFilterLength(IsUnread, r.notifications);
  }

  /** `deleteNotification(id)`: every entry with that id removed; the
      counter drops (floored at zero) only if the first such entry was
      unread. */
  function Delete(s: State, id: int): (r: State)
    ensures r.notifications == Filter(LacksId(id), s.notifications)
    ensures forall i :: 0 <= i < |r.notifications| ==> r.notifications[i].id != id
    ensures forall i :: 0 <= i < |s.notifications| && s.notifications[i].id != id ==> s.notifications[i] in r.notifications
    ensures var k := FindIndex(HasId(id), s.notifications);
            r.unreadCount == if k >= 0 && !s.notifications[k].isRead
                             then (if s.unreadCount - 1 < 0 then 0 else s.unreadCount - 1)
                             else s.unreadCount
  {
    var k := FindIndex(HasId(id), s.notifications);
    var list := Filter(LacksId(id), s.notifications);
    if k >= 0 && !s.notifications[k].isRead then
      State(list, if s.unreadCount - 1 < 0 then 0 else s.unreadCount - 1)
    else State(list, s.unreadCount)
  }

  /** With unique ids, deleting keeps the counter consistent. */
  lemma DeleteKeepsConsistent(s: State, id: int)
    requires Consistent(s) && DistinctIds(s.notifications)
    ensures Consistent(Delete(s, id))
  {
    CountAfterDelete(s.notifications, id);
  }

  /** 1 when the first entry with that id is unread, otherwise 0. */
  function DeletedUnread(a: seq<Notice>, id: int): nat
  {
    var k := FindIndex(HasId(id), a);
    if k >= 0 && !a[k].isRead then 1 else 0
  }

  lemma {:induction false} CountAfterDelete(a: seq<Notice>, id: int)
    requires DistinctIds(a)
    ensures Count(IsUnread, a) == Count(IsUnread, Filter(LacksId(id), a)) + DeletedUnread(a, id)
    decreases |a|
  {
    if |a| > 0 {
      CountCons(a);
      if a[0].id == id {
        HeadDeleted(a, id);
      } else {
        TailDistinct(a);
        CountAfterDelete(a[1..], id);
        HeadKept(a, id);
      }
    }
  }

  lemma CountCons(a: seq<Notice>)
    requires |a| > 0
    ensures Count(IsUnread, a) == (if IsUnread(a[0]) then 1 else 0) + Count(IsUnread, a[1..])
  {
  }

  lemma TailDistinct(a: seq<Notice>)
    requires |a| > 0 && DistinctIds(a)
    ensures DistinctIds(a[1..])
  {
    var t := a[1..];
    forall i, j | 0 <= i < j < |t|
      ensures t[i].id != t[j].id
    {
      assert t[i] == a[i + 1] && t[j] == a[j + 1];
    }
  }

  /** The head carries the id: it alone goes. */
  lemma HeadDeleted(a: seq<Notice>, id: int)
    requires |a| > 0 && a[0].id == id && DistinctIds(a)
    ensures Filter(LacksId(id), a) == a[1..]
    ensures DeletedUnread(a, id) == if IsUnread(a[0]) then 1 else 0
  {
    var t := a[1..];
    forall i | 0 <= i < |t|
      ensures LacksId(id)(t[i])
    {
      assert t[i] == a[i + 1];
    }
    FilterKeepsAll(LacksId(id), t);
  }

  /** The head lacks the id: it stays, and the deleted entry is in the tail. */
  lemma HeadKept(a: seq<Notice>, id: int)
    requires |a| > 0 && a[0].id != id
    ensures Count(IsUnread, Filter(LacksId(id), a)) ==
              (if IsUnread(a[0]) then 1 else 0) + Count(IsUnread, Filter(LacksId(id), a[1..]))
    ensures DeletedUnread(a, id) == DeletedUnread(a[1..], id)
  {
    var kept := Filter(LacksId(id), a[1..]);
    HeadStays(a, id);
    CountCons([a[0]] + kept);
    assert ([a[0]] + kept)[1..] == kept;
    FirstMatchShifts(a, id);
  }

  lemma HeadStays(a: seq<Notice>, id: int)
    requires |a| > 0 && a[0].id != id
    ensures Filter(LacksId(id), a) == [a[0]] + Filter(LacksId(id), a[1..])
  {
  }

  lemma FirstMatchShifts(a: seq<Notice>, id: int)
    requires |a| > 0 && a[0].id != id
    ensures DeletedUnread(a, id) == DeletedUnread(a[1..], id)
  {
    var k := FindIndex(HasId(id), a[1..]);
    assert FindIndex(HasId(id), a) == if k == -1 then -1 else k + 1;
    if k >= 0 {
      assert a[k + 1] == a[1..][k];
    }
  }

  /** The caller's fields of a new notification; `id` overrides the
      generated one when given. */
  datatype NoticeData = NoticeData(id: Option<int>, title: string, message: string, kind: string, actionUrl: string)

  /** `sendNotification(data)`: the new entry, unread and stamped `now`,
      goes first; the counter rises by one. */
  function Send(s: State, data: NoticeData, freshId: int, now: int): (out: (Notice, State))
    ensures out.1.notifications == [out.0] + s.notifications
    ensures !out.0.isRead && out.0.createdAt == now
    ensures out.0.id == (if data.id.Some? then data.id.value else freshId)
    ensures out.0.title == data.title && out.0.message == data.message && out.0.kind == data.kind
    ensures out.0.actionUrl == data.actionUrl
    ensures out.1.unreadCount == s.unreadCount + 1
  {
    var n := Notice(if data.id.Some? then data.id.value else freshId,
                    data.title, data.message, data.kind, false, now, data.actionUrl);
    (n, State([n] + s.notifications, s.unreadCount + 1))
  }

  /** Sending keeps the counter consistent. */
  lemma SendKeepsConsistent(s: State, data: NoticeData, freshId: int, now: int)
    requires Consistent(s)
    ensures Consistent(Send(s, data, freshId, now).1)
  {
    var r := Send(s, data, freshId, now).1;
    assert r.notifications[1..] == s.notifications;
  }

  /** `getNotificationsByType(type)`. */
  function ByType(list: seq<Notice>, kind: string): (r: seq<Notice>)
    ensures IsSubsequence(r, list)
    ensures forall i :: 0 <= i < |r| ==> r[i].kind == kind
    ensures forall i :: 0 <= i < |list| && list[i].kind == kind ==> list[i] in r
  {
    Filter((n: Notice) => n.kind == kind, list)
  }

  /** `getUnreadNotifications()`. */
  function Unread(list: seq<Notice>): (r: seq<Notice>)
    ensures IsSubsequence(r, list)
    ensures forall i :: 0 <= i < |r| ==> !r[i].isRead
    ensures forall i :: 0 <= i < |list| && !list[i].isRead ==> list[i] in r
  {
    Filter(IsUnread, list)
  }

  /** While the counter is consistent it is the length of the unread list. */
  lemma CounterIsUnreadLength(s: State)
    requires Consistent(s)
    ensures s.unreadCount == |Unread(s.notifications)|
  {
    CountIsFilterLength(IsUnread, s.notifications);
  }

  predicate NewerFirst(a: Notice, b: Notice)
  {
    a.createdAt >= b.createdAt
  }

  /** The `limit` a caller that passes none gets. */
  const DefaultRecentLimit: nat := 5

  /** `getRecentNotifications(limit)`: newest first (a stable sort on
      `createdAt`, descending), at most `limit`. */
  function Recent(list: seq<Notice>, limit: nat): (r: seq<Notice>)
    ensures |r| == if limit < |list| then limit else |list|
    ensures forall i :: 0 <= i < |r| ==> r[i] in list
    ensures forall i, j :: 0 <= i < j < |r| ==> r[i].createdAt >= r[j].createdAt
    ensures multiset(r) <= multiset(list)
    ensures forall i, x :: 0 <= i < |r| && x in multiset(list) - multiset(r) ==> r[i].createdAt >= x.createdAt
  {
    assert TotalPreorder(NewerFirst);
    var sorted := SortBy(NewerFirst, list);
    SortBySortsAndPermutes(NewerFirst, list);
    assert forall i :: 0 <= i < |sorted| ==> sorted[i] in multiset(list);
    TakeSorted(NewerFirst, sorted, limit);
    Take(sorted, limit)
  }

  /** The newest notification is always first when any is returned. */
  lemma RecentStartsWithNewest(list: seq<Notice>, limit: nat)
    requires limit > 0 && |list| > 0
    ensures forall i :: 0 <= i < |list| ==> Recent(list, limit)[0].createdAt >= list[i].createdAt
  {
    var sorted := SortBy(NewerFirst, list);
    SortBySortsAndPermutes(NewerFirst, list);
    assert TotalPreorder(NewerFirst);
    forall i | 0 <= i < |list|
      ensures sorted[0].createdAt >= list[i].createdAt
    {
      assert list[i] in multiset(sorted);
      var j :| 0 <= j < |sorted| && sorted[j] == list[i];
    }
  }
}

=== FILE: use_patient_management.dfy ===
/** The practitioner-side patient hook: add, update, delete and search over
    the list of patient records. */
module PatientManagement {
  import opened Wrappers
  import opened Seqs
  import opened Text

  datatype Patient = Patient(
    id: string,
    name: string,
    age: int,
    gender: string,
    phone: string,
    email: string,
    constitution: string,
    status: string)

  /** The fields given to `addPatient`; `id` is optional. */
  datatype NewPatient = NewPatient(
    id: Option<string>,
    name: string,
    age: int,
    gender: string,
    phone: string,
    email: string,
    constitution: string)

  /** The fields given to `updatePatient`; absent fields are kept. */
  datatype PatientUpdate = PatientUpdate(
    id: Option<string>,
    name: Option<string>,
    age: Option<int>,
    gender: Option<string>,
    phone: Option<string>,
    email: Option<string>,
    constitution: Option<string>,
    status: Option<string>)

  const MockPatients: seq<Patient> := [
    Patient("P001", "Rajesh Kumar", 45, "Male", "+91 98765 43210", "rajesh.kumar@email.com", "Vata-Pitta", "Active"),
    Patient("P002", "Priya Sharma", 32, "Female", "+91 87654 32109", "priya.sharma@email.com", "Pitta-Kapha", "Active"),
    Patient("P003", "Amit Patel", 38, "Male", "+91 76543 21098", "amit.patel@email.com", "Kapha-Vata", "Completed")
  ]

  /** `'P' + String(count + 1).padStart(3, '0')`. */
  function DefaultId(count: nat): (id: string)
    ensures |id| >= 4 && id[0] == 'P'
  {
    "P" + PadStart(NatToString(count + 1), 3, '0')
  }

  /** The default id reads back as the position the new record takes. */
  lemma DefaultIdNumbersPosition(count: nat)
    ensures forall i :: 1 <= i < |DefaultId(count)| ==> IsDigit(DefaultId(count)[i])
    ensures DigitsValue(DefaultId(count)[1..]) == count + 1
    ensures count < 999 ==> |DefaultId(count)| == 4
  {
    PadStartValue(count + 1, 3);
    var p := PadStart(NatToString(count + 1), 3, '0');
    assert DefaultId(count)[1..] == p;
    if count < 999 {
      NatToStringShort(count + 1);
    }
  }

  /** `addPatient(data)`: the new record goes last, with the supplied id or
      the default one, and status Active. */
  function Add(list: seq<Patient>, data: NewPatient): (out: (Patient, seq<Patient>))
    ensures out.1 == list + [out.0]
    ensures out.0.id == (if data.id.Some? then data.id.value else DefaultId(|list|))
    ensures out.0.status == "Active"
    ensures out.0.name == data.name && out.0.email == data.email && out.0.phone == data.phone
    ensures out.0.age == data.age && out.0.gender == data.gender && out.0.constitution == data.constitution
  {
    var p := Patient(if data.id.Some? then data.id.value else DefaultId(|list|),
                     data.name, data.age, data.gender, data.phone, data.email, data.constitution, "Active");
    (p, list + [p])
  }

  /** `{...patient, ...updates}`. */
  function Merge(p: Patient, u: PatientUpdate): (r: Patient)
    ensures u.id.Some? ==> r.id == u.id.value
    ensures u.id.None? ==> r.id == p.id
    ensures u.name.Some? ==> r.name == u.name.value
    ensures u.name.None? ==> r.name == p.name
    ensures u.age.Some? ==> r.age == u.age.value
    ensures u.age.None? ==> r.age == p.age
    ensures u.gender.Some? ==> r.gender == u.gender.value
    ensures u.gender.None? ==> r.gender == p.gender
    ensures u.phone.Some? ==> r.phone == u.phone.value
    ensures u.phone.None? ==> r.phone == p.phone
    ensures u.email.Some? ==> r.email == u.email.value
    ensures u.email.None? ==> r.email == p.email
    ensures u.constitution.Some? ==> r.constitution == u.constitution.value
    ensures u.constitution.None? ==> r.constitution == p.constitution
    ensures u.status.Some? ==> r.status == u.status.value
    ensures u.status.None? ==> r.status == p.status
  {
    Patient(
      if u.id.Some? then u.id.value else p.id,
      if u.name.Some? then u.name.value else p.name,
      if u.age.Some? then u.age.value else p.age,
      if u.gender.Some? then u.gender.value else p.gender,
      if u.phone.Some? then u.phone.value else p.phone,
      if u.email.Some? then u.email.value else p.email,
      if u.constitution.Some? then u.constitution.value else p.constitution,
      if u.status.Some? then u.status.value else p.status)
  }

  const NoChange := PatientUpdate(None, None, None, None, None, None, None, None)

  /** An empty update is the identity, and merging the same update twice is
      merging it once. */
  lemma MergeLaws(p: Patient, u: PatientUpdate)
    ensures Merge(p, NoChange) == p
    ensures Merge(Merge(p, u), u) == Merge(p, u)
  {
  }

  /** `updatePatient(id, updates)`: the records with that id are merged;
      the others and the length are unchanged. */
  function Update(list: seq<Patient>, id: string, u: PatientUpdate): (r: seq<Patient>)
    ensures |r| == |list|
    ensures forall i :: 0 <= i < |list| ==> r[i] == if list[i].id == id then Merge(list[i], u) else list[i]
  {
    UpdateWhere((p: Patient) => p.id == id, (p: Patient) => Merge(p, u), list)
  }

  /** `deletePatient(id)`: exactly the records with that id go. */
  function Delete(list: seq<Patient>, id: string): (r: seq<Patient>)
    ensures IsSubsequence(r, list)
    ensures forall i :: 0 <= i < |r| ==> r[i].id != id
    ensures forall i :: 0 <= i < |list| && list[i].id != id ==> list[i] in r
  {
    Filter((p: Patient) => p.id != id, list)
  }

  /** Deleting an id that no record has changes nothing. */
  lemma DeleteAbsentIsIdentity(list: seq<Patient>, id: string)
    requires forall i :: 0 <= i < |list| ==> list[i].id != id
    ensures Delete(list, id) == list
  {
    FilterKeepsAll((p: Patient) => p.id != id, list);
  }

  /** An added record (id unused before) is removed again by deleting its id. */
  lemma AddThenDelete(list: seq<Patient>, data: NewPatient)
    requires forall i :: 0 <= i < |list| ==> list[i].id != Add(list, data).0.id
    ensures Delete(Add(list, data).1, Add(list, data).0.id) == list
  {
    var p := Add(list, data).0;
    FilterConcat((q: Patient) => q.id != p.id, list, [p]);
    DeleteAbsentIsIdentity(list, p.id);
  }

  /** The default id counts records, not ids ever used: after a delete, an
      add can reuse the id of a record still present. */
  lemma DefaultIdCanRepeat()
    ensures var after := Delete(MockPatients, "P001");
            var added := Add(after, NewPatient(None, "A", 30, "Male", "1", "a@b", "Vata")).0;
            added.id == "P003" && after[|after| - 1].id == "P003"
  {
    MockDeleteFirst();
    ThirdDefaultId();
  }

  /** Deleting P001 from the sample patients drops the first record. */
  lemma MockDeleteFirst()
    ensures Delete(MockPatients, "P001") == MockPatients[1..]
  {
  }

  /** A list of two records proposes P003. */
  lemma ThirdDefaultId()
    ensures DefaultId(2) == "P003"
  {
    assert NatToString(3) == "3";
  }

  /** The search condition for a non-empty query. */
  predicate Matches(p: Patient, query: string)
  {
    || ContainsIgnoreCase(p.name, query)
    || ContainsIgnoreCase(p.email, query)
    || Contains(p.phone, query)
    || ContainsIgnoreCase(p.id, query)
  }

  /** `searchPatients(query)`: everything for an empty query, else the
      matching records in list order. */
  function Search(list: seq<Patient>, query: string): (r: seq<Patient>)
    ensures query == "" ==> r == list
    ensures IsSubsequence(r, list)
    ensures query != "" ==> forall i :: 0 <= i < |r| ==> Matches(r[i], query)
    ensures query != "" ==> forall i :: 0 <= i < |list| && Matches(list[i], query) ==> list[i] in r
  {
    SubsequenceRefl(list);
    if query == "" then list else Filter((p: Patient) => Matches(p, query), list)
  }

  /** The name, e-mail and id tests ignore case; the phone test does not,
      which only matters for letters. */
  lemma SearchIgnoresCaseOfQuery(list: seq<Patient>, query: string)
    requires query != ""
    requires forall i :: 0 <= i < |list| ==> Contains(list[i].phone, Lower(query)) == Contains(list[i].phone, query)
    ensures Search(list, Lower(query)) == Search(list, query)
  {
    forall i | 0 <= i < |list|
      ensures Matches(list[i], Lower(query)) == Matches(list[i], query)
    {
      ContainsIgnoreCaseIsCaseBlind(list[i].name, query);
      ContainsIgnoreCaseIsCaseBlind(list[i].email, query);
      ContainsIgnoreCaseIsCaseBlind(list[i].id, query);
    }
    assert Lower(query) != "";
    FilterExt((p: Patient) => Matches(p, Lower(query)), (p: Patient) => Matches(p, query), list);
  }
}

=== FILE: use_patient_progress.dfy ===
/** The patient progress hook: the dated timeline of progress entries and
    the derived trend, phase progress, weekly report and next milestone.
    Dates are day ordinals. */
module PatientProgress {
  import opened Wrappers
  import opened Seqs

  /** One timeline entry: overall progress and the five tracked metrics. */
  datatype Entry = Entry(date: int, progress: int, energy: int, sleep: int, digestion: int, stress: int, pain: int)

  datatype Metric = Progress | Energy | Sleep | Digestion | Stress | Pain

  function Value(e: Entry, m: Metric): int
  {
    match m
    case Progress => e.progress
    case Energy => e.energy
    case Sleep => e.sleep
    case Digestion => e.digestion
    case Stress => e.stress
    case Pain => e.pain
  }

  datatype Milestone = Milestone(id: int, name: string, date: int, completed: bool)

  datatype Symptom = Symptom(name: string, before: int, current: int, improvement: int)

  predicate EarlierOrSame(a: Entry, b: Entry)
  {
    a.date <= b.date
  }

  lemma EarlierOrSameTotalPreorder()
    ensures TotalPreorder(EarlierOrSame)
  {
  }

  /** `updateProgressEntry(date, metrics)`: the entry is added and the
      timeline re-sorted by date (stably). */
  function AddEntry(timeline: seq<Entry>, e: Entry): (r: seq<Entry>)
    ensures |r| == |timeline| + 1
    ensures multiset(r) == multiset(timeline) + multiset{e}
    ensures forall i, j :: 0 <= i < j < |r| ==> r[i].date <= r[j].date
  {
    EarlierOrSameTotalPreorder();
    SortBySortsAndPermutes(EarlierOrSame, timeline + [e]);
    SortBy(EarlierOrSame, timeline + [e])
  }

  /** An entry later than every other ends up last. */
  lemma LatestEntryGoesLast(timeline: seq<Entry>, e: Entry)
    requires forall i :: 0 <= i < |timeline| ==> timeline[i].date < e.date
    ensures AddEntry(timeline, e)[|timeline|] == e
  {
    var r := AddEntry(timeline, e);
    forall i | 0 <= i < |r| && r[i] != e
      ensures r[i].date < e.date
    {
      assert r[i] in multiset(r);
      assert r[i] in multiset(timeline);
    }
    assert e in multiset(r);
    var k :| 0 <= k < |r| && r[k] == e;
  }

  /** `array.slice(start)` for an integer `start`. */
  function SliceFrom<T>(s: seq<T>, start: int): (r: seq<T>)
    ensures |r| <= |s|
    ensures r == s[|s| - |r|..]
  {
    var k := if start < 0 then (if |s| + start < 0 then 0 else |s| + start)
             else (if start < |s| then start else |s|);
    s[k..]
  }

  datatype Direction = Up | Down | Stable

  datatype Trend = Trend(change: int, direction: Direction)

  /** `getProgressTrend(metric, days)`: over `timeline.slice(-days)`, the
      last value minus the first, and its sign; `None` without a timeline or
      with fewer than two entries in the window. */
  function ProgressTrend(timeline: Option<seq<Entry>>, m: Metric, days: int): (r: Option<Trend>)
    ensures timeline.None? ==> r.None?
    ensures timeline.Some? ==> (r.None? <==> |SliceFrom(timeline.value, -days)| < 2)
    ensures r.Some? ==>
              var w := SliceFrom(timeline.value, -days);
              && r.value.change == Value(w[|w| - 1], m) - Value(w[0], m)
              && (r.value.direction == Up <==> r.value.change > 0)
              && (r.value.direction == Down <==> r.value.change < 0)
              && (r.value.direction == Stable <==> r.value.change == 0)
  {
    if timeline.None? then None
    else
      var w := SliceFrom(timeline.value, -days);
      if |w| < 2 then None
      else
        var change := Value(w[|w| - 1], m) - Value(w[0], m);
        Some(Trend(change, if change > 0 then Up else if change < 0 then Down else Stable))
  }

  /** For a positive window the trend compares the entry `days - 1` places
      before the last (or the first entry) with the last one. */
  lemma TrendWindow(t: seq<Entry>, m: Metric, days: int)
    requires days >= 2 && |t| >= 2
    ensures var first := if days < |t| then |t| - days else 0;
            var r := ProgressTrend(Some(t), m, days);
            r.Some? && r.value.change == Value(t[|t| - 1], m) - Value(t[first], m)
  {
    WindowEnds(t, days);
  }

  /** `slice(-days)` for `days >= 2` keeps the last `days` entries (or all
      of them), so at least two, ending at the last. */
  lemma WindowEnds(t: seq<Entry>, days: int)
    requires days >= 2 && |t| >= 2
    ensures var first := if days < |t| then |t| - days else 0;
            var w := SliceFrom(t, -days);
            && |w| >= 2 && w[0] == t[first] && w[|w| - 1] == t[|t| - 1]
  {
    var first := if days < |t| then |t| - days else 0;
    assert SliceFrom(t, -days) == t[first..];
  }

  /** With `days` 0, `slice(-0)` is the whole timeline. */
  lemma ZeroDaysUsesWholeTimeline(t: seq<Entry>, m: Metric)
    requires |t| >= 2
    ensures ProgressTrend(Some(t), m, 0).Some?
    ensures ProgressTrend(Some(t), m, 0).value.change == Value(t[|t| - 1], m) - Value(t[0], m)
  {
  }

  // ---------------------------------------------------------------------
  // Phase progress

  datatype PhaseProgressInfo = PhaseProgressInfo(phase: string, progress: real, isComplete: bool)

  /** The progress range of each phase. */
  function PhaseRange(phase: string): Option<(int, int)>
  {
    match phase
    case "purvakarma" => Some((0, 25))
    case "pradhankarma" => Some((25, 80))
    case "paschatkarma" => Some((80, 100))
    case _ => None
  }

  function Clamp(x: real): (r: real)
    ensures 0.0 <= r <= 100.0
    ensures 0.0 <= x <= 100.0 ==> r == x
  {
    if x < 0.0 then 0.0 else if x > 100.0 then 100.0 else x
  }

  /** `getCurrentPhaseProgress()`: the position inside the phase's range, as
      a percentage clamped to [0, 100]; `None` for an unknown phase. */
  function CurrentPhaseProgress(phase: string, currentProgress: int): (r: Option<PhaseProgressInfo>)
    ensures r.None? <==> PhaseRange(phase).None?
    ensures r.Some? ==> r.value.phase == phase && 0.0 <= r.value.progress <= 100.0
    ensures r.Some? ==> (r.value.isComplete <==> currentProgress >= PhaseRange(phase).value.1)
    ensures r.Some? && currentProgress >= PhaseRange(phase).value.1 ==> r.value.progress == 100.0
    ensures r.Some? && currentProgress <= PhaseRange(phase).value.0 ==> r.value.progress == 0.0
  {
    var range := PhaseRange(phase);
    if range.None? then None
    else
      var (start, end) := range.value;
      var raw := ((currentProgress - start) as real / (end - start) as real) * 100.0;
      Some(PhaseProgressInfo(phase, Clamp(raw), currentProgress >= end))
  }

  /** Phase progress never goes down as overall progress goes up. */
  lemma PhaseProgressMonotone(phase: string, a: int, b: int)
    requires PhaseRange(phase).Some? && a <= b
    ensures CurrentPhaseProgress(phase, a).value.progress <= CurrentPhaseProgress(phase, b).value.progress
  {
    var (start, end) := PhaseRange(phase).value;
    var w := (end - start) as real;
    assert (a - start) as real / w <= (b - start) as real / w;
  }

  /** The mock state: 65% overall in pradhankarma is 72.7...% of the phase,
      not complete. */
  lemma MockPhaseProgress()
    ensures CurrentPhaseProgress("pradhankarma", 65).value.progress == 4000.0 / 55.0
    ensures !CurrentPhaseProgress("pradhankarma", 65).value.isComplete
  {
  }

  // ---------------------------------------------------------------------
  // Weekly report and milestones

  /** The integer parts of `getWeeklyReport()`; the averages are left out. */
  datatype WeeklyReport = WeeklyReport(firstDate: int, lastDate: int, totalSessions: nat, progressGain: int)

  /** `getWeeklyReport()`: over the last seven entries; `None` without a
      timeline or with an empty one. */
  function Weekly(timeline: Option<seq<Entry>>): (r: Option<WeeklyReport>)
    ensures r.None? <==> timeline.None? || |timeline.value| == 0
    ensures r.Some? ==>
              var t := timeline.value;
              var n := if |t| < 7 then |t| else 7;
              && r.value.totalSessions == n
              && r.value.firstDate == t[|t| - n].date && r.value.lastDate == t[|t| - 1].date
              && r.value.progressGain == t[|t| - 1].progress - t[|t| - n].progress
  {
    if timeline.None? then None
    else
      var w := TakeLast(timeline.value, 7);
      if |w| == 0 then None
      else Some(WeeklyReport(w[0].date, w[|w| - 1].date, |w|, w[|w| - 1].progress - w[0].progress))
  }

  /** The weekly progress gain is the seven-day progress trend's change. */
  lemma WeeklyGainIsTrend(t: seq<Entry>)
    requires |t| >= 2
    ensures Weekly(Some(t)).value.progressGain == ProgressTrend(Some(t), Progress, 7).value.change
  {
  }

  /** `getNextMilestone()`: the first milestone not completed. */
  function NextMilestone(milestones: Option<seq<Milestone>>): (r: Option<Milestone>)
    ensures milestones.None? ==> r.None?
    ensures milestones.Some? ==>
              (r.None? <==> forall i :: 0 <= i < |milestones.value| ==> milestones.value[i].completed)
    ensures r.Some? ==> exists i :: 0 <= i < |milestones.value| && milestones.value[i] == r.value
                          && !r.value.completed
                          && forall j :: 0 <= j < i ==> milestones.value[j].completed
  {
    if milestones.None? then None
    else
      var k := FindIndex((m: Milestone) => !m.completed, milestones.value);
      if k < 0 then None else Some(milestones.value[k])
  }

  /** `getSymptomImprovement(name)`: the first symptom of that name. */
  function SymptomImprovement(symptoms: Option<seq<Symptom>>, name: string): (r: Option<int>)
    ensures r.Some? <==> symptoms.Some? && exists i :: 0 <= i < |symptoms.value| && symptoms.value[i].name == name
    ensures r.Some? ==> exists i :: 0 <= i < |symptoms.value| && symptoms.value[i].name == name
                          && symptoms.value[i].improvement == r.value
                          && forall j :: 0 <= j < i ==> symptoms.value[j].name != name
  {
    if symptoms.None? then None
    else
      var k := FindIndex((s: Symptom) => s.name == name, symptoms.value);
      if k < 0 then None else Some(symptoms.value[k].improvement)
  }

  const MockMilestones: seq<Milestone> := [
    Milestone(1, "Treatment Started", 20089, true),
    Milestone(2, "Purvakarma Completed", 20095, true),
    Milestone(3, "Energy Improvement", 20096, true),
    Milestone(4, "Midpoint Reached", 20100, true),
    Milestone(5, "Symptom Relief", 20103, false),
    Milestone(6, "Pradhankarma Complete", 20108, false),
    Milestone(7, "Treatment Complete", 20116, false)
  ]

  /** In the mock data the next milestone is the fifth. */
  lemma MockNextMilestone()
    ensures NextMilestone(Some(MockMilestones)) == Some(MockMilestones[4])
  {
    var r := NextMilestone(Some(MockMilestones));
    var i :| 0 <= i < 7 && MockMilestones[i] == r.value && !r.value.completed
             && forall j :: 0 <= j < i ==> MockMilestones[j].completed;
    assert i == 4;
  }
}

=== FILE: wrappers.dfy ===
/** Optional values and the outcomes of the HTTP routes. */
module Wrappers {

  /** A value that may be absent (JavaScript `undefined`/`null`). */
  datatype Option<+T> = None | Some(value: T)

  /** What a route answers: a JSON body with `success: true` (status 200),
      or a `{success: false, message}` body with status 400 or 404. */
  datatype Response<+T> =
    | Ok(value: T)
    | BadRequest(message: string)
    | NotFound(message: string)
}
